=== FILE: README.md ===
# AICO terminal management — a Dafny model of its core

AICO terminals are speaking kiosks. They post what a customer said to a
management server, poll it once a minute, and listen on a server-sent-event
stream for text they are told to speak. This project models the parts of
that server and of its admin dashboard that decide behaviour. It states and
proves their properties:

- **Keyword-rule dispatcher** (`ActionService`):
  - splits and trims each rule's keywords and matches them by AND or OR;
  - renders notification templates by sequential global replacement;
  - walks the rules, recording every CHATWORK and EMAIL delivery in a trace, until the first matching MEDIA rule with a file.
- **Liveness state machine** (`PollingService`): the per-terminal body of the minute tick, and the heartbeat a terminal sends when it polls.
- **Stream registry** (`SseService`): register, cleanup, keep-alive, push by raw id prefix, and the periodic sweep.
- **Controllers** around these:
  - keyword normalisation and storage (`ActionController`);
  - terminal creation, message handling with previous-message selection, polling, forced speech and greetings (`TerminalController`);
  - conversation listing and CSV export (`ConversationController`);
  - error classification (`ErrorHandler`);
  - login and token validation (`AuthController`);
  - the authentication middleware (`AuthMiddleware`);
  - the upload filter, stored names, downloads and deletes (`FileController`).
- **Dashboard pieces:**
  - the downtime formatter (`Formatters`);
  - the form schemas (`Schemas`);
  - the add-action dialog (`AddActionModal`);
  - the add-terminal dialog and its AICO id pattern (`AddTerminalModal`);
  - the terminal query's row mapping and retry delays (`UseTerminals`).

Shared modules:

- `Wrappers`: `Option` and `Result`.
- `Strings`: JavaScript's `split`, `join`, `trim`, `includes`, `startsWith`, case mapping and UTF-16 length, each proved against its meaning.
- `Sorting`: an insertion sort for the store's `orderBy`; the relative order of ties is not promised.
- `Records` and `Errors`: the shared rows and the `AppError` value.

The database is a value: sequences or maps passed in and returned. The
clock is a parameter. Every outbound effect is decided by an oracle
function, so whether a write, a delivery, a password check or a token
verification succeeds is an input. Effects come back as explicit traces or
new states.

Two structures are the model's own:

- The dispatcher first works out what each rule would do to the message (`ActionService.Effects`) and then walks that list (`ActionService.Walk`). What a rule does depends only on the rule and the message, never on the rules before it, so this is the loop of `processMessage` taken apart.
- The downtime reader (`Formatters.ParseIn`) is not part of the dashboard. It is the independent definition that the formatter's round trip is stated against. It is written for any pair of unit words that start with different non-digits; the dashboard's pair is `時間` and `分`.

Two behaviours of the code that a reader might not expect:

- **Dispatch is not first-match-wins.** A `break` inside the `switch` leaves only the `switch`. So every matching CHATWORK or EMAIL rule is delivered until a matching MEDIA rule with a file ends the walk. `ActionService.ChatworkThenMedia` shows both effects of one message.
- **The dialog's 409 branch never fires.** The mutation rethrows a bare `Error`, so the add-terminal dialog never sees a status. The duplicate-id text is still shown, because the server's message is the same text (`AddTerminalModal.DuplicateShownByMessage`).

## Model

| member | source | states |
|---|---|---|
| ActionService.ReplaceAll | server/services/actionService.ts:18-22 | global replacement of a literal pattern: a text without the pattern, or a replacement equal to it, leaves the text unchanged |
| ActionService.ReplaceKeepsPrefix | server/services/actionService.ts:18-22 | text before which the pattern never starts is copied through unchanged |
| ActionService.CopyPrefix | server/services/actionService.ts:18-22 | the same, with any text already produced in front |
| ActionService.ReplaceLeftmost | server/services/actionService.ts:18-22 | the leftmost occurrence is replaced by the value and the scan resumes right after it |
| ActionService.ReplaceAddsNone | server/services/actionService.ts:18-22 | a value sharing no character with another pattern creates no occurrence of that pattern |
| ActionService.ReplaceLeavesNone | server/services/actionService.ts:18-22 | after replacing with a value that shares no character with the pattern, no occurrence of the pattern is left |
| ActionService.ReplaceCanRecreate | server/services/actionService.ts:18-22 | a replacement that shares a character with the pattern, or is empty, can leave a new occurrence after one scan |
| ActionService.Render | server/services/actionService.ts:9-23 | a template holding none of the four placeholders is sent as written |
| ActionService.PrevTemplateSurvivesMessage | server/services/actionService.ts:19-20 | the `{message}` step does not touch `{prevmessage}`, so the second step still finds it |
| ActionService.FallbackHasNoPlaceholder | server/services/actionService.ts:20-22 | the "no previous conversation" text holds no `{terminal}` or `{datetime}` |
| ActionService.FallbackDisjoint | server/services/actionService.ts:20 | the Japanese fallback text shares no character with any ASCII placeholder |
| ActionService.FallbackFillsPrevious | server/services/actionService.ts:20-22 | substituting the fallback into a template without `{terminal}` and `{datetime}` leaves none of the three placeholders |
| ActionService.RenderMissingPrevious | server/services/actionService.ts:18-22 | with an absent or empty previous message, every `{prevmessage}` of a template without the other placeholders becomes `前回の会話はありません` and none is left |
| ActionService.RenderExpandsPlaceholderInMessage | server/services/actionService.ts:18-22 | replacements are sequential: a message containing `{terminal}` ends up holding the terminal name |
| ActionService.RuleKeywords | server/services/actionService.ts:58 | splitting on commas always yields at least one keyword, and none holds a comma |
| ActionService.AllOccur | server/services/actionService.ts:60 | `every`: true iff each keyword is a substring of the message |
| ActionService.SomeOccurs | server/services/actionService.ts:61 | `some`: true iff at least one keyword is a substring of the message |
| ActionService.KeywordsMeaning | server/services/actionService.ts:60-61 | the two list checks read as "every keyword of the list occurs" and "some keyword of the list occurs" |
| ActionService.Matches | server/services/actionService.ts:58-61 | an AND rule matches iff every trimmed keyword occurs (case-sensitively) in the message; an OR rule iff one does |
| ActionService.BlankKeywordMatchesAll | server/services/actionService.ts:58-61 | a keyword that is blank after trimming occurs in every message, so an OR rule holding one always matches |
| ActionService.Subject | server/services/actionService.ts:96 | the e-mail subject starts with the fixed frame, immediately followed by the last name and then the first name |
| ActionService.EffectOf | server/services/actionService.ts:63-103 | a rule does nothing exactly when it does not match or lacks what its case needs; a matching MEDIA rule with a file returns that file's url; a matching CHATWORK rule with a template and a user with a Chatwork id sends the rendered template to that room; a matching EMAIL rule with a template and a user with an address mails the rendered template there under the recipient's subject |
| ActionService.TrimEach | server/services/actionService.ts:58 | `map(k => k.trim())`: one trimmed keyword per comma-separated part, in order, using only characters of that part |
| ActionService.KeywordMatchesItself | server/services/actionService.ts:58-61 | a one-keyword OR rule matches the message that is exactly its (trimmed, comma-free) keyword |
| ActionService.Effects | server/services/actionService.ts:57 | one effect per rule |
| ActionService.EffectAt | server/services/actionService.ts:57-104 | the effect list holds, at each position, what that rule does to the message |
| ActionService.Walk | server/services/actionService.ts:74-111 | a walk fails only at a delivery that raises, and that delivery is the last one attempted; it answers a url only when some effect in the list returns that url |
| ActionService.ProcessMessage | server/services/actionService.ts:57-111 | a failed dispatch was raised by the last delivery it attempted, and rethrown unchanged; a media answer is the url of some rule that returns media for the message |
| ActionService.MediaStop | server/services/actionService.ts:74-78 | the index of the first rule that returns media: no earlier rule returns media |
| ActionService.FirstFailure | server/services/actionService.ts:108-111 | the index of the first failing delivery: every earlier delivery succeeds |
| ActionService.SettleCons | server/services/actionService.ts:108-111 | a failed delivery aborts everything after it; a successful one is followed by the rest |
| ActionService.ClosedFormSkip | server/services/actionService.ts:63-104 | an effect that does nothing changes nothing: the closed form is that of the remaining effects |
| ActionService.SkippedRuleChangesNothing | server/services/actionService.ts:57-104 | a first rule that does not match, or lacks its file, template, user or destination, changes nothing: the dispatch is that of the remaining rules |
| ActionService.ClosedFormMedia | server/services/actionService.ts:74-77 | a first rule that returns media answers that url and nothing is delivered |
| ActionService.DeliveriesOfPrefix | server/services/actionService.ts:80-103 | the deliveries of a prefix of the effects are a prefix of their deliveries |
| ActionService.MediaAnswerTail | server/services/actionService.ts:74-77 | skipping a first effect that is not media leaves the media answer of the rest |
| ActionService.ClosedFormDeliver | server/services/actionService.ts:80-103 | a delivering rule's message comes first and the walk continues after it, unless the delivery fails |
| ActionService.WalkClosedForm | server/services/actionService.ts:57-111 | on every effect list the walk equals its closed form |
| ActionService.ProcessMessageClosedForm | server/services/actionService.ts:57-111 | on every input the walk equals its closed form: the deliveries of the rules before the first media rule are attempted up to the first failure; the outcome is that failure, else the media url, else null |
| ActionService.ProcessMessageWithoutFailures | server/services/actionService.ts:57-107 | with no failures, every delivery before the first media rule is made, and the answer is that rule's url or null |
| ActionService.ChatworkThenMedia | server/services/actionService.ts:80-88 | a matching CHATWORK rule before a matching MEDIA rule is delivered, and the media url is still answered |
| ActionService.MediaThenChatwork | server/services/actionService.ts:74-77 | a matching MEDIA rule first ends the walk; the later CHATWORK rule is never delivered |
| PollingService.ElapsedMinutes | server/services/pollingService.ts:14-15 | the floor of the milliseconds since the last poll over 60000; zero when the terminal never polled |
| PollingService.ElapsedNonNegative | server/services/pollingService.ts:14-15 | elapsed minutes are not negative when `now` is not before the last poll |
| PollingService.Tick | server/services/pollingService.ts:13-45 | the count rises by exactly one; at three or more the terminal is OFFLINE and an OFFLINE log names it; below three the status is kept; a tick never sets ONLINE; other fields are untouched |
| PollingService.TickAccrual | server/services/pollingService.ts:24-26 | downtime grows by the elapsed minutes when the new count reaches three or the terminal was OFFLINE, and by nothing otherwise |
| PollingService.TickAll | server/services/pollingService.ts:12-46 | each listed terminal is ticked in order, and there are no more logs than terminals |
| PollingService.TickAllLogs | server/services/pollingService.ts:17-32 | a log is written for every terminal the tick takes to or past the threshold, and every log names such a terminal |
| PollingService.Heartbeat | server/services/pollingService.ts:53-68 | the terminal is ONLINE with count 0 and lastPolling = now, nothing else changes, and the answer is the greeting or null when it is empty |
| PollingService.HeartbeatIdempotent | server/services/pollingService.ts:55-61 | two heartbeats equal one at the later time |
| PollingService.HeartbeatKeepsDowntime | server/services/pollingService.ts:55-61 | a heartbeat leaves downtime untouched |
| PollingService.StepsKeepInvariant | server/services/pollingService.ts:13-61 | ticks and heartbeats keep "ONLINE implies fewer than three missed ticks" |
| PollingService.RunOfflineCount | server/services/pollingService.ts:13-61 | after any trace, the count is the number of ticks since the last heartbeat, plus the starting count when there was none |
| PollingService.RunStatus | server/services/pollingService.ts:17-61 | after any trace, the terminal is ONLINE exactly when fewer than three ticks followed the last heartbeat (or, with none, it started ONLINE below the threshold) |
| PollingService.RunLastPollingBound | server/services/pollingService.ts:55-61 | the last poll after a chronological trace is never later than the trace's times |
| PollingService.RunDowntimeMonotone | server/services/pollingService.ts:24-61 | along a chronological trace of ticks and heartbeats, downtime never decreases |
| PollingService.ThreeTicksToOffline | server/services/pollingService.ts:13-22 | from ONLINE with count 0: ONLINE after ticks one and two, OFFLINE after the third |
| PollingService.OfflineLoggedEveryTick | server/services/pollingService.ts:17-32 | a tick past the threshold logs again, not only on the transition |
| SseService.ClientId | server/services/sseService.ts:38 | the id is the terminal id, a dash, then the digits of the time |
| SseService.ClientIdInjective | server/services/sseService.ts:38 | distinct (terminal, millisecond) pairs give distinct ids |
| SseService.Register | server/services/sseService.ts:38-66 | adds exactly the one entry keyed by the id and keeps the others; the last event id is the header or "0"; the first event is `connected` with that id |
| SseService.Cleanup | server/services/sseService.ts:69-73 | removes exactly that entry |
| SseService.CleanupAbsent | server/services/sseService.ts:69-73 | cleaning up a client that is already gone changes nothing |
| SseService.CleanupIdempotent | server/services/sseService.ts:69-78 | cleanup, run again by close, end or an error, is cleanup once |
| SseService.CleanupUndoesRegister | server/services/sseService.ts:52-73 | registering a fresh id and cleaning it up restores the registry |
| SseService.KeepAlive | server/services/sseService.ts:42-49 | a failed keep-alive write cleans the client up; a good one changes nothing |
| SseService.Targets | server/services/sseService.ts:93-94 | the targets are exactly the registered ids that start with the terminal id as a raw string |
| SseService.Push | server/services/sseService.ts:82-112 | the count is the number of targets whose write succeeded (at most the number targeted); failed targets are removed; every other entry stays unchanged |
| SseService.SendMessage | server/services/sseService.ts:93-107 | the loop over the registry computes exactly the registry and count that `Push` describes |
| SseService.PrefixReachesOtherTerminal | server/services/sseService.ts:94 | a message for `aico1` also reaches the streams of `aico10` |
| SseService.FailedClientNotTargetedAgain | server/services/sseService.ts:98-101 | a client whose write failed is not targeted by any later push |
| SseService.Sweep | server/services/sseService.ts:13-23 | keeps exactly the clients whose ping succeeds, unchanged |
| SseService.SweepIsPushToAll | server/services/sseService.ts:13-23 | the sweep removes what a push to every client would |
| SseService.SweepIdempotent | server/services/sseService.ts:13-23 | sweeping again with the same outcomes removes nothing more |
| SseService.SameMillisecondOverwrites | server/services/sseService.ts:38-56 | two connections of one terminal in the same millisecond share an id; the later overwrites the earlier |
| SseService.StaleCleanupDropsNewer | server/services/sseService.ts:52-73 | the first connection's cleanup then removes the second, still-open connection |
| ActionController.NormalizeKeywords | server/controllers/actionController.ts:59-63 | every surviving keyword is non-blank and trimmed, and there are no more of them than entries |
| ActionController.NormalizeMembers | server/controllers/actionController.ts:59-62 | every truthy entry that is not blank survives as its trim, and every keyword kept is the trim of a truthy entry |
| ActionController.NormalizeAppend | server/controllers/actionController.ts:59-62 | normalisation handles entries one by one, in order |
| ActionController.NormalizeClean | server/controllers/actionController.ts:59-62 | already trimmed, non-blank keywords come through unchanged |
| ActionController.NormalizeNoComma | server/controllers/actionController.ts:59-62 | normalisation introduces no comma |
| ActionController.KeywordsStringEmpty | server/controllers/actionController.ts:59-67 | the stored string is empty exactly when no keyword survives |
| ActionController.KeywordsRoundTrip | server/controllers/actionController.ts:59-98 | without commas in the entries, splitting the stored string gives back exactly the normalised keywords |
| ActionController.DuplicatesKept | server/controllers/actionController.ts:59-63 | duplicate keywords are not removed |
| ActionController.KeepTruthy | server/controllers/actionController.ts:74-76 | an optional id is stored only when truthy |
| ActionController.CreateAction | server/controllers/actionController.ts:39-107 | the four checks in order (keywords 400, terminal missing 400, unknown terminal 404, blank keywords 400 with the valid-keyword text); success iff all pass and the references exist; the row is exactly the new id, the name, terminal, condition and type as sent, the joined keywords, the truthy ids and the creation time; the reply splits the stored string |
| ActionController.CreateAnswersKeywords | server/controllers/actionController.ts:59-98 | a created action answers exactly its normalised keywords when none held a comma |
| ActionController.UpdateAction | server/controllers/actionController.ts:109-160 | only the keywords are checked: no array 400, blank keywords 400 with the valid-keyword text; success iff a keyword survives and the store accepts the row; only the keywords and terminal change, the terminal becoming the one sent or staying as it was, and other rows are untouched |
| ActionController.UpdateUnknownTerminal | server/controllers/actionController.ts:114-147 | moving to an unknown terminal is not a 404: the store's rejection surfaces |
| ActionController.NonEmpty | server/controllers/actionController.ts:29 | `filter(Boolean)` keeps exactly the non-empty segments |
| ActionController.NonEmptyKeeps | server/controllers/actionController.ts:29 | without empty segments the filter changes nothing |
| ActionController.GetActions | server/controllers/actionController.ts:6-37 | the listed rows are the stored rows with the same multiplicities, newest first, with empty keyword segments dropped |
| ActionController.ListMatchesCreate | server/controllers/actionController.ts:29-98 | without commas in the keywords, the listing shows the keywords the create reply showed |
| ActionController.EmptySegmentOnlyInCreateReply | server/controllers/actionController.ts:29-98 | a keyword `a,,b` answers an empty segment on create that the listing drops |
| TerminalController.FindById | server/controllers/terminalController.ts:204-207 | the position of the terminal with that id, or none exists |
| TerminalController.HasAicoId | server/controllers/terminalController.ts:41-43 | true iff some terminal already has the AICO id |
| TerminalController.CreateTerminal | server/controllers/terminalController.ts:37-62 | a taken AICO id is a 409 with the duplicate text; otherwise the terminal is appended OFFLINE with the column defaults |
| TerminalController.CreateKeepsAicoIdsUnique | server/controllers/terminalController.ts:41-56 | creation never leaves two terminals with one AICO id |
| TerminalController.CreatedTerminalOffline | server/controllers/terminalController.ts:54 | a new terminal is OFFLINE and satisfies the liveness invariant |
| TerminalController.PreviousMessage | server/controllers/terminalController.ts:116-131 | the latest USER record on the same terminal and exchange, with another id and an earlier time; none iff no record qualifies |
| TerminalController.HandleMessage | server/controllers/terminalController.ts:87-151 | a missing speaker throws; the record is stored before dispatch; only a USER speaker is dispatched; the reply holds the stored record and a media url only when one was returned |
| TerminalController.PreviousIsEarlier | server/controllers/terminalController.ts:121-126 | the record being stored is never its own previous message |
| TerminalController.FailureKeepsRecord | server/controllers/terminalController.ts:94-141 | a failed delivery still leaves the message recorded |
| TerminalController.LowerCaseUserDispatches | server/controllers/terminalController.ts:114 | `user` upper-cases to USER and is dispatched |
| TerminalController.MediaReachesReply | server/controllers/terminalController.ts:141-147 | the reply carries exactly the url the dispatcher returned |
| TerminalController.PollTerminal | server/controllers/terminalController.ts:153-161 | a stored terminal gets the heartbeat and answers its greeting; an unknown id is rejected by the store |
| TerminalController.ForceSpeak | server/controllers/terminalController.ts:163-193 | a falsy message is a 400 before anything happens; otherwise an AICO record `force_<now>` is stored and the push count answered |
| TerminalController.ForcedNeverPrevious | server/controllers/terminalController.ts:173-180 | a forced message is never a USER turn, so it never becomes a previous message |
| TerminalController.UpdateGreeting | server/controllers/terminalController.ts:195-213 | a falsy greeting is a 400; an unknown terminal is rejected; otherwise only the greeting changes |
| TerminalController.GreetingReachesPoll | server/controllers/terminalController.ts:195-213 | after a greeting is set, the terminal's next poll answers it |
| TerminalController.FindFirstStable | server/controllers/terminalController.ts:204-207 | rewriting fields other than the id keeps where an id is found |
| ConversationController.Filter | server/controllers/conversationController.ts:18-29 | keeps exactly the records that pass every filter the query sets |
| ConversationController.EmptyQuerySelectsAll | server/controllers/conversationController.ts:19-28 | absent filters restrict nothing |
| ConversationController.KeywordIgnoresCase | server/controllers/conversationController.ts:25-28 | example: `HELLO` finds `hello` |
| ConversationController.LowerForgetsCase | server/controllers/conversationController.ts:25-28 | lower-casing after upper- or lower-casing equals lower-casing |
| ConversationController.FilterIgnoresCase | server/controllers/conversationController.ts:25-28 | for every message and keyword, upper- or lower-casing either side does not change whether the keyword filter passes |
| ConversationController.LogOrderTotal | server/controllers/conversationController.ts:34-37 | the order by exchange id descending, then time ascending, relates every pair |
| ConversationController.Select | server/controllers/conversationController.ts:18-38 | a permutation of the selected records, by exchange id descending and then time ascending |
| ConversationController.ToEntry | server/controllers/conversationController.ts:40-50 | one entry with exactly one message, whose speaker is the stored speaker lower-cased |
| ConversationController.GetConversations | server/controllers/conversationController.ts:12-57 | one entry per selected record, in log order |
| ConversationController.UserListedLowerCase | server/controllers/conversationController.ts:46 | a USER turn is listed as `user` |
| ConversationController.CsvFields | server/controllers/conversationController.ts:84-90 | five fields per record, under the header's five columns: formatted time, terminal name, message id, speaker, message |
| ConversationController.CsvRows | server/controllers/conversationController.ts:84-90 | one row per record, in order |
| ConversationController.CsvRoundTrip | server/controllers/conversationController.ts:92-95 | when no field holds a comma or a newline, splitting the text on newlines and commas gives back the rows |
| ConversationController.HeaderPlain | server/controllers/conversationController.ts:93 | the header fields hold no comma or newline |
| ConversationController.Csv | server/controllers/conversationController.ts:92-95 | the text starts with the first row joined by commas |
| ConversationController.DownloadConversations | server/controllers/conversationController.ts:84-96 | the download starts with the header line |
| ConversationController.CsvReadsBack | server/controllers/conversationController.ts:84-95 | when no value holds a comma or a newline, the text has one line per record after the header, and line i+1 splits into record i's five values |
| ConversationController.DownloadReadsBack | server/controllers/conversationController.ts:18-96 | the same, for the records the query selects, in log order |
| ConversationController.HeaderFirst | server/controllers/conversationController.ts:92-95 | the first line of the download is the fixed header |
| ConversationController.CommaAddsColumn | server/controllers/conversationController.ts:84-95 | nothing is escaped: a comma in a message gives its line six columns |
| ErrorHandler.HandleError | server/middleware/errorHandler.ts:25-63 | an AppError answers its own status and message before any name rule; the Prisma error 400 with the database-failure text; the invalid and expired token errors 401 with their own texts; any other error in production the fixed internal-error text; every body has status "error"; production hides message and stack |
| ErrorHandler.FallbackStatus | server/middleware/errorHandler.ts:56 | an unrecognised error keeps a status already set, and is 500 otherwise |
| ErrorHandler.DevelopmentShowsDetail | server/middleware/errorHandler.ts:57-63 | outside production the fallback shows the error's own message and stack |
| ErrorHandler.TokenErrorsDistinct | server/middleware/errorHandler.ts:41-53 | the invalid-token and expired-token replies have different messages |
| AuthController.FindByUsername | server/controllers/authController.ts:23-25 | the user stored under the name, or none has it |
| AuthController.FindUserById | server/controllers/authController.ts:77-79 | the user stored under the id, or none has it |
| AuthController.Login | server/controllers/authController.ts:8-57 | missing credentials 400, then missing secret 500, then unknown user or wrong password 401 with one message; success answers the signed token and only id and username |
| AuthController.UnknownUserLooksLikeBadPassword | server/controllers/authController.ts:27-37 | an unknown user and a wrong password give identical replies |
| AuthController.SecondField | server/controllers/authController.ts:66 | `split(' ')[1]`: none iff the header has no space; never holds a space |
| AuthController.SecondFieldAfterScheme | server/controllers/authController.ts:66 | after a scheme word and one space, the field is the token |
| AuthController.ValidateToken | server/controllers/authController.ts:59-99 | no `Bearer ` header 401; empty token 401; no secret 500; a bad token 401; a deleted user 404; each with its exact message; success names the verified user and that user's name |
| AuthController.EmptyBearerToken | server/controllers/authController.ts:66-69 | `Bearer ` with nothing after it is a missing token, not an invalid one |
| AuthController.DoubleSpaceBearer | server/controllers/authController.ts:66-69 | two spaces after `Bearer` leave an empty second field, so the token counts as missing whatever follows |
| AuthController.DeletedUserIs404 | server/controllers/authController.ts:77-83 | a valid token of a deleted user is a 404 |
| AuthMiddleware.Authenticate | server/middleware/auth.ts:20-50 | every failure is one 401; success iff a second field exists, verifies, and names a stored user, who becomes the request's user |
| AuthMiddleware.ValidatedIsAuthenticated | server/middleware/auth.ts:26-46 | a header that `validateToken` accepts passes the middleware as the same user |
| AuthMiddleware.SchemeIgnored | server/middleware/auth.ts:26 | the scheme word is not checked: `Token <t>` passes the middleware but not `validateToken` |
| AuthMiddleware.DeletedUserCollapsed | server/middleware/auth.ts:38-49 | a deleted user gets the same 401 as a bad token |
| FileController.FileFilter | server/controllers/fileController.ts:24-31 | accepts exactly the four media types; any other type is refused with an `Invalid file type` error |
| FileController.FilterIsExact | server/controllers/fileController.ts:25-26 | a different case or another image type is refused |
| FileController.LastIndexOf | server/controllers/fileController.ts:15 | the position of the last occurrence, or none occurs |
| FileController.Extname | server/controllers/fileController.ts:15 | the extension is empty, or a dot followed by no dot or slash |
| FileController.ExtnameAfterStem | server/controllers/fileController.ts:15 | a dot-free, slash-free name followed by an extension has exactly that extension |
| FileController.Hex | server/controllers/fileController.ts:14 | two lower-case hex digits per byte |
| FileController.UnhexHex | server/controllers/fileController.ts:14 | the hex text reads back as the bytes |
| FileController.StoredFilename | server/controllers/fileController.ts:13-15 | 32 hex digits, then the extension of the original name |
| FileController.StoredNameKeepsExtension | server/controllers/fileController.ts:13-15 | the stored name has the original's extension, and its random part reads back as the random bytes |
| FileController.UploadServerFile | server/controllers/fileController.ts:67-91 | no file is a 400; otherwise the record's url is `/uploads/` followed by the stored name |
| FileController.DownloadFile | server/controllers/fileController.ts:93-118 | the store is chosen by `/client/` in the path; an unknown id is a 404; client files are `client-<id><ext>`; server files use their name, or `file-<id><ext>` when it is empty |
| FileController.ClientDownloadKeepsExtension | server/controllers/fileController.ts:106-107 | a client file's download name carries the stored file's extension |
| FileController.ServerDownloadKeepsExtension | server/controllers/fileController.ts:108 | so does a server file stored without a name |
| FileController.DeleteFile | server/controllers/fileController.ts:120-136 | removes exactly the row with that id from the store the path selects, keeping every other row and the other store unchanged; a missing row is rejected |
| FileController.DeleteThenDownload | server/controllers/fileController.ts:93-136 | a deleted file can no longer be downloaded: the download answers 404 |
| FileController.DownloadThenDelete | server/controllers/fileController.ts:96-128 | download and delete choose the same store |
| Formatters.JsRem | src/utils/formatters.ts:10 | JavaScript's `%`: the remainder takes the sign of the dividend |
| Formatters.FormatDowntime | src/utils/formatters.ts:6-21 | zero is `0分`; every text ends in a unit; a positive input starts with a digit |
| Formatters.FormatIn | src/utils/formatters.ts:6-21 | zero is `0` and the minute unit; a positive input starts with a digit |
| Formatters.FormatInShape | src/utils/formatters.ts:9-20 | a non-negative downtime is minutes only below an hour, hours only on a whole hour, and both otherwise |
| Formatters.TakeDigitsOf | src/utils/formatters.ts:13-20 | digits followed by a non-digit are read up to that non-digit, and the rest is what follows |
| Formatters.ReadMinutes | src/utils/formatters.ts:13 | digits and the minute unit add that many minutes to the hours read so far |
| Formatters.ReadHours | src/utils/formatters.ts:17 | digits and the hour unit read back as sixty minutes each |
| Formatters.ReadHoursThen | src/utils/formatters.ts:20 | after digits and the hour unit, reading goes on with the rest as minutes |
| Formatters.ReadHoursMinutes | src/utils/formatters.ts:20 | `<h>時間<r>分` with any distinct units reads back as 60·h + r |
| Formatters.ReadsBackIn | src/utils/formatters.ts:6-21 | for any units that start with distinct non-digits, a non-negative downtime reads back as itself |
| Formatters.FormatDowntimeReadsBack | src/utils/formatters.ts:6-21 | for non-negative minutes, reading `<h>時間<r>分` back as 60·h + r gives the input |
| Formatters.FormatDowntimeInjective | src/utils/formatters.ts:6-21 | different non-negative downtimes never render alike |
| Formatters.NegativeUnderAnHour | src/utils/formatters.ts:9-20 | a negative downtime under an hour renders as minus one hour and a negative remainder |
| Schemas.Check | src/types/action.ts:4-5 | one issue for the field when the check fails, none when it passes |
| Schemas.FailingConcat | src/types/action.ts:3-12 | the failing fields of two issue lists together are those of each |
| Schemas.JoinIssues | src/types/action.ts:3-12 | a field fails in joined issue lists exactly when it fails in one of them |
| Schemas.BmpLength | src/types/template.ts:4-9 | within the Basic Multilingual Plane a string's length is its character count |
| Schemas.AstralLength | src/types/template.ts:4-9 | characters outside it count twice |
| Schemas.ParseCondition | src/types/action.ts:7 | accepts exactly AND and OR |
| Schemas.ParseActionType | src/types/action.ts:8 | accepts exactly MEDIA, CHATWORK and EMAIL |
| Schemas.EnumRoundTrip | src/types/action.ts:7-8 | the enum names read back as their values, and only they are accepted |
| Schemas.ActionIssues | src/types/action.ts:3-12 | valid iff name and terminal are non-empty and both enums parse; the optional ids are never an issue |
| Schemas.ActionSchema | src/types/action.ts:3-12 | the typed form iff there is no issue; the ids are kept as given |
| Schemas.MediaWithoutFilePasses | src/types/action.ts:8-11 | a MEDIA action without a file passes the schema |
| Schemas.MatchesAlnumPlus | src/types/user.ts:3 | `^[a-zA-Z0-9]+$`: non-empty and only ASCII letters and digits |
| Schemas.UsernameIssues | src/types/user.ts:6-8 | presence is checked first, then the pattern |
| Schemas.UserIssues | src/types/user.ts:5-14 | valid iff username matches, password has at least eight code units, names are non-empty and the address is accepted; chatworkId is free |
| Schemas.SystemUserIssues | src/types/user.ts:16-26 | the password passes when absent, empty, or at least eight long; chatworkId is free |
| Schemas.OperatorPasswordBounds | src/types/user.ts:20-23 | absent and empty pass; lengths one to three fail; eight or more pass |
| Schemas.AstralPasswordCounts | src/types/user.ts:9 | four emoji are eight code units: long enough |
| Schemas.BoundedIssues | src/types/template.ts:4-9 | a length between one and the maximum passes; empty reports the required message, too long the limit message |
| Schemas.TemplateIssues | src/types/template.ts:3-10 | name 1-100 and content 1-1000 code units, each field reported on its own |
| Schemas.TemplateNameLimit | src/types/template.ts:6 | for plain text the name fails exactly beyond 100 characters |
| Schemas.AstralNameTooLong | src/types/template.ts:6 | fifty-one emoji already exceed it |
| AddActionModal.AddKeyword | src/components/actions/AddActionModal.tsx:47-52 | a non-empty, unlisted input is appended and cleared; otherwise nothing changes; the list stays duplicate-free |
| AddActionModal.RemoveKeyword | src/components/actions/AddActionModal.tsx:54-56 | exactly the other keywords remain, duplicate-free if they were |
| AddActionModal.RemoveAppend | src/components/actions/AddActionModal.tsx:55 | removal preserves the order of the rest |
| AddActionModal.RemoveAbsent | src/components/actions/AddActionModal.tsx:55 | removing an unlisted keyword changes nothing |
| AddActionModal.RemoveUndoesAdd | src/components/actions/AddActionModal.tsx:47-56 | removing what was just added gives back the earlier list |
| AddActionModal.AddTwice | src/components/actions/AddActionModal.tsx:48 | adding again changes nothing |
| AddActionModal.SubmitCheck | src/components/actions/AddActionModal.tsx:62-81 | the four checks in order, the first failure's message; success iff all pass |
| AddActionModal.Submit | src/components/actions/AddActionModal.tsx:58-94 | a failed check sends nothing; a sent action carries the list as typed and clears it; a send error shows its message or the fixed one |
| AddActionModal.DefaultNeedsFile | src/components/actions/AddActionModal.tsx:36-39 | the defaults (MEDIA, OR) still need a file |
| AddActionModal.ToCreateRequest | src/components/actions/AddActionModal.tsx:83-86 | the request carries a non-empty keyword array iff the list is non-empty |
| AddActionModal.BlankKeywordPassesDialog | src/components/actions/AddActionModal.tsx:47-86 | a keyword of spaces passes the dialog untrimmed and the server refuses the action with 400 |
| AddActionModal.CleanKeywordsReachReply | src/components/actions/AddActionModal.tsx:83-86 | trimmed comma-free keywords come back unchanged in the server's reply |
| AddTerminalModal.Step | src/components/terminals/AddTerminalModal.tsx:9 | one step of the pattern's automaton stays within its seven states |
| AddTerminalModal.RunDigits | src/components/terminals/AddTerminalModal.tsx:9 | after the prefix, exactly a run of digits is accepted |
| AddTerminalModal.RunPrefix | src/components/terminals/AddTerminalModal.tsx:9 | the prefix is read letter by letter |
| AddTerminalModal.MatchesAicoId | src/components/terminals/AddTerminalModal.tsx:9 | the pattern accepts exactly `aico` followed by one or more ASCII digits |
| AddTerminalModal.AicoIdExamples | src/components/terminals/AddTerminalModal.tsx:9-37 | `AICO1` and the default `aico` fail; `aico7` passes |
| AddTerminalModal.TerminalIssues | src/components/terminals/AddTerminalModal.tsx:11-17 | valid iff the id matches the pattern and the name is non-empty; the greeting is free; an empty id reports the required message first |
| AddTerminalModal.ShownMessage | src/components/terminals/AddTerminalModal.tsx:48-53 | a 409 shows the duplicate-id text; otherwise the error's message or the fixed one |
| AddTerminalModal.Rethrown | src/hooks/useTerminals.ts:37-39 | the rethrown error carries no status and a non-empty message |
| AddTerminalModal.DuplicateShownByMessage | src/components/terminals/AddTerminalModal.tsx:45-53 | a taken id is refused by the server, and the dialog shows the duplicate text through the message alone |
| AddTerminalModal.StatusNeverDecides | src/components/terminals/AddTerminalModal.tsx:48-53 | the rethrown error shows the server's message as it is |
| UseTerminals.RetryDelay | src/hooks/useTerminals.ts:25 | `min(1000·2^a, 30000)`: between one and thirty seconds |
| UseTerminals.RetryDelayMonotone | src/hooks/useTerminals.ts:25 | a later attempt never waits less |
| UseTerminals.RetryDelayValues | src/hooks/useTerminals.ts:25 | 1000 at 0, doubling up to 16000 at 4, 30000 from 5 on |
| UseTerminals.RetryWaits | src/hooks/useTerminals.ts:24-25 | at most three retries, each waiting its delay |
| UseTerminals.RetryWaitsBounded | src/hooks/useTerminals.ts:24-25 | the waits total at most seven seconds |
| UseTerminals.CountOr0 | src/hooks/useTerminals.ts:13-14 | a missing count is 0 |
| UseTerminals.ToRow | src/hooks/useTerminals.ts:11-16 | the listed terminal is kept whole; the counts default to 0; lastUpdate is updatedAt |
| UseTerminals.ToRows | src/hooks/useTerminals.ts:11-16 | one row per listed terminal, in order |
| UseTerminals.RowsKeepListing | src/hooks/useTerminals.ts:11-16 | dropping the derived columns gives back the listing |
| Sorting.Sort | server/controllers/actionController.ts:22-24 | a permutation of the input, ordered by the given total order |

## Left out

- Persistence: Prisma queries, cascades, atomic increments and unique constraints are values passed in and returned. A row the store would refuse is the single error `StoreRejected`.
- Concurrency: the race between a heartbeat and a tick, and interleaved requests.
- Timers: the cron schedule and the keep-alive and sweep intervals. They become explicit calls.
- A tick that throws for one terminal aborts the remaining terminals; each tick is modelled as succeeding.
- Outbound delivery: Chatwork, e-mail and stream writes are oracles; their payload encoding is not modelled.
- Dates: `Date.now`, `toISOString` and date-fns `format` are an integer clock and opaque strings.
  - The dispatcher takes one rendered `{datetime}` per message. The code reads the clock again for each matching rule.
- ActionService.RenderMissingPrevious: stated only for templates without `{message}`, `{terminal}` and `{datetime}`. Substitution is sequential, so a message or terminal name holding a placeholder is rewritten by the later steps (`ActionService.RenderExpandsPlaceholderInMessage`); for such inputs no general "fallback text appears" promise holds.
- ActionService.ReplaceAll: `$&`, `$1` and the other replacement patterns of `String.replace` are not interpreted. Replacement values are taken literally.
- Strings.ToUpper: case mapping covers ASCII letters only. The same holds for the case-insensitive keyword filter.
- Database collation is taken as code-point order. Timestamps are integers.
- bcrypt, jwt sign and verify, and zod's `.email()` check are oracles. The `JWT_EXPIRES_IN` default is passed through.
- A verified token without an `id` is not modelled.
- ActionController.CreateAction: a body whose `name`, `condition` or `type` is missing or outside the enums reaches Prisma and fails its validation (a 500); the request type here carries these fields already valid, so that failure is not modelled.
- Schemas.UserIssues: zod reports every failing check of a field; the model keeps only the first issue per field.
- Zod's own library messages ("Invalid enum value", the union message) are stand-in texts.
- ShowInt renders integers as decimal digits. JavaScript's exponent notation for numbers of 10^21 and above is not modelled.
- Formatters.FormatDowntime: only integer minutes are modelled; fractional inputs are not.
- Node's `path.extname` is modelled for POSIX paths only.
- The latin1-to-UTF-8 re-decoding of the original name is not modelled; the name is taken as decoded.
- The 10 MB upload limit is not modelled.
- `encodeURIComponent` in the `Content-Disposition` header is not modelled; the filename before encoding is what is stated.
- `getClientFiles` and `getServerFiles` are plain ordered reads and are not modelled.
- Keyword entries that are truthy but not strings (numbers, objects) are not modelled. Entries are strings or falsy.
- Fields of an update body other than `keywords` and `terminalId` are not modelled.
- Terminal column defaults are taken as no missed ticks, no downtime and never polled.
- `updateTerminal` and `deleteTerminal` pass the body straight to the store and are not modelled.
- The speaker is not validated against an enum; any string is stored upper-cased.
- A client file attached to a message is reduced to its path.
- React rendering, react-query caching and invalidation, and the `failureCount` indexing of react-query's retry callback are not modelled.
- The dashboard's file-size and percentage formatting use floating point and are not modelled.
- Routes, the server bootstrap, the rate limiter, the logger, and the user and template CRUD controllers are not modelled.

=== FILE: action_controller.dfy ===
/**
 * The action endpoints: the keyword list a client sends is validated,
 * normalised (falsy entries dropped, the rest trimmed, blanks dropped) and
 * stored comma-joined; reading actions back splits that string again.
 * The store is a map from id to row plus the sets of ids other tables hold.
 */
module ActionController {
  import opened Wrappers
  import opened Strings
  import opened Records
  import opened Errors
  import opened Sorting
  import opened ActionService

  const NoKeywordsMessage := "キーワードは1つ以上指定してください"
  const TerminalRequiredMessage := "AICO端末は必須です"
  const TerminalNotFoundMessage := "指定されたAICO端末が見つかりません"
  const NoValidKeywordMessage := "有効なキーワードを指定してください"

  /**
   * The `keywords` field of a request body: absent or falsy, present but not
   * an array, or an array whose entries are strings or falsy (`None`).
   */
  datatype KeywordsField = Missing | NotAnArray | Items(entries: seq<Option<string>>)

  /** A stored action; `keywords` is the comma-joined normalised list. */
  datatype ActionRow = ActionRow(
    id: string,
    name: string,
    terminalId: string,
    condition: Condition,
    kind: ActionType,
    keywords: string,
    userId: Option<string>,
    mediaId: Option<string>,
    templateId: Option<string>,
    createdAt: int)

  /** A row as the endpoints answer it, with the keywords split into an array. */
  datatype ActionView = ActionView(row: ActionRow, keywords: seq<string>)

  /** The ids the related tables hold; a row naming a missing one is rejected by the store. */
  datatype Refs = Refs(terminals: set<string>, users: set<string>, media: set<string>, templates: set<string>)

  datatype CreateRequest = CreateRequest(
    keywords: KeywordsField,
    terminalId: Option<string>,
    name: string,
    condition: Condition,
    kind: ActionType,
    userId: Option<string>,
    mediaId: Option<string>,
    templateId: Option<string>)

  // ------------------------------------------------------- normalisation

  /** The field passes the first check: an array with at least one entry. */
  predicate NonEmptyArray(f: KeywordsField) {
    f.Items? && |f.entries| > 0
  }

  /** One entry: nothing if it is falsy or blank once trimmed, else its trim. */
  function KeepEntry(e: Option<string>): (k: seq<string>)
    ensures |k| <= 1
    ensures |k| == 1 ==> k[0] != "" && Trimmed(k[0])
    ensures k == [] <==> !Truthy(e) || Trim(e.value) == ""
    ensures k != [] ==> k == [Trim(e.value)]
  {
    if Truthy(e) && Trim(e.value) != "" then [Trim(e.value)] else []
  }

  /** Drop falsy entries, trim the rest, drop those left blank; order is kept. */
  function NormalizeKeywords(es: seq<Option<string>>): (ks: seq<string>)
    ensures |ks| <= |es|
    ensures forall i | 0 <= i < |ks| :: ks[i] != "" && Trimmed(ks[i])
    decreases |es|
  {
    if |es| == 0 then []
    else KeepEntry(es[0]) + NormalizeKeywords(es[1..])
  }

  /**
   * Every truthy entry that is not blank survives as its trim, and every
   * keyword kept is the trim of a truthy entry.
   */
  lemma {:induction false} NormalizeMembers(es: seq<Option<string>>)
    ensures forall i | 0 <= i < |es| && Truthy(es[i]) && Trim(es[i].value) != "" :: Trim(es[i].value) in NormalizeKeywords(es)
    ensures forall k | k in NormalizeKeywords(es) :: exists i | 0 <= i < |es| :: Truthy(es[i]) && k == Trim(es[i].value)
    decreases |es|
  {
    if |es| > 0 {
      NormalizeMembers(es[1..]);
      var ks := NormalizeKeywords(es);
      var rest := NormalizeKeywords(es[1..]);
      assert ks == KeepEntry(es[0]) + rest;
      forall k | k in ks
        ensures exists i | 0 <= i < |es| :: Truthy(es[i]) && k == Trim(es[i].value)
      {
        if k in rest {
          var j :| 0 <= j < |es[1..]| && Truthy(es[1..][j]) && k == Trim(es[1..][j].value);
          assert es[j + 1] == es[1..][j];
        } else {
          assert k in KeepEntry(es[0]);
        }
      }
      forall i | 0 <= i < |es| && Truthy(es[i]) && Trim(es[i].value) != ""
        ensures Trim(es[i].value) in ks
      {
        if i > 0 {
          assert es[i] == es[1..][i - 1];
        }
      }
    }
  }

  /** Normalising an entry in front of others keeps that entry's keyword, if any, in front. */
  lemma NormalizeCons(e: Option<string>, es: seq<Option<string>>)
    ensures NormalizeKeywords([e] + es) == KeepEntry(e) + NormalizeKeywords(es)
  {
    assert ([e] + es)[0] == e && ([e] + es)[1..] == es;
  }

  /** Normalising a concatenation normalises each part: entries are handled one by one, in order. */
  lemma {:induction false} NormalizeAppend(a: seq<Option<string>>, b: seq<Option<string>>)
    ensures NormalizeKeywords(a + b) == NormalizeKeywords(a) + NormalizeKeywords(b)
    decreases |a|
  {
    if |a| == 0 {
      assert a + b == b;
    } else {
      assert a == [a[0]] + a[1..];
      assert a + b == [a[0]] + (a[1..] + b);
      NormalizeCons(a[0], a[1..] + b);
      NormalizeCons(a[0], a[1..]);
      NormalizeAppend(a[1..], b);
    }
  }

  /** The keywords as the entries of a request array. */
  function Entries(ks: seq<string>): (es: seq<Option<string>>)
    ensures |es| == |ks|
    ensures forall i | 0 <= i < |ks| :: es[i] == Some(ks[i])
    decreases |ks|
  {
    if |ks| == 0 then [] else [Some(ks[0])] + Entries(ks[1..])
  }

  /** Keywords that are already non-blank and trimmed come through unchanged, duplicates included. */
  lemma {:induction false} NormalizeClean(ks: seq<string>)
    requires forall i | 0 <= i < |ks| :: ks[i] != "" && Trimmed(ks[i])
    ensures NormalizeKeywords(Entries(ks)) == ks
    decreases |ks|
  {
    if |ks| > 0 {
      var es := Entries(ks);
      assert es == [Some(ks[0])] + Entries(ks[1..]);
      NormalizeCons(Some(ks[0]), Entries(ks[1..]));
      TrimKeeps(ks[0]);
      NormalizeClean(ks[1..]);
      assert ks == [ks[0]] + ks[1..];
    }
  }

  /** No normalised keyword holds a comma unless some entry did. */
  lemma {:induction false} NormalizeNoComma(es: seq<Option<string>>)
    requires forall j | 0 <= j < |es| && es[j].Some? :: ',' !in es[j].value
    ensures forall i | 0 <= i < |NormalizeKeywords(es)| :: ',' !in NormalizeKeywords(es)[i]
    decreases |es|
  {
    if |es| > 0 {
      NormalizeNoComma(es[1..]);
      if es[0].Some? {
        TrimChars(es[0].value);
      }
    }
  }

  /** The stored keyword string: the surviving keywords joined by commas. */
  function KeywordsString(es: seq<Option<string>>): string {
    Join(NormalizeKeywords(es), ',')
  }

  /** The stored string is empty exactly when no keyword survives normalisation. */
  lemma KeywordsStringEmpty(es: seq<Option<string>>)
    ensures KeywordsString(es) == "" <==> NormalizeKeywords(es) == []
  {
    var ks := NormalizeKeywords(es);
    if |ks| > 1 {
      assert Join(ks, ',') == ks[0] + [','] + Join(ks[1..], ',');
    }
  }

  /**
   * When no entry holds a comma, splitting the stored string gives back
   * exactly the normalised keywords.
   */
  lemma KeywordsRoundTrip(es: seq<Option<string>>)
    requires NormalizeKeywords(es) != []
    requires forall j | 0 <= j < |es| && es[j].Some? :: ',' !in es[j].value
    ensures Split(KeywordsString(es), ',') == NormalizeKeywords(es)
  {
    NormalizeNoComma(es);
    SplitJoin(NormalizeKeywords(es), ',');
  }

  /** Duplicates survive normalisation. */
  lemma DuplicatesKept(k: string)
    requires k != "" && Trimmed(k)
    ensures NormalizeKeywords([Some(k), Some(k)]) == [k, k]
  {
    assert [Some(k), Some(k)][1..] == [Some(k)];
    assert [Some(k)][1..] == [];
  }

  // --------------------------------------------------------------- create

  /** A related id given with the request must exist once it is stored. */
  predicate RefOk(id: Option<string>, ids: set<string>) {
    !Truthy(id) || id.value in ids
  }

  /** `id && { id }`: an id is stored only when truthy. */
  function KeepTruthy(id: Option<string>): (k: Option<string>)
    ensures k.Some? <==> Truthy(id)
    ensures k.Some? ==> k == id
  {
    if Truthy(id) then id else None
  }

  /**
   * `createAction`: the checks in order (keywords array, terminal given,
   * terminal exists, a keyword survives), then the insert, then the reply
   * with the stored string split on commas.
   */
  function CreateAction(req: CreateRequest, refs: Refs, newId: string, now: int): (r: Result<ActionView, Error>)
    ensures !NonEmptyArray(req.keywords) ==> r == Err(AppError(400, NoKeywordsMessage))
    ensures NonEmptyArray(req.keywords) && !Truthy(req.terminalId) ==> r == Err(AppError(400, TerminalRequiredMessage))
    ensures NonEmptyArray(req.keywords) && Truthy(req.terminalId) && req.terminalId.value !in refs.terminals
            ==> r == Err(AppError(404, TerminalNotFoundMessage))
    ensures NonEmptyArray(req.keywords) && Truthy(req.terminalId) && req.terminalId.value in refs.terminals
            && NormalizeKeywords(req.keywords.entries) == []
            ==> r == Err(AppError(400, NoValidKeywordMessage))
    ensures r.Ok? <==>
              && NonEmptyArray(req.keywords) && Truthy(req.terminalId) && req.terminalId.value in refs.terminals
              && NormalizeKeywords(req.keywords.entries) != []
              && RefOk(req.userId, refs.users) && RefOk(req.mediaId, refs.media) && RefOk(req.templateId, refs.templates)
    ensures r.Ok? ==>
              && r.value.row.terminalId == req.terminalId.value
              && r.value.row.keywords == KeywordsString(req.keywords.entries) != ""
              && r.value.keywords == Split(r.value.row.keywords, ',')
              && r.value.row.userId == KeepTruthy(req.userId)
              && r.value.row.mediaId == KeepTruthy(req.mediaId)
              && r.value.row.templateId == KeepTruthy(req.templateId)
    ensures r.Ok? ==>
              r.value.row == ActionRow(newId, req.name, req.terminalId.value, req.condition, req.kind,
                                       KeywordsString(req.keywords.entries), KeepTruthy(req.userId),
                                       KeepTruthy(req.mediaId), KeepTruthy(req.templateId), now)
  {
    if !NonEmptyArray(req.keywords) then Err(AppError(400, NoKeywordsMessage))
    else if !Truthy(req.terminalId) then Err(AppError(400, TerminalRequiredMessage))
    else if req.terminalId.value !in refs.terminals then Err(AppError(404, TerminalNotFoundMessage))
    else
      var stored := KeywordsString(req.keywords.entries);
      KeywordsStringEmpty(req.keywords.entries);
      if stored == "" then Err(AppError(400, NoValidKeywordMessage))
      else if !(RefOk(req.userId, refs.users) && RefOk(req.mediaId, refs.media) && RefOk(req.templateId, refs.templates)) then
        Err(StoreRejected)
      else
        var row := ActionRow(newId, req.name, req.terminalId.value, req.condition, req.kind, stored,
                             KeepTruthy(req.userId), KeepTruthy(req.mediaId), KeepTruthy(req.templateId), now);
        Ok(ActionView(row, Split(stored, ',')))
  }

  /** With comma-free keywords, a created action answers exactly its normalised keywords. */
  lemma CreateAnswersKeywords(req: CreateRequest, refs: Refs, newId: string, now: int)
    requires CreateAction(req, refs, newId, now).Ok?
    requires forall j | 0 <= j < |req.keywords.entries| && req.keywords.entries[j].Some? :: ',' !in req.keywords.entries[j].value
    ensures CreateAction(req, refs, newId, now).value.keywords == NormalizeKeywords(req.keywords.entries)
  {
    KeywordsRoundTrip(req.keywords.entries);
  }

  // --------------------------------------------------------------- update

  /** The fields an update may carry; `terminalId` is moved to when given. */
  datatype UpdateRequest = UpdateRequest(keywords: KeywordsField, terminalId: Option<string>)

  datatype Updated = Updated(rows: map<string, ActionRow>, view: ActionView)

  /**
   * `updateAction`: only the keywords are checked; the row and any new
   * terminal are left for the store to reject.
   */
  function UpdateAction(id: string, req: UpdateRequest, rows: map<string, ActionRow>, refs: Refs): (r: Result<Updated, Error>)
    ensures !NonEmptyArray(req.keywords) ==> r == Err(AppError(400, NoKeywordsMessage))
    ensures NonEmptyArray(req.keywords) && NormalizeKeywords(req.keywords.entries) == []
            ==> r == Err(AppError(400, NoValidKeywordMessage))
    ensures r.Err? && r.error.AppError? ==> r.error.statusCode == 400
    ensures r.Ok? <==>
              && NonEmptyArray(req.keywords) && NormalizeKeywords(req.keywords.entries) != []
              && id in rows && (req.terminalId.Some? ==> req.terminalId.value in refs.terminals)
    ensures r.Ok? ==>
              && r.value.rows.Keys == rows.Keys
              && (forall k | k in rows && k != id :: r.value.rows[k] == rows[k])
              && r.value.view.row == r.value.rows[id]
              && r.value.rows[id].keywords == KeywordsString(req.keywords.entries)
              && r.value.rows[id].(keywords := rows[id].keywords, terminalId := rows[id].terminalId) == rows[id]
              && r.value.view.keywords == Split(r.value.rows[id].keywords, ',')
    ensures r.Ok? ==> r.value.rows[id].terminalId == req.terminalId.GetOr(rows[id].terminalId)
  {
    if !NonEmptyArray(req.keywords) then Err(AppError(400, NoKeywordsMessage))
    else
      var stored := KeywordsString(req.keywords.entries);
      KeywordsStringEmpty(req.keywords.entries);
      if stored == "" then Err(AppError(400, NoValidKeywordMessage))
      else if id !in rows || (req.terminalId.Some? && req.terminalId.value !in refs.terminals) then Err(StoreRejected)
      else
        var row := rows[id].(keywords := stored, terminalId := req.terminalId.GetOr(rows[id].terminalId));
        Ok(Updated(rows[id := row], ActionView(row, Split(stored, ','))))
  }

  /** Moving an action to an unknown terminal is not a 404: the store's rejection surfaces instead. */
  lemma UpdateUnknownTerminal(id: string, es: seq<Option<string>>, t: string, rows: map<string, ActionRow>, refs: Refs)
    requires |es| > 0 && NormalizeKeywords(es) != []
    requires t !in refs.terminals
    ensures UpdateAction(id, UpdateRequest(Items(es), Some(t)), rows, refs) == Err(StoreRejected)
  {
    var req := UpdateRequest(Items(es), Some(t));
    assert NonEmptyArray(req.keywords) && req.keywords.entries == es;
    KeywordsStringEmpty(es);
    assert KeywordsString(es) != "";
  }

  // ----------------------------------------------------------------- list

  /** The non-empty segments, in order (`filter(Boolean)`). */
  function NonEmpty(parts: seq<string>): (r: seq<string>)
    ensures forall i | 0 <= i < |r| :: r[i] != ""
    ensures forall p | p in parts && p != "" :: p in r
    ensures forall p | p in r :: p in parts
    decreases |parts|
  {
    if |parts| == 0 then []
    else if parts[0] == "" then NonEmpty(parts[1..])
    else [parts[0]] + NonEmpty(parts[1..])
  }

  /** Without empty segments the filter changes nothing. */
  lemma {:induction false} NonEmptyKeeps(parts: seq<string>)
    requires forall i | 0 <= i < |parts| :: parts[i] != ""
    ensures NonEmpty(parts) == parts
    decreases |parts|
  {
    if |parts| > 0 {
      NonEmptyKeeps(parts[1..]);
      assert parts == [parts[0]] + parts[1..];
    }
  }

  /** Newer rows may come first. */
  function NewestFirst(): (ActionRow, ActionRow) -> bool {
    (a: ActionRow, b: ActionRow) => a.createdAt >= b.createdAt
  }

  function ListView(row: ActionRow): ActionView {
    ActionView(row, NonEmpty(Split(row.keywords, ',')))
  }

  /** The rows behind a list of views, in order. */
  function RowsOf(vs: seq<ActionView>): (rs: seq<ActionRow>)
    ensures |rs| == |vs|
    ensures forall i | 0 <= i < |vs| :: rs[i] == vs[i].row
  {
    seq(|vs|, i requires 0 <= i < |vs| => vs[i].row)
  }

  /** `getActions`: every row, newest first, keywords split with empty segments dropped. */
  function GetActions(rows: seq<ActionRow>): (r: seq<ActionView>)
    ensures |r| == |rows|
    ensures forall i | 0 < i < |r| :: r[i - 1].row.createdAt >= r[i].row.createdAt
    ensures forall row :: row in rows <==> ListView(row) in r
    ensures forall i | 0 <= i < |r| :: r[i] == ListView(r[i].row)
    ensures multiset(RowsOf(r)) == multiset(rows)
  {
    assert Total(NewestFirst());
    var sorted := Sort(rows, NewestFirst());
    SortElements(rows, NewestFirst());
    var r := seq(|sorted|, i requires 0 <= i < |sorted| => ListView(sorted[i]));
    assert forall i | 0 <= i < |r| :: r[i].row == sorted[i];
    assert RowsOf(r) == sorted;
    assert forall row | ListView(row) in r :: row in sorted;
    r
  }

  /** The listing shows the same keywords as the create reply when no keyword had a comma. */
  lemma ListMatchesCreate(req: CreateRequest, refs: Refs, newId: string, now: int)
    requires CreateAction(req, refs, newId, now).Ok?
    requires forall j | 0 <= j < |req.keywords.entries| && req.keywords.entries[j].Some? :: ',' !in req.keywords.entries[j].value
    ensures ListView(CreateAction(req, refs, newId, now).value.row).keywords == CreateAction(req, refs, newId, now).value.keywords
  {
    CreateAnswersKeywords(req, refs, newId, now);
    NonEmptyKeeps(NormalizeKeywords(req.keywords.entries));
  }

  /** A field, two separators and a field split into the two fields around an empty one. */
  lemma SplitDoubleComma(a: string, b: string)
    requires ',' !in a && ',' !in b
    ensures Split(a + ",," + b, ',') == [a, "", b]
  {
    SplitWhole(b, ',');
    assert [','] + b == "" + [','] + b;
    SplitLeadingField("", ',', b);
    assert a + ",," + b == a + [','] + ([','] + b);
    SplitLeadingField(a, ',', [','] + b);
  }

  lemma DropEmptyMiddle(a: string, b: string)
    requires a != "" && b != ""
    ensures NonEmpty([a, "", b]) == [a, b]
  {
    assert [a, "", b][1..] == ["", b];
    assert ["", b][1..] == [b];
    assert [b][1..] == [];
    assert NonEmpty([b]) == [b] + NonEmpty([]);
    assert NonEmpty(["", b]) == NonEmpty([b]);
    assert NonEmpty([a, "", b]) == [a] + NonEmpty(["", b]);
  }

  /** A keyword holding ",," answers an empty segment on create, which the listing drops. */
  lemma EmptySegmentOnlyInCreateReply(a: string, b: string, name: string, c: Condition, k: ActionType, t: string,
                                      refs: Refs, newId: string, now: int)
    requires a != "" && b != "" && ',' !in a && ',' !in b
    requires !IsWhitespace(a[0]) && !IsWhitespace(b[|b| - 1])
    requires t != "" && t in refs.terminals
    ensures var r := CreateAction(CreateRequest(Items([Some(a + ",," + b)]), Some(t), name, c, k, None, None, None), refs, newId, now);
            && r.Ok?
            && r.value.keywords == [a, "", b]
            && ListView(r.value.row).keywords == [a, b]
  {
    var kw := a + ",," + b;
    var req := CreateRequest(Items([Some(kw)]), Some(t), name, c, k, None, None, None);
    var row := ActionRow(newId, name, t, c, k, kw, None, None, None, now);
    StoredClean(kw);
    SplitDoubleComma(a, b);
    assert CreateAction(req, refs, newId, now) == Ok(ActionView(row, [a, "", b]));
    DropEmptyMiddle(a, b);
  }

  /** A single non-blank, trimmed keyword is stored as it is. */
  lemma StoredClean(k: string)
    requires k != "" && Trimmed(k)
    ensures NormalizeKeywords([Some(k)]) == [k]
    ensures KeywordsString([Some(k)]) == k
  {
    TrimKeeps(k);
    assert [Some(k)][1..] == [];
    assert NormalizeKeywords([Some(k)]) == KeepEntry(Some(k)) + NormalizeKeywords([]);
  }
}

=== FILE: action_service.dfy ===
/**
 * The keyword-rule dispatcher. For every rule of a terminal, in the order the
 * store returns them, it decides whether the message matches the rule's
 * keywords and acts on the rule's type:
 *  - MEDIA with a media file: returns its url and stops;
 *  - CHATWORK / EMAIL with a template and a destination: renders the template
 *    and delivers it, then carries on with the next rule;
 *  - anything else: no effect, carries on.
 * A failed delivery aborts the walk and is rethrown. Deliveries are recorded
 * as a trace; whether each one fails is an input.
 */
module ActionService {
  import opened Wrappers
  import opened Strings
  import opened Records
  import opened Errors

  datatype Condition = And | Or
  datatype ActionType = Media | Chatwork | Email

  /** The fields of a rule's notified user that dispatch reads. */
  datatype Recipient = Recipient(firstName: string, lastName: string, email: string, chatworkId: Option<string>)

  /** An action rule as the store returns it, with its relations resolved. */
  datatype Rule = Rule(
    keywords: string,             // comma-joined, as stored
    condition: Condition,
    kind: ActionType,
    terminalName: string,
    mediaUrl: Option<string>,     // url of the attached media file
    template: Option<string>,     // content of the attached template
    recipient: Option<Recipient>)

  /** The message being dispatched, its predecessor in the exchange, and the rendered clock. */
  datatype Incoming = Incoming(message: string, previous: Option<string>, datetime: string)

  datatype Delivery =
    | ChatworkMessage(roomId: string, body: string)
    | EmailMessage(to: string, subject: string, body: string)

  datatype Outcome = MediaUrl(url: string) | NoMedia | Failed(error: Error)

  /** The deliveries attempted, in order (a failed one last), and the outcome. */
  datatype Dispatch = Dispatch(attempted: seq<Delivery>, outcome: Outcome)

  // ----------------------------------------------------------- templates

  const NoPreviousText := "前回の会話はありません"

  /**
   * `s.replace(/pat/g, rep)` for a literal pattern: every leftmost
   * non-overlapping occurrence of `pat` is replaced by `rep`, scanning once.
   */
  function ReplaceAll(s: string, pat: string, rep: string): (r: string)
    requires pat != ""
    ensures !Contains(s, pat) ==> r == s
    ensures rep == pat ==> r == s
    decreases |s|
  {
    if |s| == 0 then ""
    else if IsPrefix(pat, s) then
      assert pat + s[|pat|..] == s;
      rep + ReplaceAll(s[|pat|..], pat, rep)
    else
      assert [s[0]] + s[1..] == s;
      [s[0]] + ReplaceAll(s[1..], pat, rep)
  }

  /** No occurrence of `pat` in `s` starts before index `n`. */
  ghost predicate NoneBefore(pat: string, s: string, n: int) {
    forall i | 0 <= i < n :: !OccursAt(pat, s, i)
  }

  /** A slice inside the right operand of a concatenation is a slice of that operand. */
  lemma SliceRight(x: string, y: string, i: int, j: int)
    requires |x| <= i <= j <= |x| + |y|
    ensures (x + y)[i..j] == y[i - |x|..j - |x|]
  {
  }

  /** A slice inside the left operand of a concatenation is a slice of that operand. */
  lemma SliceLeft(x: string, y: string, i: int, j: int)
    requires 0 <= i <= j <= |x|
    ensures (x + y)[i..j] == x[i..j]
  {
  }

  /** Text in front of the first occurrence does not start one, and neither does its remainder. */
  lemma ShiftNoneBefore(a: string, b: string, pat: string)
    requires |a| > 0 && NoneBefore(pat, a + b, |a|)
    ensures !IsPrefix(pat, a + b) && (a + b)[1..] == a[1..] + b
    ensures NoneBefore(pat, a[1..] + b, |a| - 1)
  {
    var s := a + b;
    var a' := a[1..];
    assert s == [a[0]] + (a' + b);
    assert !OccursAt(pat, s, 0);
    if |pat| <= |s| {
      assert s[0..|pat|] == s[..|pat|];
    }
    forall i | 0 <= i < |a'| ensures !OccursAt(pat, a' + b, i) {
      assert !OccursAt(pat, s, i + 1);
      if i + |pat| <= |a' + b| {
        SliceRight([a[0]], a' + b, i + 1, i + 1 + |pat|);
      }
    }
  }

  /** Text in front of the first occurrence is copied after what is written so far. */
  lemma {:induction false} CopyPrefix(w: string, a: string, b: string, pat: string, rep: string)
    requires pat != ""
    requires NoneBefore(pat, a + b, |a|)
    ensures w + ReplaceAll(a + b, pat, rep) == (w + a) + ReplaceAll(b, pat, rep)
    decreases |a|
  {
    if |a| == 0 {
      assert a + b == b && w + a == w;
    } else {
      var c, a' := a[0], a[1..];
      ShiftNoneBefore(a, b, pat);
      calc {
        w + ReplaceAll(a + b, pat, rep);
      == { ReplaceSkipStep(w, a + b, pat, rep); }
        (w + [c]) + ReplaceAll((a + b)[1..], pat, rep);
      == { assert (a + b)[1..] == a' + b; }
        (w + [c]) + ReplaceAll(a' + b, pat, rep);
      == { CopyPrefix(w + [c], a', b, pat, rep); }
        ((w + [c]) + a') + ReplaceAll(b, pat, rep);
      == { assert a == [c] + a'; }
        (w + a) + ReplaceAll(b, pat, rep);
      }
    }
  }

  /** Text in front of the first occurrence is copied as it is. */
  lemma ReplaceKeepsPrefix(a: string, b: string, pat: string, rep: string)
    requires pat != ""
    requires NoneBefore(pat, a + b, |a|)
    ensures ReplaceAll(a + b, pat, rep) == a + ReplaceAll(b, pat, rep)
  {
    CopyPrefix([], a, b, pat, rep);
    assert [] + ReplaceAll(a + b, pat, rep) == ReplaceAll(a + b, pat, rep);
    assert [] + a == a;
  }

  /**
   * The leftmost occurrence is replaced and the scan goes on after it: the
   * text in front is kept, and nothing of the occurrence is looked at again.
   */
  lemma ReplaceLeftmost(a: string, b: string, pat: string, rep: string)
    requires pat != ""
    requires NoneBefore(pat, a + pat + b, |a|)
    ensures ReplaceAll(a + pat + b, pat, rep) == a + rep + ReplaceAll(b, pat, rep)
  {
    assert a + pat + b == a + (pat + b);
    ReplaceKeepsPrefix(a, pat + b, pat, rep);
    assert IsPrefix(pat, pat + b);
    assert (pat + b)[|pat|..] == b;
  }

  /** `p` occurs nowhere in `s`. */
  ghost predicate Absent(p: string, s: string) {
    forall i :: !OccursAt(p, s, i)
  }

  /** No character of `x` is a character of `p`. */
  predicate Disjoint(x: string, p: string) {
    forall i, j | 0 <= i < |x| && 0 <= j < |p| :: x[i] != p[j]
  }

  /** An occurrence of `p` cannot overlap a part made of characters `p` does not have. */
  lemma NotAcross(u: string, x: string, v: string, p: string, i: int)
    requires Disjoint(x, p) && x != "" && p != ""
    requires i < |u| + |x| && i + |p| > |u|
    ensures !OccursAt(p, u + x + v, i)
  {
    var t := u + x + v;
    if 0 <= i && i + |p| <= |t| {
      var j := if i < |u| then |u| else i;
      assert t[j] == x[j - |u|];
      assert t[i..i + |p|][j - i] == t[j] != p[j - i];
    }
  }

  /** Putting `rep` where `pat` was creates no occurrence of a `p` that shares no character with `rep`. */
  lemma SpliceAbsent(w: string, pat: string, rep: string, v: string, p: string)
    requires p != "" && rep != "" && Disjoint(rep, p)
    requires Absent(p, (w + pat) + v)
    ensures Absent(p, (w + rep) + v)
  {
    var t := (w + rep) + v;
    var o := (w + pat) + v;
    forall i ensures !OccursAt(p, t, i) {
      if 0 <= i && i + |p| <= |t| {
        if i + |p| <= |w| {
          assert !OccursAt(p, o, i);
          SliceLeft(w, rep + v, i, i + |p|);
          SliceLeft(w, pat + v, i, i + |p|);
          assert t == w + (rep + v) && o == w + (pat + v);
        } else if i >= |w| + |rep| {
          var k := i - |rep| + |pat|;
          assert !OccursAt(p, o, k);
          SliceRight(w + rep, v, i, i + |p|);
          SliceRight(w + pat, v, k, k + |p|);
        } else {
          NotAcross(w, rep, v, p, i);
        }
      }
    }
  }

  /** After `rep` replaced `pat`, no occurrence of `pat` starts in the text written so far. */
  lemma SpliceNoneBefore(w: string, pat: string, rep: string, v: string)
    requires pat != "" && rep != "" && Disjoint(rep, pat)
    requires NoneBefore(pat, (w + pat) + v, |w|)
    ensures NoneBefore(pat, (w + rep) + v, |w| + |rep|)
  {
    var t := (w + rep) + v;
    var o := (w + pat) + v;
    forall i | 0 <= i < |w| + |rep| ensures !OccursAt(pat, t, i) {
      if i + |pat| <= |w| {
        assert !OccursAt(pat, o, i);
        SliceLeft(w, rep + v, i, i + |pat|);
        SliceLeft(w, pat + v, i, i + |pat|);
        assert t == w + (rep + v) && o == w + (pat + v);
      } else {
        NotAcross(w, rep, v, pat, i);
      }
    }
  }

  /** A character that does not start an occurrence can be moved to the text written so far. */
  lemma StepNoneBefore(w: string, s: string, pat: string)
    requires |s| > 0 && !IsPrefix(pat, s)
    requires NoneBefore(pat, w + s, |w|)
    ensures NoneBefore(pat, (w + [s[0]]) + s[1..], |w| + 1)
  {
    assert (w + [s[0]]) + s[1..] == w + s;
    if |w| + |pat| <= |w + s| {
      SliceRight(w, s, |w|, |w| + |pat|);
      assert s[0..|pat|] == s[..|pat|];
    }
  }

  /** At an occurrence, the replacement is written and the scan resumes after the pattern. */
  lemma ReplaceMatchStep(w: string, s: string, pat: string, rep: string)
    requires pat != "" && IsPrefix(pat, s)
    ensures w + s == (w + pat) + s[|pat|..]
    ensures w + ReplaceAll(s, pat, rep) == (w + rep) + ReplaceAll(s[|pat|..], pat, rep)
  {
    assert s == pat + s[|pat|..];
  }

  /** Elsewhere, the first character is copied and the scan resumes at the next one. */
  lemma ReplaceSkipStep(w: string, s: string, pat: string, rep: string)
    requires pat != "" && |s| > 0 && !IsPrefix(pat, s)
    ensures w + s == (w + [s[0]]) + s[1..]
    ensures w + ReplaceAll(s, pat, rep) == (w + [s[0]]) + ReplaceAll(s[1..], pat, rep)
  {
    assert s == [s[0]] + s[1..];
  }

  /**
   * With a non-empty replacement sharing no character with `p`, replacing
   * creates no occurrence of `p`: a text without `p` stays without it.
   */
  lemma {:induction false} ReplaceAddsNone(w: string, s: string, pat: string, rep: string, p: string)
    requires pat != "" && p != "" && rep != "" && Disjoint(rep, p)
    requires Absent(p, w + s)
    ensures Absent(p, w + ReplaceAll(s, pat, rep))
    decreases |s|
  {
    if |s| == 0 {
      assert w + s == w + ReplaceAll(s, pat, rep);
    } else if IsPrefix(pat, s) {
      ReplaceMatchStep(w, s, pat, rep);
      SpliceAbsent(w, pat, rep, s[|pat|..], p);
      ReplaceAddsNone(w + rep, s[|pat|..], pat, rep, p);
    } else {
      ReplaceSkipStep(w, s, pat, rep);
      ReplaceAddsNone(w + [s[0]], s[1..], pat, rep, p);
    }
  }

  /**
   * With a non-empty replacement sharing no character with the pattern, no
   * occurrence of the pattern is left over.
   */
  lemma {:induction false} ReplaceLeavesNone(w: string, s: string, pat: string, rep: string)
    requires pat != "" && rep != "" && Disjoint(rep, pat)
    requires NoneBefore(pat, w + s, |w|)
    ensures Absent(pat, w + ReplaceAll(s, pat, rep))
    decreases |s|
  {
    if |s| == 0 {
      assert w + s == w + ReplaceAll(s, pat, rep) == w;
    } else if IsPrefix(pat, s) {
      ReplaceMatchStep(w, s, pat, rep);
      SpliceNoneBefore(w, pat, rep, s[|pat|..]);
      ReplaceLeavesNone(w + rep, s[|pat|..], pat, rep);
    } else {
      ReplaceSkipStep(w, s, pat, rep);
      StepNoneBefore(w, s, pat);
      ReplaceLeavesNone(w + [s[0]], s[1..], pat, rep);
    }
  }

  /**
   * Why the replacement must share no character with the pattern, and be
   * non-empty: otherwise a single scan can leave a new occurrence behind.
   */
  lemma ReplaceCanRecreate()
    ensures ReplaceAll("aaa", "aa", "a") == "aa"
    ensures ReplaceAll("aabb", "ab", "") == "ab"
  {
    assert "aaa"[..2] == "aa" && "aaa"[2..] == "a";
    assert ReplaceAll("a", "aa", "a") == "a";
    assert "aabb"[..2][1] != "ab"[1];
    assert "aabb"[1..] == "abb" && "abb"[..2] == "ab" && "abb"[2..] == "b";
    assert ReplaceAll("b", "ab", "") == "b";
  }

  /** `prevmessage || '前回の会話はありません'`. */
  function PreviousText(previous: Option<string>): string {
    if Truthy(previous) then previous.value else NoPreviousText
  }

  /** The four placeholders, substituted in this order; a template holding none of them is sent as written. */
  function Render(template: string, message: string, previous: Option<string>, terminal: string, datetime: string): (text: string)
    ensures (!Contains(template, "{message}") && !Contains(template, "{prevmessage}")
             && !Contains(template, "{terminal}") && !Contains(template, "{datetime}")) ==> text == template
  {
    var a := ReplaceAll(template, "{message}", message);
    var b := ReplaceAll(a, "{prevmessage}", PreviousText(previous));
    var c := ReplaceAll(b, "{terminal}", terminal);
    ReplaceAll(c, "{datetime}", datetime)
  }

  /** A string without the first character of `p` has no occurrence of `p`. */
  lemma MissingLead(s: string, p: string)
    requires p != "" && p[0] !in s
    ensures !Contains(s, p)
  {
    forall i
      ensures !OccursAt(p, s, i)
    {
      if 0 <= i && i + |p| <= |s| {
        assert s[i..i + |p|][0] == s[i];
      }
    }
  }

  /** The pattern alone is replaced by the replacement. */
  lemma ReplaceWhole(p: string, rep: string)
    requires p != ""
    ensures ReplaceAll(p, p, rep) == rep
  {
    assert IsPrefix(p, p);
    assert p[|p|..] == "";
  }

  /** A pattern longer than the text does not occur in it. */
  lemma TooLong(s: string, p: string)
    requires |p| > |s|
    ensures !Contains(s, p)
  {
  }

  /** `{message}` does not occur in `{prevmessage}`. */
  lemma MessageNotInPrevMessage()
    ensures !Contains("{prevmessage}", "{message}")
  {
    var t := "{prevmessage}";
    var p := "{message}";
    forall i
      ensures !OccursAt(p, t, i)
    {
      if i == 0 {
        assert t[i..i + |p|][1] == 'p';
      } else if 0 < i && i + |p| <= |t| {
        assert t[i..i + |p|][0] == t[i];
      }
    }
  }

  /** The `{message}` step leaves the `{prevmessage}` template as it is. */
  lemma PrevTemplateSurvivesMessage(message: string)
    ensures ReplaceAll("{prevmessage}", "{message}", message) == "{prevmessage}"
  {
    MessageNotInPrevMessage();
  }

  /** The fallback text holds no placeholder, so the last two steps leave it as it is. */
  lemma FallbackHasNoPlaceholder(terminal: string, datetime: string)
    ensures ReplaceAll(NoPreviousText, "{terminal}", terminal) == NoPreviousText
    ensures ReplaceAll(NoPreviousText, "{datetime}", datetime) == NoPreviousText
  {
    MissingLead(NoPreviousText, "{terminal}");
    MissingLead(NoPreviousText, "{datetime}");
  }

  /** Every character is ASCII. */
  predicate Ascii(s: string) {
    forall i | 0 <= i < |s| :: s[i] < '\U{80}'
  }

  /** No character is ASCII. */
  predicate BeyondAscii(s: string) {
    forall i | 0 <= i < |s| :: s[i] >= '\U{80}'
  }

  /** The fallback text, written in Japanese, shares no character with any placeholder. */
  lemma FallbackDisjoint(p: string)
    requires Ascii(p)
    ensures Disjoint(NoPreviousText, p)
  {
    assert BeyondAscii(NoPreviousText);
  }

  /** Filling `{prevmessage}` with the fallback text leaves no placeholder a template did not already have. */
  lemma FallbackFillsPrevious(t: string)
    requires !Contains(t, "{terminal}") && !Contains(t, "{datetime}")
    ensures var b := ReplaceAll(t, "{prevmessage}", NoPreviousText);
            !Contains(b, "{terminal}") && !Contains(b, "{datetime}") && !Contains(b, "{prevmessage}")
  {
    var b := ReplaceAll(t, "{prevmessage}", NoPreviousText);
    assert [] + t == t && [] + b == b;
    FallbackDisjoint("{terminal}");
    FallbackDisjoint("{datetime}");
    FallbackDisjoint("{prevmessage}");
    ReplaceAddsNone([], t, "{prevmessage}", NoPreviousText, "{terminal}");
    ReplaceAddsNone([], t, "{prevmessage}", NoPreviousText, "{datetime}");
    ReplaceLeavesNone([], t, "{prevmessage}", NoPreviousText);
  }

  /**
   * An absent or empty previous message renders as the fixed "no previous
   * conversation" text: in a template with no other placeholder, every
   * `{prevmessage}` is replaced by it, and none is left.
   */
  lemma RenderMissingPrevious(t: string, message: string, previous: Option<string>, terminal: string, datetime: string)
    requires !Truthy(previous)
    requires !Contains(t, "{message}") && !Contains(t, "{terminal}") && !Contains(t, "{datetime}")
    ensures Render(t, message, previous, terminal, datetime) == ReplaceAll(t, "{prevmessage}", NoPreviousText)
    ensures !Contains(Render(t, message, previous, terminal, datetime), "{prevmessage}")
  {
    FallbackFillsPrevious(t);
  }

  /**
   * Substitution is sequential: a message that itself contains `{terminal}`
   * has it replaced by the terminal name in the final text.
   */
  lemma RenderExpandsPlaceholderInMessage(template: string, message: string, previous: Option<string>, terminal: string, datetime: string)
    requires template == "{message}" && message == "{terminal}"
    requires '{' !in terminal
    ensures Render(template, message, previous, terminal, datetime) == terminal
  {
    ReplaceWhole(template, message);
    var a := ReplaceAll(template, "{message}", message);
    TooLong(a, "{prevmessage}");
    ReplaceWhole(a, terminal);
    MissingLead(terminal, "{datetime}");
  }

  // ------------------------------------------------------------ matching

  /** Each part trimmed, in order; trimming only removes characters. */
  function TrimEach(parts: seq<string>): (ts: seq<string>)
    ensures |ts| == |parts|
    ensures forall i | 0 <= i < |parts| :: ts[i] == Trim(parts[i])
    ensures forall i, c | 0 <= i < |ts| && c in ts[i] :: c in parts[i]
    decreases |parts|
  {
    if |parts| == 0 then []
    else
      TrimChars(parts[0]);
      [Trim(parts[0])] + TrimEach(parts[1..])
  }

  /** `keywords.split(',').map(k => k.trim())`: never empty. */
  function RuleKeywords(r: Rule): (ks: seq<string>)
    ensures |ks| >= 1
    ensures forall i | 0 <= i < |ks| :: ',' !in ks[i]
  {
    TrimEach(Split(r.keywords, ','))
  }

  /** `ks.every(k => m.includes(k))`. */
  function AllOccur(ks: seq<string>, m: string): (b: bool)
    ensures b <==> forall i | 0 <= i < |ks| :: Contains(m, ks[i])
  {
    if |ks| == 0 then true
    else Contains(m, ks[0]) && AllOccur(ks[1..], m)
  }

  /** `ks.some(k => m.includes(k))`. */
  function SomeOccurs(ks: seq<string>, m: string): (b: bool)
    ensures b <==> exists i | 0 <= i < |ks| :: Contains(m, ks[i])
  {
    if |ks| == 0 then false
    else Contains(m, ks[0]) || SomeOccurs(ks[1..], m)
  }

  /**
   * The rule's keyword condition holds of the message: AND asks every trimmed
   * keyword to occur in it, OR asks one of them to.
   */
  predicate Matches(r: Rule, message: string)
    ensures r.condition == And ==>
      (Matches(r, message) <==> forall k | k in RuleKeywords(r) :: Contains(message, k))
    ensures r.condition == Or ==>
      (Matches(r, message) <==> exists k | k in RuleKeywords(r) :: Contains(message, k))
  {
    KeywordsMeaning(RuleKeywords(r), message);
    if r.condition == And then AllOccur(RuleKeywords(r), message)
    else SomeOccurs(RuleKeywords(r), message)
  }

  /** Every keyword of the list occurs, or one of them does, read over the list's elements. */
  lemma KeywordsMeaning(ks: seq<string>, message: string)
    ensures AllOccur(ks, message) <==> forall k | k in ks :: Contains(message, k)
    ensures SomeOccurs(ks, message) <==> exists k | k in ks :: Contains(message, k)
  {
    assert (forall k | k in ks :: Contains(message, k)) <==> (forall i | 0 <= i < |ks| :: Contains(message, ks[i]));
    if exists k | k in ks :: Contains(message, k) {
      var k :| k in ks && Contains(message, k);
      var i :| 0 <= i < |ks| && ks[i] == k;
    }
  }

  /** A keyword that is blank after trimming occurs in every message, so an OR rule holding one always matches. */
  lemma BlankKeywordMatchesAll(r: Rule, message: string, i: int)
    requires r.condition == Or
    requires 0 <= i < |RuleKeywords(r)| && RuleKeywords(r)[i] == ""
    ensures Matches(r, message)
  {
    ContainsEmpty(message);
  }

  // ------------------------------------------------------------ dispatch

  const SubjectHead := "【AICO】お客さまから呼び出し（"
  const SubjectTail := " さん宛て）"

  /** The e-mail subject: the fixed frame around the recipient's family name followed by given name. */
  function Subject(u: Recipient): (s: string)
    ensures OccursAt(u.lastName + u.firstName, s, |SubjectHead|)
    ensures IsPrefix(SubjectHead, s)
  {
    var s := SubjectHead + u.lastName + u.firstName + SubjectTail;
    assert s[|SubjectHead|..|SubjectHead| + |u.lastName + u.firstName|] == u.lastName + u.firstName;
    s
  }

  datatype Effect = Skip | ReturnMedia(url: string) | Deliver(delivery: Delivery)

  /**
   * The rule has what its `case` needs to act: a media file for MEDIA; a
   * template, a user and that user's truthy Chatwork id or non-empty address
   * for CHATWORK and EMAIL.
   */
  predicate Equipped(r: Rule) {
    match r.kind
    case Media => r.mediaUrl.Some?
    case Chatwork => r.template.Some? && r.recipient.Some? && Truthy(r.recipient.value.chatworkId)
    case Email => r.template.Some? && r.recipient.Some? && r.recipient.value.email != ""
  }

  /** What one rule does with the message, before any delivery is attempted. */
  function EffectOf(r: Rule, m: Incoming): (e: Effect)
    ensures e == Skip <==> !Matches(r, m.message) || !Equipped(r)
    ensures Matches(r, m.message) && r.kind == Media && r.mediaUrl.Some? ==> e == ReturnMedia(r.mediaUrl.value)
    ensures Matches(r, m.message) && r.kind == Chatwork && Equipped(r) ==>
              e == Deliver(ChatworkMessage(r.recipient.value.chatworkId.value,
                             Render(r.template.value, m.message, m.previous, r.terminalName, m.datetime)))
    ensures Matches(r, m.message) && r.kind == Email && Equipped(r) ==>
              e == Deliver(EmailMessage(r.recipient.value.email, Subject(r.recipient.value),
                             Render(r.template.value, m.message, m.previous, r.terminalName, m.datetime)))
    ensures !Matches(r, m.message) ==> e == Skip
    ensures e.ReturnMedia? ==> Matches(r, m.message) && r.kind == Media && r.mediaUrl == Some(e.url)
    ensures e.Deliver? ==>
              && Matches(r, m.message) && r.kind != Media && r.template.Some? && r.recipient.Some?
              && e.delivery.body == Render(r.template.value, m.message, m.previous, r.terminalName, m.datetime)
  {
    if !Matches(r, m.message) then Skip
    else
      match r.kind
      case Media =>
        if r.mediaUrl.Some? then ReturnMedia(r.mediaUrl.value) else Skip
      case Chatwork =>
        if r.template.Some? && r.recipient.Some? && Truthy(r.recipient.value.chatworkId) then
          Deliver(ChatworkMessage(r.recipient.value.chatworkId.value,
            Render(r.template.value, m.message, m.previous, r.terminalName, m.datetime)))
        else Skip
      case Email =>
        if r.template.Some? && r.recipient.Some? && r.recipient.value.email != "" then
          Deliver(EmailMessage(r.recipient.value.email, Subject(r.recipient.value),
            Render(r.template.value, m.message, m.previous, r.terminalName, m.datetime)))
        else Skip
  }

  /** Some rule returns media with this url. */
  predicate SomeRuleReturns(rules: seq<Rule>, m: Incoming, url: string) {
    exists i | 0 <= i < |rules| :: EffectOf(rules[i], m) == ReturnMedia(url)
  }

  /** The effect of each rule on the message, in rule order. */
  function Effects(rules: seq<Rule>, m: Incoming): (es: seq<Effect>)
    ensures |es| == |rules|
    decreases |rules|
  {
    if |rules| == 0 then [] else [EffectOf(rules[0], m)] + Effects(rules[1..], m)
  }

  /** The effect at each index is that of the rule at that index. */
  lemma {:induction false} EffectAt(rules: seq<Rule>, m: Incoming, i: nat)
    requires i < |rules|
    ensures Effects(rules, m)[i] == EffectOf(rules[i], m)
    decreases i
  {
    if i > 0 {
      EffectAt(rules[1..], m, i - 1);
    }
  }

  /**
   * The loop of `processMessage` over the rules' effects: a rule without
   * effect is passed over, the first media rule ends the walk with its url,
   * and a delivery is attempted, its failure ending the walk.
   */
  function Walk(es: seq<Effect>, fails: Delivery -> Option<Error>): (o: Dispatch)
    ensures o.outcome.Failed? ==>
              |o.attempted| > 0 && fails(o.attempted[|o.attempted| - 1]) == Some(o.outcome.error)
    ensures o.outcome.MediaUrl? ==> exists i | 0 <= i < |es| :: es[i] == ReturnMedia(o.outcome.url)
    decreases |es|
  {
    if |es| == 0 then Dispatch([], NoMedia)
    else
      match es[0]
      case Skip =>
        var rest := Walk(es[1..], fails);
        assert rest.outcome.MediaUrl? ==> exists i | 0 <= i < |es| :: es[i] == ReturnMedia(rest.outcome.url) by {
          if rest.outcome.MediaUrl? {
            var i :| 0 <= i < |es[1..]| && es[1..][i] == ReturnMedia(rest.outcome.url);
            assert es[i + 1] == es[1..][i];
          }
        }
        rest
      case ReturnMedia(url) => Dispatch([], MediaUrl(url))
      case Deliver(d) =>
        if fails(d).Some? then Dispatch([d], Failed(fails(d).value))
        else
          var rest := Walk(es[1..], fails);
          var attempted := [d] + rest.attempted;
          assert rest.outcome.Failed? ==> attempted[|attempted| - 1] == rest.attempted[|rest.attempted| - 1];
          assert rest.outcome.MediaUrl? ==> exists i | 0 <= i < |es| :: es[i] == ReturnMedia(rest.outcome.url) by {
            if rest.outcome.MediaUrl? {
              var i :| 0 <= i < |es[1..]| && es[1..][i] == ReturnMedia(rest.outcome.url);
              assert es[i + 1] == es[1..][i];
            }
          }
          Dispatch(attempted, rest.outcome)
  }

  /**
   * `processMessage`: the walk over the rules. `fails(d)` is the error a
   * delivery raises, if it does. A rule's effect depends on nothing the walk
   * changes, so the effects may be taken before the walk.
   */
  function ProcessMessage(rules: seq<Rule>, m: Incoming, fails: Delivery -> Option<Error>): (o: Dispatch)
    ensures o.outcome.Failed? ==>
              |o.attempted| > 0 && fails(o.attempted[|o.attempted| - 1]) == Some(o.outcome.error)
    ensures o.outcome.MediaUrl? ==> SomeRuleReturns(rules, m, o.outcome.url)
  {
    var es := Effects(rules, m);
    var o := Walk(es, fails);
    assert o.outcome.MediaUrl? ==> SomeRuleReturns(rules, m, o.outcome.url) by {
      if o.outcome.MediaUrl? {
        var i :| 0 <= i < |es| && es[i] == ReturnMedia(o.outcome.url);
        EffectAt(rules, m, i);
      }
    }
    o
  }

  // ------------------------------------------ reference characterisation

  /** Every delivery the effects ask for, in order. */
  function Deliveries(es: seq<Effect>): seq<Delivery>
    decreases |es|
  {
    if |es| == 0 then []
    else (if es[0].Deliver? then [es[0].delivery] else []) + Deliveries(es[1..])
  }

  /** The index of the first effect that returns media, or |es| when none does. */
  function MediaStop(es: seq<Effect>): (k: nat)
    ensures k <= |es|
    ensures forall j | 0 <= j < k :: !es[j].ReturnMedia?
    ensures k < |es| ==> es[k].ReturnMedia?
    decreases |es|
  {
    if |es| == 0 then 0
    else if es[0].ReturnMedia? then 0
    else 1 + MediaStop(es[1..])
  }

  /** The index of the first delivery in `plan` that fails, or |plan| when none does. */
  function FirstFailure(plan: seq<Delivery>, fails: Delivery -> Option<Error>): (f: nat)
    ensures f <= |plan|
    ensures forall j | 0 <= j < f :: fails(plan[j]).None?
    ensures f < |plan| ==> fails(plan[f]).Some?
    decreases |plan|
  {
    if |plan| == 0 then 0
    else if fails(plan[0]).Some? then 0
    else 1 + FirstFailure(plan[1..], fails)
  }

  function Min(a: int, b: int): int {
    if a <= b then a else b
  }

  /** The media answer: the url of the first effect returning media, or null. */
  function MediaAnswer(es: seq<Effect>): Outcome {
    var k := MediaStop(es);
    if k < |es| then MediaUrl(es[k].url) else NoMedia
  }

  /** Attempting the deliveries of `plan` in order, stopping at the first failure, then answering `answer`. */
  function Settle(plan: seq<Delivery>, answer: Outcome, fails: Delivery -> Option<Error>): Dispatch {
    var f := FirstFailure(plan, fails);
    Dispatch(plan[..Min(f + 1, |plan|)], if f < |plan| then Failed(fails(plan[f]).value) else answer)
  }

  /**
   * The dispatcher as a closed form over the reference definitions: the
   * deliveries before the first media effect are attempted up to and
   * including the first failing one; the outcome is that failure if there is
   * one, otherwise the media answer.
   */
  function ClosedForm(es: seq<Effect>, fails: Delivery -> Option<Error>): Dispatch {
    Settle(Deliveries(es[..MediaStop(es)]), MediaAnswer(es), fails)
  }

  /** Settling a plan that starts with `d` attempts `d` first and stops there if it fails. */
  lemma SettleCons(d: Delivery, plan: seq<Delivery>, answer: Outcome, fails: Delivery -> Option<Error>)
    ensures Settle([d] + plan, answer, fails)
         == if fails(d).Some? then Dispatch([d], Failed(fails(d).value))
            else Dispatch([d] + Settle(plan, answer, fails).attempted, Settle(plan, answer, fails).outcome)
  {
    var p := [d] + plan;
    assert p[1..] == plan;
    if fails(d).None? {
      var f' := FirstFailure(plan, fails);
      assert FirstFailure(p, fails) == f' + 1;
      assert p[..Min(f' + 2, |p|)] == [d] + plan[..Min(f' + 1, |plan|)];
      assert f' < |plan| ==> p[f' + 1] == plan[f'];
    }
  }

  /** The deliveries of a non-empty prefix are those of its first effect followed by those of the rest. */
  lemma DeliveriesOfPrefix(es: seq<Effect>, k: nat)
    requires 0 < k <= |es|
    ensures Deliveries(es[..k])
         == (if es[0].Deliver? then [es[0].delivery] else []) + Deliveries(es[1..][..k - 1])
  {
    assert es[..k][1..] == es[1..][..k - 1];
  }

  /** Past a first effect that is not media, the media answer is that of the remaining effects. */
  lemma MediaAnswerTail(es: seq<Effect>)
    requires |es| > 0 && !es[0].ReturnMedia?
    ensures MediaStop(es) == MediaStop(es[1..]) + 1
    ensures MediaAnswer(es) == MediaAnswer(es[1..])
  {
    var k' := MediaStop(es[1..]);
    assert k' < |es[1..]| ==> es[k' + 1] == es[1..][k'];
  }

  /** An effect-free rule changes nothing in the closed form. */
  lemma ClosedFormSkip(es: seq<Effect>, fails: Delivery -> Option<Error>)
    requires |es| > 0 && es[0].Skip?
    ensures ClosedForm(es, fails) == ClosedForm(es[1..], fails)
  {
    MediaAnswerTail(es);
    var k := MediaStop(es);
    var k' := MediaStop(es[1..]);
    DeliveriesOfPrefix(es, k);
    var plan' := Deliveries(es[1..][..k']);
    assert [] + plan' == plan';
    assert Deliveries(es[..k]) == plan';
  }

  /** A first rule that returns media makes the closed form that media, with nothing delivered. */
  lemma ClosedFormMedia(es: seq<Effect>, fails: Delivery -> Option<Error>)
    requires |es| > 0 && es[0].ReturnMedia?
    ensures ClosedForm(es, fails) == Dispatch([], MediaUrl(es[0].url))
  {
    assert MediaStop(es) == 0;
  }

  /** A first rule that delivers puts its delivery in front, or stops there when it fails. */
  lemma ClosedFormDeliver(es: seq<Effect>, fails: Delivery -> Option<Error>)
    requires |es| > 0 && es[0].Deliver?
    ensures var d := es[0].delivery;
            var rest := ClosedForm(es[1..], fails);
            ClosedForm(es, fails)
            == if fails(d).Some? then Dispatch([d], Failed(fails(d).value))
               else Dispatch([d] + rest.attempted, rest.outcome)
  {
    MediaAnswerTail(es);
    DeliveriesOfPrefix(es, MediaStop(es));
    SettleCons(es[0].delivery, Deliveries(es[1..][..MediaStop(es[1..])]), MediaAnswer(es), fails);
  }

  /** The walk agrees with the closed form on every sequence of effects. */
  lemma {:induction false} WalkClosedForm(es: seq<Effect>, fails: Delivery -> Option<Error>)
    ensures Walk(es, fails) == ClosedForm(es, fails)
    decreases |es|
  {
    if |es| > 0 {
      WalkClosedForm(es[1..], fails);
      match es[0]
      case Skip => ClosedFormSkip(es, fails);
      case ReturnMedia(_) => ClosedFormMedia(es, fails);
      case Deliver(_) => ClosedFormDeliver(es, fails);
    }
  }

  /** `processMessage` agrees with the closed form of its rules' effects on every input. */
  lemma ProcessMessageClosedForm(rules: seq<Rule>, m: Incoming, fails: Delivery -> Option<Error>)
    ensures ProcessMessage(rules, m, fails) == ClosedForm(Effects(rules, m), fails)
  {
    WalkClosedForm(Effects(rules, m), fails);
  }

  /**
   * A first rule that does not match (`continue`), or whose `case` lacks its
   * file, template, user or destination (`break`), changes nothing: the
   * dispatch is that of the remaining rules.
   */
  lemma SkippedRuleChangesNothing(rules: seq<Rule>, m: Incoming, fails: Delivery -> Option<Error>)
    requires |rules| > 0 && (!Matches(rules[0], m.message) || !Equipped(rules[0]))
    ensures ProcessMessage(rules, m, fails) == ProcessMessage(rules[1..], m, fails)
  {
    var es := Effects(rules, m);
    assert es[0] == Skip && es[1..] == Effects(rules[1..], m);
    ProcessMessageClosedForm(rules, m, fails);
    ProcessMessageClosedForm(rules[1..], m, fails);
    ClosedFormSkip(es, fails);
  }

  /** When no delivery fails, every delivery before the first media rule is made, and its media is the answer. */
  lemma ProcessMessageWithoutFailures(rules: seq<Rule>, m: Incoming, fails: Delivery -> Option<Error>)
    requires forall d :: fails(d).None?
    ensures var es := Effects(rules, m);
            var k := MediaStop(es);
            && ProcessMessage(rules, m, fails).attempted == Deliveries(es[..k])
            && ProcessMessage(rules, m, fails).outcome
               == (if k < |rules| then MediaUrl(es[k].url) else NoMedia)
  {
    var es := Effects(rules, m);
    ProcessMessageClosedForm(rules, m, fails);
    var plan := Deliveries(es[..MediaStop(es)]);
    assert FirstFailure(plan, fails) == |plan|;
  }

  // ------------------------------------------------------------ scenarios

  /** A one-keyword OR rule matches a message that is exactly its (trimmed, comma-free) keyword. */
  lemma KeywordMatchesItself(r: Rule, k: string)
    requires r.keywords == k && ',' !in k && Trimmed(k) && r.condition == Or
    ensures Matches(r, k)
  {
    SplitWhole(k, ',');
    TrimKeeps(k);
    assert TrimEach([k]) == [k];
    assert RuleKeywords(r) == [k];
    assert IsPrefix(k, k);
    assert OccursAt(k, k, 0);
  }

  /**
   * A matching CHATWORK rule before a matching MEDIA rule is still delivered:
   * the dispatcher is not first-match-wins.
   */
  lemma ChatworkThenMedia(k: string, room: string, url: string, template: string, previous: Option<string>, datetime: string)
    requires ',' !in k && Trimmed(k) && room != ""
    ensures var a := Rule(k, Or, Chatwork, "T", None, Some(template), Some(Recipient("F", "L", "", Some(room))));
            var b := Rule(k, Or, Media, "T", Some(url), None, None);
            var o := ProcessMessage([a, b], Incoming(k, previous, datetime), _ => None);
            o == Dispatch([ChatworkMessage(room, Render(template, k, previous, "T", datetime))], MediaUrl(url))
  {
    var a := Rule(k, Or, Chatwork, "T", None, Some(template), Some(Recipient("F", "L", "", Some(room))));
    var b := Rule(k, Or, Media, "T", Some(url), None, None);
    var m := Incoming(k, previous, datetime);
    var d := ChatworkMessage(room, Render(template, k, previous, "T", datetime));
    assert EffectOf(a, m) == Deliver(d) by { KeywordMatchesItself(a, k); }
    assert EffectOf(b, m) == ReturnMedia(url) by { KeywordMatchesItself(b, k); }
    var es := Effects([a, b], m);
    EffectAt([a, b], m, 0);
    EffectAt([a, b], m, 1);
    assert es[1..] == [ReturnMedia(url)];
    assert Walk(es[1..], _ => None) == Dispatch([], MediaUrl(url));
  }

  /** A matching MEDIA rule first ends the walk: the CHATWORK rule after it is never delivered. */
  lemma MediaThenChatwork(k: string, room: string, url: string, template: string, previous: Option<string>, datetime: string)
    requires ',' !in k && Trimmed(k)
    ensures var a := Rule(k, Or, Media, "T", Some(url), None, None);
            var b := Rule(k, Or, Chatwork, "T", None, Some(template), Some(Recipient("F", "L", "", Some(room))));
            ProcessMessage([a, b], Incoming(k, previous, datetime), _ => None) == Dispatch([], MediaUrl(url))
  {
    var a := Rule(k, Or, Media, "T", Some(url), None, None);
    var b := Rule(k, Or, Chatwork, "T", None, Some(template), Some(Recipient("F", "L", "", Some(room))));
    KeywordMatchesItself(a, k);
    EffectAt([a, b], Incoming(k, previous, datetime), 0);
  }
}

=== FILE: add_action_modal.dfy ===
/**
 * The add-action dialog: the keyword list editor and the checks the dialog
 * runs after the schema accepts the form and before the action is sent.
 */
module AddActionModal {
  import opened Wrappers
  import opened Strings
  import opened Records
  import opened Errors
  import opened ActionService
  import opened ActionController
  import opened Schemas

  const NoKeywordAdded := "キーワードを1つ以上追加してください"
  const FileRequired := "送信するファイルを選択してください"
  const RecipientRequired := "通知先ユーザーを選択してください"
  const TemplateRequired := "通知テンプレートを選択してください"
  const SendFailed := "アクションの登録に失敗しました"

  /** The form starts as a MEDIA action matched with OR. */
  const DefaultKind: ActionType := Media
  const DefaultCondition: Condition := Or

  /** The keywords added so far and the text in the keyword input. */
  datatype KeywordEditor = KeywordEditor(keywords: seq<string>, input: string)

  predicate NoDuplicates(ks: seq<string>) {
    forall i, j | 0 <= i < j < |ks| :: ks[i] != ks[j]
  }

  lemma NoDuplicatesCons(x: string, ks: seq<string>)
    ensures NoDuplicates([x] + ks) <==> x !in ks && NoDuplicates(ks)
  {
    var s := [x] + ks;
    assert forall i | 0 <= i < |ks| :: s[i + 1] == ks[i];
    if x !in ks && NoDuplicates(ks) {
      forall i, j | 0 <= i < j < |s| ensures s[i] != s[j] {
        if i > 0 { assert s[i] == ks[i - 1] && s[j] == ks[j - 1]; }
        else { assert s[j] == ks[j - 1]; }
      }
    }
    if NoDuplicates(s) {
      forall i | 0 <= i < |ks| ensures ks[i] != x {
        assert s[0] != s[i + 1];
      }
      forall i, j | 0 <= i < j < |ks| ensures ks[i] != ks[j] {
        assert s[i + 1] != s[j + 1];
      }
    }
  }

  /** `handleAddKeyword`: a non-empty input not yet listed is appended and the input cleared; otherwise nothing changes. */
  function AddKeyword(e: KeywordEditor): (r: KeywordEditor)
    ensures forall k :: k in r.keywords <==> k in e.keywords || (k == e.input && k != "")
    ensures NoDuplicates(e.keywords) ==> NoDuplicates(r.keywords)
    ensures e.input == "" || e.input in e.keywords ==> r == e
    ensures e.input != "" && e.input !in e.keywords ==> |r.keywords| == |e.keywords| + 1 && r.keywords[..|e.keywords|] == e.keywords && r.input == ""
  {
    if e.input != "" && e.input !in e.keywords then
      var ks := e.keywords + [e.input];
      assert ks[..|e.keywords|] == e.keywords;
      KeywordEditor(ks, "")
    else e
  }

  /** `handleRemoveKeyword`: every copy of `k` goes, the rest keep their order. */
  function RemoveKeyword(ks: seq<string>, k: string): (r: seq<string>)
    ensures forall x :: x in r <==> x in ks && x != k
    ensures |r| <= |ks|
    ensures NoDuplicates(ks) ==> NoDuplicates(r)
    decreases |ks|
  {
    if |ks| == 0 then []
    else
      var rest := RemoveKeyword(ks[1..], k);
      assert ks == [ks[0]] + ks[1..];
      NoDuplicatesCons(ks[0], ks[1..]);
      NoDuplicatesCons(ks[0], rest);
      if ks[0] == k then rest
      else
        assert forall x :: x in ks[1..] ==> x in ks;
        [ks[0]] + rest
  }

  /** Removing from a concatenation removes from each part, so the survivors keep their relative order. */
  lemma {:induction false} RemoveAppend(a: seq<string>, b: seq<string>, k: string)
    ensures RemoveKeyword(a + b, k) == RemoveKeyword(a, k) + RemoveKeyword(b, k)
    decreases |a|
  {
    if |a| == 0 {
      assert a + b == b;
    } else {
      assert (a + b)[0] == a[0];
      assert (a + b)[1..] == a[1..] + b;
      RemoveAppend(a[1..], b, k);
    }
  }

  /** Removing a keyword that is not listed changes nothing. */
  lemma {:induction false} RemoveAbsent(ks: seq<string>, k: string)
    requires k !in ks
    ensures RemoveKeyword(ks, k) == ks
    decreases |ks|
  {
    if |ks| > 0 {
      assert k !in ks[1..];
      RemoveAbsent(ks[1..], k);
      assert ks == [ks[0]] + ks[1..];
    }
  }

  /** Removing what was just added gives back the list before it. */
  lemma RemoveUndoesAdd(e: KeywordEditor)
    requires e.input != "" && e.input !in e.keywords
    ensures RemoveKeyword(AddKeyword(e).keywords, e.input) == e.keywords
  {
    RemoveAppend(e.keywords, [e.input], e.input);
    RemoveAbsent(e.keywords, e.input);
    assert RemoveKeyword([e.input], e.input) == [];
  }

  /** Adding is idempotent: the second press finds the input cleared or the keyword listed. */
  lemma AddTwice(e: KeywordEditor)
    ensures AddKeyword(AddKeyword(e)) == AddKeyword(e)
  {
  }

  // ----------------------------------------------------------------- submit

  /** What the dialog sends: the accepted form with the keyword list as edited. */
  datatype Payload = Payload(form: ActionForm, keywords: seq<string>)

  /** The dialog after a submit: the message it shows, the editor, and what was sent. */
  datatype Submitted = Submitted(error: Option<string>, editor: KeywordEditor, sent: Option<Payload>)

  /** The dialog's own checks, first failure wins. */
  function SubmitCheck(keywords: seq<string>, form: ActionForm): (r: Result<Payload, string>)
    ensures |keywords| == 0 ==> r == Err(NoKeywordAdded)
    ensures |keywords| > 0 && form.kind == Media && !Truthy(form.mediaId) ==> r == Err(FileRequired)
    ensures |keywords| > 0 && form.kind != Media && !Truthy(form.userId) ==> r == Err(RecipientRequired)
    ensures |keywords| > 0 && form.kind != Media && Truthy(form.userId) && !Truthy(form.templateId) ==> r == Err(TemplateRequired)
    ensures r.Ok? <==>
              |keywords| > 0 && (form.kind == Media ==> Truthy(form.mediaId))
              && (form.kind != Media ==> Truthy(form.userId) && Truthy(form.templateId))
    ensures r.Ok? ==> r.value == Payload(form, keywords)
  {
    assert form.kind != Media <==> form.kind == Chatwork || form.kind == Email;
    if |keywords| == 0 then Err(NoKeywordAdded)
    else if form.kind == Media && !Truthy(form.mediaId) then Err(FileRequired)
    else if (form.kind == Chatwork || form.kind == Email) && !Truthy(form.userId) then Err(RecipientRequired)
    else if (form.kind == Chatwork || form.kind == Email) && !Truthy(form.templateId) then Err(TemplateRequired)
    else Ok(Payload(form, keywords))
  }

  /**
   * `onSubmit`: a failed check shows its message and sends nothing; a sent
   * action clears the list, unless sending throws (`sendError`), which shows
   * the thrown message or a fixed one.
   */
  function Submit(e: KeywordEditor, form: ActionForm, sendError: Option<string>): (s: Submitted)
    ensures SubmitCheck(e.keywords, form).Err? ==>
              s == Submitted(Some(SubmitCheck(e.keywords, form).error), e, None)
    ensures SubmitCheck(e.keywords, form).Ok? ==> s.sent == Some(Payload(form, e.keywords))
    ensures s.sent.Some? && sendError.None? ==> s.error.None? && s.editor.keywords == [] && s.editor.input == e.input
    ensures s.sent.Some? && sendError.Some? ==>
              s.editor == e && s.error == Some(if sendError.value != "" then sendError.value else SendFailed)
  {
    match SubmitCheck(e.keywords, form)
    case Err(m) => Submitted(Some(m), e, None)
    case Ok(p) =>
      match sendError
      case None => Submitted(None, e.(keywords := []), Some(p))
      case Some(m) => Submitted(Some(if m != "" then m else SendFailed), e, Some(p))
  }

  /** The defaults alone are not enough: a MEDIA action needs its file. */
  lemma DefaultNeedsFile(keywords: seq<string>, name: string, terminalId: string)
    requires |keywords| > 0
    ensures SubmitCheck(keywords, ActionForm(name, terminalId, None, DefaultCondition, DefaultKind, None, None, None))
         == Err(FileRequired)
  {
  }

  // ---------------------------------------------- what the server makes of it

  /** The request body the server receives for a payload. */
  function ToCreateRequest(p: Payload): (req: CreateRequest)
    ensures NonEmptyArray(req.keywords) <==> |p.keywords| > 0
    ensures req.terminalId == Some(p.form.terminalId)
  {
    var ks := p.keywords;
    CreateRequest(Items(Entries(ks)), Some(p.form.terminalId),
                  p.form.name, p.form.condition, p.form.kind, p.form.userId, p.form.mediaId, p.form.templateId)
  }

  /**
   * The dialog does not trim: a keyword of spaces passes it, and the server
   * then refuses the action with 400.
   */
  lemma BlankKeywordPassesDialog(form: ActionForm, refs: Refs, newId: string, now: int)
    requires form.terminalId != "" && form.terminalId in refs.terminals
    requires form.kind == Media && Truthy(form.mediaId)
    ensures AddKeyword(KeywordEditor([], " ")).keywords == [" "]
    ensures SubmitCheck([" "], form).Ok?
    ensures CreateAction(ToCreateRequest(Payload(form, [" "])), refs, newId, now) == Err(AppError(400, NoValidKeywordMessage))
  {
    var req := ToCreateRequest(Payload(form, [" "]));
    assert req.keywords.entries == [Some(" ")];
    BlankNormalizesAway();
    assert KeywordsString(req.keywords.entries) == "";
  }

  /** A keyword of one space leaves nothing after normalisation. */
  lemma BlankNormalizesAway()
    ensures NormalizeKeywords([Some(" ")]) == []
  {
    TrimBlank(" ");
    assert [Some(" ")][1..] == [];
  }

  /** Keywords typed already trimmed and without commas reach the server's reply unchanged. */
  lemma CleanKeywordsReachReply(p: Payload, refs: Refs, newId: string, now: int)
    requires forall i | 0 <= i < |p.keywords| :: p.keywords[i] != "" && Trimmed(p.keywords[i]) && ',' !in p.keywords[i]
    requires CreateAction(ToCreateRequest(p), refs, newId, now).Ok?
    ensures CreateAction(ToCreateRequest(p), refs, newId, now).value.keywords == p.keywords
  {
    var req := ToCreateRequest(p);
    NormalizeClean(p.keywords);
    CreateAnswersKeywords(req, refs, newId, now);
  }
}

=== FILE: add_terminal_modal.dfy ===
/**
 * The add-terminal dialog: its schema, with the AICO id pattern `^aico\d+$`
 * run as a small automaton, and the message it shows when registering fails.
 */
module AddTerminalModal {
  import opened Wrappers
  import opened Strings
  import opened Records
  import opened Errors
  import opened Schemas
  import TerminalController

  const AicoIdRequired := "AICO IDは必須です"
  const AicoIdFormat := "AICO IDは\"aico\"で始まり、その後に数字が続く形式である必要があります"
  const TerminalNameRequired := "端末名は必須です"
  const DuplicateIdShown := "このAICO IDは既に登録されています"
  const RegisterFailed := "端末の登録に失敗しました"
  /** The fallback of the mutation that sends the form (with a full stop). */
  const MutationFailed := "端末の登録に失敗しました。"
  const DefaultAicoId := "aico"
  const AicoPrefix := "aico"

  // ------------------------------------------------------------ pattern

  /** States 0 to 3 expect the next letter of `aico`, 4 expects the first digit, 5 accepts, 6 rejects. */
  function Step(q: nat, c: char): (q': nat)
    requires q <= 6
    ensures q' <= 6
  {
    if q < 4 then (if c == AicoPrefix[q] then q + 1 else 6)
    else if q == 4 || q == 5 then (if IsDigit(c) then 5 else 6)
    else 6
  }

  function Run(s: string, q: nat): (q': nat)
    requires q <= 6
    ensures q' <= 6
    decreases |s|
  {
    if |s| == 0 then q else Run(s[1..], Step(q, s[0]))
  }

  /** `aicoIdPattern.test(s)`: exactly `aico` followed by one or more ASCII digits. */
  predicate MatchesAicoId(s: string)
    ensures MatchesAicoId(s) <==> |s| > 4 && s[..4] == AicoPrefix && AllDigits(s[4..])
  {
    RunPrefix(s, 0);
    Run(s, 0) == 5
  }

  /** Once rejected, always rejected. */
  lemma {:induction false} RunRejected(s: string)
    ensures Run(s, 6) == 6
    decreases |s|
  {
    if |s| > 0 {
      RunRejected(s[1..]);
    }
  }

  /** After the prefix, the automaton accepts exactly a run of digits (at least one unless one was read). */
  lemma {:induction false} RunDigits(s: string, q: nat)
    requires q == 4 || q == 5
    ensures Run(s, q) == 5 <==> AllDigits(s) && (q == 5 || |s| > 0)
    decreases |s|
  {
    if |s| > 0 {
      if IsDigit(s[0]) {
        RunDigits(s[1..], 5);
        assert AllDigits(s) <==> AllDigits(s[1..]) by {
          assert forall i | 1 <= i < |s| :: s[i] == s[1..][i - 1];
        }
      } else {
        RunRejected(s[1..]);
      }
    }
  }

  /** The prefix is read letter by letter. */
  lemma {:induction false} RunPrefix(s: string, q: nat)
    requires q <= 4
    ensures Run(s, q) == 5 <==> |s| > 4 - q && s[..4 - q] == AicoPrefix[q..] && AllDigits(s[4 - q..]) && |s[4 - q..]| > 0
    decreases 4 - q
  {
    if q == 4 {
      RunDigits(s, 4);
    } else if |s| == 0 {
    } else if s[0] == AicoPrefix[q] {
      RunPrefix(s[1..], q + 1);
      assert AicoPrefix[q..] == [AicoPrefix[q]] + AicoPrefix[q + 1..];
      if |s| > 4 - q {
        assert s[1..][4 - (q + 1)..] == s[4 - q..];
        assert s[..4 - q] == [s[0]] + s[1..][..4 - (q + 1)];
      }
    } else {
      RunRejected(s[1..]);
      if |s| > 4 - q {
        assert s[..4 - q][0] != AicoPrefix[q..][0];
      }
    }
  }

  /** The match is case-sensitive, and the dialog's initial value does not pass. */
  lemma AicoIdExamples()
    ensures !MatchesAicoId("AICO1")
    ensures !MatchesAicoId(DefaultAicoId)
    ensures MatchesAicoId("aico7")
  {
    assert "AICO1"[..4][0] != AicoPrefix[0];
    assert "aico7"[..4] == AicoPrefix;
    assert "aico7"[4..] == "7";
  }

  // ------------------------------------------------------------- schema

  datatype TerminalForm = TerminalForm(aicoId: string, name: string, greeting: Option<string>)

  /** `TerminalSchema`: the id checked for presence then pattern, the name for presence; the greeting is free. */
  function TerminalIssues(f: TerminalForm): (issues: seq<Issue>)
    ensures issues == [] <==> MatchesAicoId(f.aicoId) && f.name != ""
    ensures AicoIdField in Failing(issues) <==> !MatchesAicoId(f.aicoId)
    ensures GreetingField !in Failing(issues)
    ensures f.aicoId == "" ==> issues[0] == Issue(AicoIdField, AicoIdRequired)
  {
    var a := if Utf16Length(f.aicoId) < 1 then Check(AicoIdField, false, AicoIdRequired)
             else Check(AicoIdField, MatchesAicoId(f.aicoId), AicoIdFormat);
    var b := Check(NameField, Utf16Length(f.name) >= 1, TerminalNameRequired);
    JoinIssues(a, b)
  }

  // ------------------------------------------------------- failure message

  /** What the dialog catches: the response status, if the error carries one, and the error's message. */
  datatype Failure = Failure(status: Option<int>, message: string)

  /** The dialog's `catch`: a 409 shows the duplicate-id text, anything else its own message or a fixed one. */
  function ShownMessage(f: Failure): (m: string)
    ensures m != ""
    ensures f.status == Some(409) ==> m == DuplicateIdShown
    ensures f.status != Some(409) && f.message != "" ==> m == f.message
  {
    if f.status == Some(409) then DuplicateIdShown
    else if f.message != "" then f.message
    else RegisterFailed
  }

  /**
   * The mutation the dialog awaits rethrows a new error holding only the
   * reply's message (or its own fallback); the status does not survive.
   */
  function Rethrown(replyMessage: Option<string>): (f: Failure)
    ensures f.status.None? && f.message != ""
  {
    Failure(None, if Truthy(replyMessage) then replyMessage.value else MutationFailed)
  }

  /**
   * A duplicate id is refused by the server with 409 and its message; the
   * dialog never sees the status, and shows the duplicate text only because
   * the server's message is the same text.
   */
  lemma DuplicateShownByMessage(ts: seq<Terminal>, aicoId: string, name: string, greeting: Option<string>, newId: string)
    requires TerminalController.AicoIdTaken(ts, aicoId)
    ensures TerminalController.CreateTerminal(ts, aicoId, name, greeting, newId).Err?
    ensures ShownMessage(Rethrown(Some(TerminalController.CreateTerminal(ts, aicoId, name, greeting, newId).error.message)))
         == DuplicateIdShown
  {
  }

  /** Whatever the status, the rethrown error shows the server's message as it is. */
  lemma StatusNeverDecides(message: string)
    requires message != ""
    ensures ShownMessage(Rethrown(Some(message))) == message
    ensures ShownMessage(Failure(Some(409), message)) == DuplicateIdShown
  {
  }
}

=== FILE: auth_controller.dfy ===
/**
 * Operator login and token validation. Password comparison (bcrypt) and
 * token signing and verification (JSON Web Tokens) are inputs: `matches`
 * says whether a password fits a stored hash, `sign` makes a token for a
 * user id, and `verify` gives the user id a token carries, or `None` when
 * verification throws.
 */
module AuthController {
  import opened Wrappers
  import opened Strings
  import opened Records
  import opened Errors

  const CredentialsRequiredMessage := "ユーザー名とパスワードは必須です"
  const ServerConfigMessage := "サーバー設定エラー"
  const BadCredentialsMessage := "ユーザー名またはパスワードが正しくありません"
  const AuthRequiredMessage := "認証が必要です"
  const TokenRequiredMessage := "認証トークンが必要です"
  const InvalidTokenMessage := "無効な認証トークンです"
  const UserNotFoundMessage := "ユーザーが見つかりません"
  const DefaultExpiry := "24h"
  const BearerPrefix := "Bearer "

  datatype SystemUser = SystemUser(id: string, username: string, passwordHash: string)

  /** The environment variables read: `JWT_SECRET` and `JWT_EXPIRES_IN`. */
  datatype Env = Env(jwtSecret: Option<string>, jwtExpiresIn: Option<string>)

  /** The user stored under `username`, if any. */
  function FindByUsername(users: seq<SystemUser>, username: string): (u: Option<SystemUser>)
    ensures u.Some? ==> u.value in users && u.value.username == username
    ensures u.None? ==> forall i | 0 <= i < |users| :: users[i].username != username
    decreases |users|
  {
    if |users| == 0 then None
    else if users[0].username == username then Some(users[0])
    else FindByUsername(users[1..], username)
  }

  /** The user stored under `id`, if any. */
  function FindUserById(users: seq<SystemUser>, id: string): (u: Option<SystemUser>)
    ensures u.Some? ==> u.value in users && u.value.id == id
    ensures u.None? ==> forall i | 0 <= i < |users| :: users[i].id != id
    decreases |users|
  {
    if |users| == 0 then None
    else if users[0].id == id then Some(users[0])
    else FindUserById(users[1..], id)
  }

  // ---------------------------------------------------------------- login

  datatype LoginReply = LoginReply(token: string, userId: string, username: string)

  /**
   * `login`: credentials present, then the secret configured, then the user
   * found and the password right; both credential failures read the same.
   */
  function Login(users: seq<SystemUser>, username: Option<string>, password: Option<string>, env: Env,
                 matches: (string, string) -> bool, sign: (string, string, string) -> string): (r: Result<LoginReply, Error>)
    ensures !Truthy(username) || !Truthy(password) ==> r == Err(AppError(400, CredentialsRequiredMessage))
    ensures Truthy(username) && Truthy(password) && !Truthy(env.jwtSecret) ==> r == Err(AppError(500, ServerConfigMessage))
    ensures r.Ok? <==>
              && Truthy(username) && Truthy(password) && Truthy(env.jwtSecret)
              && FindByUsername(users, username.value).Some?
              && matches(password.value, FindByUsername(users, username.value).value.passwordHash)
    ensures r.Err? && Truthy(username) && Truthy(password) && Truthy(env.jwtSecret) ==>
              r.error == AppError(401, BadCredentialsMessage)
    ensures r.Ok? ==>
              var u := FindByUsername(users, username.value).value;
              && r.value.userId == u.id && r.value.username == u.username == username.value
              && r.value.token == sign(u.id, env.jwtSecret.value, if Truthy(env.jwtExpiresIn) then env.jwtExpiresIn.value else DefaultExpiry)
  {
    if !Truthy(username) || !Truthy(password) then Err(AppError(400, CredentialsRequiredMessage))
    else if !Truthy(env.jwtSecret) then Err(AppError(500, ServerConfigMessage))
    else
      match FindByUsername(users, username.value)
      case None => Err(AppError(401, BadCredentialsMessage))
      case Some(u) =>
        if !matches(password.value, u.passwordHash) then Err(AppError(401, BadCredentialsMessage))
        else
          var expiry := if Truthy(env.jwtExpiresIn) then env.jwtExpiresIn.value else DefaultExpiry;
          Ok(LoginReply(sign(u.id, env.jwtSecret.value, expiry), u.id, u.username))
  }

  /** An unknown user and a wrong password cannot be told apart from the reply. */
  lemma UnknownUserLooksLikeBadPassword(users: seq<SystemUser>, u: SystemUser, other: string, password: string, env: Env,
                                        matches: (string, string) -> bool, sign: (string, string, string) -> string)
    requires users == [u] && u.username != "" && other != u.username && other != "" && password != ""
    requires Truthy(env.jwtSecret) && !matches(password, u.passwordHash)
    ensures Login(users, Some(other), Some(password), env, matches, sign)
         == Login(users, Some(u.username), Some(password), env, matches, sign)
  {
    assert [u][1..] == [];
  }

  // -------------------------------------------------------------- tokens

  /** `header.split(' ')[1]`: the second space-separated field, when there is one. */
  function SecondField(header: string): (t: Option<string>)
    ensures t.Some? ==> ' ' !in t.value
    ensures t.None? <==> ' ' !in header
  {
    var parts := Split(header, ' ');
    JoinSplit(header, ' ');
    if |parts| >= 2 then Some(parts[1])
    else
      assert ' ' !in header by {
        assert parts == [parts[0]];
        assert Join(parts, ' ') == parts[0];
      }
      None
  }

  /** The field after a leading word and one space, up to the next space. */
  lemma SecondFieldAfterScheme(scheme: string, token: string)
    requires ' ' !in scheme && ' ' !in token
    ensures SecondField(scheme + " " + token) == Some(token)
  {
    SplitWhole(token, ' ');
    SplitLeadingField(scheme, ' ', token);
  }

  datatype ValidReply = ValidReply(userId: string, username: string)

  /**
   * `validateToken`: a `Bearer ` header with a non-empty token, a configured
   * secret, a token that verifies, and a user that still exists.
   */
  function ValidateToken(header: Option<string>, env: Env, users: seq<SystemUser>,
                         verify: (string, string) -> Option<string>): (r: Result<ValidReply, Error>)
    ensures !Truthy(header) || !IsPrefix(BearerPrefix, header.value) ==> r == Err(AppError(401, AuthRequiredMessage))
    ensures Truthy(header) && IsPrefix(BearerPrefix, header.value) && !Truthy(SecondField(header.value))
            ==> r == Err(AppError(401, TokenRequiredMessage))
    ensures Truthy(header) && IsPrefix(BearerPrefix, header.value) && Truthy(SecondField(header.value))
            && !Truthy(env.jwtSecret)
            ==> r == Err(AppError(500, ServerConfigMessage))
    ensures Truthy(header) && IsPrefix(BearerPrefix, header.value) && Truthy(SecondField(header.value))
            && Truthy(env.jwtSecret) && verify(SecondField(header.value).value, env.jwtSecret.value).None?
            ==> r == Err(AppError(401, InvalidTokenMessage))
    ensures Truthy(header) && IsPrefix(BearerPrefix, header.value) && Truthy(SecondField(header.value))
            && Truthy(env.jwtSecret) && verify(SecondField(header.value).value, env.jwtSecret.value).Some?
            && FindUserById(users, verify(SecondField(header.value).value, env.jwtSecret.value).value).None?
            ==> r == Err(AppError(404, UserNotFoundMessage))
    ensures r.Err? ==> r.error.AppError? && r.error.statusCode in {401, 404, 500}
    ensures r.Ok? <==>
              && Truthy(header) && IsPrefix(BearerPrefix, header.value)
              && Truthy(SecondField(header.value)) && Truthy(env.jwtSecret)
              && verify(SecondField(header.value).value, env.jwtSecret.value).Some?
              && FindUserById(users, verify(SecondField(header.value).value, env.jwtSecret.value).value).Some?
    ensures r.Ok? ==> r.value.userId == verify(SecondField(header.value).value, env.jwtSecret.value).value
    ensures r.Ok? ==> r.value.username == FindUserById(users, r.value.userId).value.username
  {
    if !Truthy(header) || !IsPrefix(BearerPrefix, header.value) then Err(AppError(401, AuthRequiredMessage))
    else
      var token := SecondField(header.value);
      if !Truthy(token) then Err(AppError(401, TokenRequiredMessage))
      else if !Truthy(env.jwtSecret) then Err(AppError(500, ServerConfigMessage))
      else
        match verify(token.value, env.jwtSecret.value)
        case None => Err(AppError(401, InvalidTokenMessage))
        case Some(id) =>
          match FindUserById(users, id)
          case None => Err(AppError(404, UserNotFoundMessage))
          case Some(u) => Ok(ValidReply(u.id, u.username))
  }

  /** `Bearer ` with nothing after the space is a missing token, not an invalid one. */
  lemma EmptyBearerToken(env: Env, users: seq<SystemUser>, verify: (string, string) -> Option<string>)
    ensures ValidateToken(Some(BearerPrefix), env, users, verify) == Err(AppError(401, TokenRequiredMessage))
  {
    assert BearerPrefix == "Bearer" + [' '] + "";
    SplitWhole("", ' ');
    SplitLeadingField("Bearer", ' ', "");
    assert IsPrefix(BearerPrefix, BearerPrefix);
  }

  /**
   * Two spaces after `Bearer` leave an empty second field: the token counts
   * as missing, whatever follows.
   */
  lemma DoubleSpaceBearer(token: string, env: Env, users: seq<SystemUser>, verify: (string, string) -> Option<string>)
    ensures ValidateToken(Some(BearerPrefix + " " + token), env, users, verify) == Err(AppError(401, TokenRequiredMessage))
  {
    var h := BearerPrefix + " " + token;
    assert h == "Bearer" + [' '] + (" " + token);
    SplitLeadingField("Bearer", ' ', " " + token);
    SplitLeadingField("", ' ', token);
    assert "" + [' '] + token == " " + token;
    assert h[..|BearerPrefix|] == BearerPrefix;
  }

  /** A valid token of a deleted user is a 404, not a 401. */
  lemma DeletedUserIs404(token: string, env: Env, users: seq<SystemUser>, verify: (string, string) -> Option<string>)
    requires token != "" && ' ' !in token && Truthy(env.jwtSecret)
    requires verify(token, env.jwtSecret.value).Some?
    requires FindUserById(users, verify(token, env.jwtSecret.value).value).None?
    ensures ValidateToken(Some(BearerPrefix + token), env, users, verify) == Err(AppError(404, UserNotFoundMessage))
  {
    assert BearerPrefix + token == "Bearer" + " " + token;
    SecondFieldAfterScheme("Bearer", token);
    assert (BearerPrefix + token)[..|BearerPrefix|] == BearerPrefix;
  }
}

=== FILE: auth_middleware.dfy ===
/**
 * The middleware guarding the management API: the second field of the
 * `Authorization` header is verified as a token (whatever word precedes it)
 * and must name an existing user; every failure is the same 401.
 */
module AuthMiddleware {
  import opened Wrappers
  import opened Strings
  import opened Records
  import opened Errors
  import opened AuthController

  const AuthFailedMessage := "認証に失敗しました"

  /** The token `authenticate` reads: the header's second space-separated field. */
  function HeaderToken(header: Option<string>): Option<string> {
    if header.Some? then SecondField(header.value) else None
  }

  /**
   * `authenticate`: the request proceeds as the user the token names, or is
   * answered 401. With no (or an empty) secret verification throws, which is
   * also a failure.
   */
  function Authenticate(header: Option<string>, secret: Option<string>, users: seq<SystemUser>,
                        verify: (string, string) -> Option<string>): (r: Result<string, Error>)
    ensures r.Err? ==> r.error == AppError(401, AuthFailedMessage)
    ensures r.Ok? <==>
              && Truthy(HeaderToken(header)) && Truthy(secret)
              && verify(HeaderToken(header).value, secret.value).Some?
              && FindUserById(users, verify(HeaderToken(header).value, secret.value).value).Some?
    ensures r.Ok? ==> r.value == verify(HeaderToken(header).value, secret.value).value
  {
    var token := HeaderToken(header);
    if !Truthy(token) || !Truthy(secret) then Err(AppError(401, AuthFailedMessage))
    else
      match verify(token.value, secret.value)
      case None => Err(AppError(401, AuthFailedMessage))
      case Some(id) =>
        if FindUserById(users, id).None? then Err(AppError(401, AuthFailedMessage))
        else Ok(id)
  }

  /** A header `validateToken` accepts also passes `authenticate`, as the same user. */
  lemma ValidatedIsAuthenticated(header: Option<string>, env: Env, users: seq<SystemUser>,
                                 verify: (string, string) -> Option<string>)
    requires ValidateToken(header, env, users, verify).Ok?
    ensures Authenticate(header, env.jwtSecret, users, verify) == Ok(ValidateToken(header, env, users, verify).value.userId)
  {
  }

  /** The scheme word is not checked: `Token <t>` passes `authenticate` though `validateToken` refuses it. */
  lemma SchemeIgnored(token: string, env: Env, users: seq<SystemUser>, verify: (string, string) -> Option<string>)
    requires token != "" && ' ' !in token && Truthy(env.jwtSecret)
    requires verify(token, env.jwtSecret.value).Some?
    requires FindUserById(users, verify(token, env.jwtSecret.value).value).Some?
    ensures Authenticate(Some("Token " + token), env.jwtSecret, users, verify).Ok?
    ensures ValidateToken(Some("Token " + token), env, users, verify) == Err(AppError(401, AuthRequiredMessage))
  {
    assert "Token " + token == "Token" + " " + token;
    SecondFieldAfterScheme("Token", token);
    assert ("Token " + token)[5] == ' ';
    assert ("Token " + token)[..7][5] == ' ';
    assert BearerPrefix[5] == 'r';
  }

  /** A user deleted since the token was issued gets the same 401 as a bad token. */
  lemma DeletedUserCollapsed(header: Option<string>, secret: Option<string>, users: seq<SystemUser>,
                             verify: (string, string) -> Option<string>)
    requires Truthy(HeaderToken(header)) && Truthy(secret)
    requires verify(HeaderToken(header).value, secret.value).Some?
    requires FindUserById(users, verify(HeaderToken(header).value, secret.value).value).None?
    ensures Authenticate(header, secret, users, verify) == Authenticate(header, secret, users, (t: string, s: string) => None)
  {
  }
}

=== FILE: conversation_controller.dfy ===
/**
 * The conversation log endpoints: a filtered, ordered listing and the same
 * selection as CSV text. Date parsing and formatting and the terminal-name
 * join are inputs.
 */
module ConversationController {
  import opened Wrappers
  import opened Strings
  import opened Records
  import opened Sorting

  /**
   * The query string, already parsed: absent or empty parameters are `None`,
   * dates are milliseconds since the epoch.
   */
  datatype Query = Query(terminalId: Option<string>, start: Option<int>, end: Option<int>, keyword: Option<string>)

  /** `message contains keyword`, ignoring case. */
  predicate ContainsIgnoringCase(message: string, keyword: string) {
    Contains(ToLower(message), ToLower(keyword))
  }

  /** The record passes every filter the query sets; an absent filter passes everything. */
  predicate Selected(c: Conversation, q: Query) {
    && (Truthy(q.terminalId) ==> c.terminalId == q.terminalId.value)
    && (q.start.Some? ==> q.start.value <= c.createdAt)
    && (q.end.Some? ==> c.createdAt <= q.end.value)
    && (Truthy(q.keyword) ==> ContainsIgnoringCase(c.message, q.keyword.value))
  }

  /** The selected records, in store order. */
  function Filter(cs: seq<Conversation>, q: Query): (r: seq<Conversation>)
    ensures |r| <= |cs|
    ensures forall c :: c in r <==> c in cs && Selected(c, q)
    ensures forall i | 0 <= i < |r| :: Selected(r[i], q)
    decreases |cs|
  {
    if |cs| == 0 then []
    else if Selected(cs[0], q) then [cs[0]] + Filter(cs[1..], q)
    else Filter(cs[1..], q)
  }

  /** An empty query selects every record. */
  lemma {:induction false} EmptyQuerySelectsAll(cs: seq<Conversation>)
    ensures Filter(cs, Query(None, None, None, None)) == cs
    decreases |cs|
  {
    if |cs| > 0 {
      EmptyQuerySelectsAll(cs[1..]);
      assert cs == [cs[0]] + cs[1..];
    }
  }

  /** The keyword filter ignores ASCII case: "HELLO" finds "hello". */
  lemma KeywordIgnoresCase()
    ensures ContainsIgnoringCase("hello", "HELLO")
  {
    assert ToLower("HELLO") == "hello";
    assert IsPrefix("hello", ToLower("hello"));
  }

  /** Lower-casing forgets whether a letter was upper- or lower-case. */
  lemma LowerForgetsCase(s: string)
    ensures ToLower(ToUpper(s)) == ToLower(s)
    ensures ToLower(ToLower(s)) == ToLower(s)
  {
    assert forall i | 0 <= i < |s| :: ToLower(ToUpper(s))[i] == LowerChar(UpperChar(s[i])) == LowerChar(s[i]);
    assert forall i | 0 <= i < |s| :: ToLower(ToLower(s))[i] == LowerChar(LowerChar(s[i])) == LowerChar(s[i]);
  }

  /**
   * For every message and keyword, upper- or lower-casing either side does
   * not change whether the keyword filter passes.
   */
  lemma FilterIgnoresCase(message: string, keyword: string)
    ensures ContainsIgnoringCase(message, keyword) == ContainsIgnoringCase(message, ToUpper(keyword))
    ensures ContainsIgnoringCase(message, keyword) == ContainsIgnoringCase(message, ToLower(keyword))
    ensures ContainsIgnoringCase(message, keyword) == ContainsIgnoringCase(ToUpper(message), keyword)
    ensures ContainsIgnoringCase(message, keyword) == ContainsIgnoringCase(ToLower(message), keyword)
  {
    LowerForgetsCase(message);
    LowerForgetsCase(keyword);
  }

  /** Exchange ids from the highest down; within one exchange, oldest first. */
  function LogOrder(): (Conversation, Conversation) -> bool {
    (a: Conversation, b: Conversation) =>
      LexLess(b.messageId, a.messageId) || (a.messageId == b.messageId && a.createdAt <= b.createdAt)
  }

  lemma LogOrderTotal()
    ensures Total(LogOrder())
  {
    forall a: Conversation, b: Conversation ensures LogOrder()(a, b) || LogOrder()(b, a) {
      LexTotal(a.messageId, b.messageId);
    }
  }

  /** The records both endpoints answer: the selection, in log order. */
  function Select(cs: seq<Conversation>, q: Query): (r: seq<Conversation>)
    ensures multiset(r) == multiset(Filter(cs, q))
    ensures |r| == |Filter(cs, q)|
    ensures forall c :: c in r <==> c in cs && Selected(c, q)
    ensures forall i | 0 < i < |r| ::
              || LexLess(r[i].messageId, r[i - 1].messageId)
              || (r[i - 1].messageId == r[i].messageId && r[i - 1].createdAt <= r[i].createdAt)
  {
    LogOrderTotal();
    SortElements(Filter(cs, q), LogOrder());
    Sort(Filter(cs, q), LogOrder())
  }

  // -------------------------------------------------------------- listing

  datatype Line = Line(speaker: string, content: string, image: Option<string>)

  datatype Entry = Entry(id: string, messageId: string, terminalId: string, timestamp: int, messages: seq<Line>)

  /** One listing entry per record, holding that record as its only message. */
  function ToEntry(c: Conversation): (e: Entry)
    ensures |e.messages| == 1
    ensures e.messages[0].content == c.message && e.messages[0].image == c.clientFilePath
    ensures e.messages[0].speaker == ToLower(c.speaker)
    ensures e.id == c.id && e.messageId == c.messageId && e.terminalId == c.terminalId && e.timestamp == c.createdAt
  {
    Entry(c.id, c.messageId, c.terminalId, c.createdAt, [Line(ToLower(c.speaker), c.message, c.clientFilePath)])
  }

  /** `getConversations`. */
  function GetConversations(cs: seq<Conversation>, q: Query): (r: seq<Entry>)
    ensures |r| == |Select(cs, q)|
    ensures forall i | 0 <= i < |r| :: r[i] == ToEntry(Select(cs, q)[i])
  {
    var sel := Select(cs, q);
    seq(|sel|, i requires 0 <= i < |sel| => ToEntry(sel[i]))
  }

  /** A stored USER turn is listed with speaker "user". */
  lemma UserListedLowerCase()
    ensures ToLower("USER") == "user"
  {
  }

  // ------------------------------------------------------------------ CSV

  const Header: seq<string> := ["日時", "端末名", "メッセージID", "発話者", "メッセージ"]

  /** The fields of a record's CSV line, with the date rendered by `format` and the terminal named by `nameOf`. */
  function CsvFields(c: Conversation, format: int -> string, nameOf: string -> string): (f: seq<string>)
    ensures |f| == |Header|
    ensures Header[0] == "日時" && f[0] == format(c.createdAt)
    ensures Header[1] == "端末名" && f[1] == nameOf(c.terminalId)
    ensures Header[2] == "メッセージID" && f[2] == c.messageId
    ensures Header[3] == "発話者" && f[3] == c.speaker
    ensures Header[4] == "メッセージ" && f[4] == c.message
  {
    [format(c.createdAt), nameOf(c.terminalId), c.messageId, c.speaker, c.message]
  }

  /** Rows joined by commas, lines joined by newlines; nothing is quoted. */
  function Csv(rows: seq<seq<string>>): (text: string)
    ensures |rows| > 0 ==> IsPrefix(Join(rows[0], ','), text)
  {
    var lines := seq(|rows|, i requires 0 <= i < |rows| => Join(rows[i], ','));
    if |lines| > 1 then
      assert Join(lines, '\n') == lines[0] + (['\n'] + Join(lines[1..], '\n'));
      Join(lines, '\n')
    else Join(lines, '\n')
  }

  function CsvRows(cs: seq<Conversation>, format: int -> string, nameOf: string -> string): (rows: seq<seq<string>>)
    ensures |rows| == |cs|
    ensures forall i | 0 <= i < |cs| :: rows[i] == CsvFields(cs[i], format, nameOf)
  {
    seq(|cs|, i requires 0 <= i < |cs| => CsvFields(cs[i], format, nameOf))
  }

  /** `downloadConversations`: the header line, then one line per selected record in log order. */
  function DownloadConversations(cs: seq<Conversation>, q: Query, format: int -> string, nameOf: string -> string): (text: string)
    ensures IsPrefix(Join(Header, ','), text)
  {
    Csv([Header] + CsvRows(Select(cs, q), format, nameOf))
  }

  /** A separator none of the parts holds does not occur in their join on another separator. */
  lemma {:induction false} JoinAvoids(parts: seq<string>, d: char, c: char)
    requires c != d
    requires forall i | 0 <= i < |parts| :: c !in parts[i]
    ensures c !in Join(parts, d)
    decreases |parts|
  {
    if |parts| > 1 {
      JoinAvoids(parts[1..], d, c);
    }
  }

  /** No field holds a comma or a newline. */
  predicate PlainFields(rows: seq<seq<string>>) {
    forall i, j | 0 <= i < |rows| && 0 <= j < |rows[i]| :: ',' !in rows[i][j] && '\n' !in rows[i][j]
  }

  /**
   * When no field holds a comma or a newline, splitting the text on newlines
   * and each line on commas gives back the rows.
   */
  lemma CsvRoundTrip(rows: seq<seq<string>>)
    requires |rows| >= 1
    requires forall i | 0 <= i < |rows| :: |rows[i]| >= 1
    requires PlainFields(rows)
    ensures |Split(Csv(rows), '\n')| == |rows|
    ensures forall i | 0 <= i < |rows| :: Split(Split(Csv(rows), '\n')[i], ',') == rows[i]
  {
    var lines := seq(|rows|, i requires 0 <= i < |rows| => Join(rows[i], ','));
    forall i | 0 <= i < |rows| ensures '\n' !in lines[i] && Split(lines[i], ',') == rows[i] {
      JoinAvoids(rows[i], ',', '\n');
      SplitJoin(rows[i], ',');
    }
    SplitJoin(lines, '\n');
  }

  lemma HeaderPlain()
    ensures forall j | 0 <= j < |Header| :: ',' !in Header[j] && '\n' !in Header[j]
  {
  }

  /** The first line of the download is always the fixed header. */
  lemma HeaderFirst(cs: seq<Conversation>, q: Query, format: int -> string, nameOf: string -> string)
    ensures Split(DownloadConversations(cs, q, format, nameOf), '\n')[0] == Join(Header, ',')
  {
    var rows := [Header] + CsvRows(Select(cs, q), format, nameOf);
    var lines := seq(|rows|, i requires 0 <= i < |rows| => Join(rows[i], ','));
    HeaderPlain();
    JoinAvoids(Header, ',', '\n');
    assert lines[0] == Join(Header, ',');
    if |lines| == 1 {
      SplitWhole(lines[0], '\n');
    } else {
      assert Join(lines, '\n') == lines[0] + ['\n'] + Join(lines[1..], '\n');
      SplitLeadingField(lines[0], '\n', Join(lines[1..], '\n'));
    }
  }

  /** A text the CSV carries through unchanged: no comma and no newline. */
  predicate PlainText(t: string) {
    ',' !in t && '\n' !in t
  }

  /** Every value that goes into the record's line is plain. */
  predicate PlainRecord(c: Conversation, format: int -> string, nameOf: string -> string) {
    PlainText(format(c.createdAt)) && PlainText(nameOf(c.terminalId)) && PlainText(c.messageId)
    && PlainText(c.speaker) && PlainText(c.message)
  }

  /**
   * When no value holds a comma or a newline, the CSV of the records has one
   * line more than there are records, and line `i + 1` splits back into the
   * date, terminal name, exchange id, speaker and message of record `i`.
   */
  lemma CsvReadsBack(sel: seq<Conversation>, format: int -> string, nameOf: string -> string, i: int)
    requires 0 <= i < |sel|
    requires forall k | 0 <= k < |sel| :: PlainRecord(sel[k], format, nameOf)
    ensures |Split(Csv([Header] + CsvRows(sel, format, nameOf)), '\n')| == |sel| + 1
    ensures Split(Split(Csv([Header] + CsvRows(sel, format, nameOf)), '\n')[i + 1], ',')
            == [format(sel[i].createdAt), nameOf(sel[i].terminalId), sel[i].messageId, sel[i].speaker, sel[i].message]
  {
    var rows := [Header] + CsvRows(sel, format, nameOf);
    forall r, j | 0 <= r < |rows| && 0 <= j < |rows[r]| ensures ',' !in rows[r][j] && '\n' !in rows[r][j] {
      if r == 0 {
        HeaderPlain();
      } else {
        assert rows[r] == CsvFields(sel[r - 1], format, nameOf);
        assert PlainRecord(sel[r - 1], format, nameOf);
      }
    }
    CsvRoundTrip(rows);
    assert rows[i + 1] == CsvFields(sel[i], format, nameOf);
  }

  /** The download reads back record by record, in the order of the listing. */
  lemma DownloadReadsBack(cs: seq<Conversation>, q: Query, format: int -> string, nameOf: string -> string, i: int)
    requires 0 <= i < |Select(cs, q)|
    requires forall k | 0 <= k < |Select(cs, q)| :: PlainRecord(Select(cs, q)[k], format, nameOf)
    ensures |Split(DownloadConversations(cs, q, format, nameOf), '\n')| == |Select(cs, q)| + 1
    ensures var c := Select(cs, q)[i];
            Split(Split(DownloadConversations(cs, q, format, nameOf), '\n')[i + 1], ',')
            == [format(c.createdAt), nameOf(c.terminalId), c.messageId, c.speaker, c.message]
  {
    CsvReadsBack(Select(cs, q), format, nameOf, i);
  }

  /** Splitting a field in two at a separator joins to the same text. */
  lemma {:induction false} JoinMerge(p: seq<string>, x: string, y: string, d: char)
    ensures Join(p + [x + [d] + y], d) == Join(p + [x, y], d)
    decreases |p|
  {
    if |p| == 0 {
      assert [x, y][1..] == [y];
    } else {
      JoinMerge(p[1..], x, y, d);
      assert (p + [x + [d] + y])[1..] == p[1..] + [x + [d] + y];
      assert (p + [x, y])[1..] == p[1..] + [x, y];
    }
  }

  /** A comma in a message is not escaped: the record's line reads back with six columns. */
  lemma CommaAddsColumn(c: Conversation, format: int -> string, nameOf: string -> string, a: string, b: string)
    requires c.message == a + [','] + b
    requires ',' !in a && ',' !in b
    requires forall j | 0 <= j < 4 :: ',' !in CsvFields(c, format, nameOf)[j]
    ensures |Split(Join(CsvFields(c, format, nameOf), ','), ',')| == 6
  {
    var f := CsvFields(c, format, nameOf);
    assert f == f[..4] + [a + [','] + b];
    JoinMerge(f[..4], a, b, ',');
    SplitJoin(f[..4] + [a, b], ',');
  }
}

=== FILE: error_handler.dfy ===
/**
 * The error middleware: turns any error a handler passed on into a status
 * code and a JSON body `{status: 'error', message, stack?}`.
 */
module ErrorHandler {
  import opened Wrappers
  import opened Errors

  datatype Body = Body(status: string, message: string, stack: Option<string>)
  datatype Reply = Reply(statusCode: int, body: Body)

  const DatabaseFailedMessage := "Database operation failed"
  const InvalidTokenMessage := "Invalid authentication token"
  const ExpiredTokenMessage := "Authentication token expired"
  const InternalErrorMessage := "Internal server error"

  /** The fixed texts a client can be shown for an error that is not an `AppError`. */
  predicate IsFixedMessage(m: string) {
    m == DatabaseFailedMessage || m == InvalidTokenMessage
    || m == ExpiredTokenMessage || m == InternalErrorMessage
  }

  /** The error names the handler answers with a fixed text of their own. */
  predicate IsNamedError(name: string) {
    name == KnownRequestErrorName || name == JsonWebTokenErrorName || name == TokenExpiredErrorName
  }

  /**
   * `err` answered while the response status is `currentStatus`
   * (`res.statusCode`, 200 unless a handler set it), in production mode or not.
   */
  function HandleError(err: Error, currentStatus: int, production: bool): (r: Reply)
    ensures r.body.status == "error"
    ensures err.AppError? ==> r.statusCode == err.statusCode && r.body.message == err.message && r.body.stack.None?
    ensures r.statusCode == 200 ==> err.AppError? && err.statusCode == 200
    ensures err.Thrown? && production ==> r.body.stack.None? && IsFixedMessage(r.body.message)
    ensures err.Thrown? && err.name == KnownRequestErrorName ==>
              r == Reply(400, Body("error", DatabaseFailedMessage, None))
    ensures err.Thrown? && err.name == JsonWebTokenErrorName ==>
              r == Reply(401, Body("error", InvalidTokenMessage, None))
    ensures err.Thrown? && err.name == TokenExpiredErrorName ==>
              r == Reply(401, Body("error", ExpiredTokenMessage, None))
    ensures err.Thrown? && !IsNamedError(err.name) && production ==>
              r.body == Body("error", InternalErrorMessage, None)
  {
    match err
    case AppError(code, message) =>
      Reply(code, Body("error", message, None))
    case Thrown(name, message, stack) =>
      if name == KnownRequestErrorName then
        Reply(400, Body("error", DatabaseFailedMessage, None))
      else if name == JsonWebTokenErrorName then
        Reply(401, Body("error", InvalidTokenMessage, None))
      else if name == TokenExpiredErrorName then
        Reply(401, Body("error", ExpiredTokenMessage, None))
      else
        var code := if currentStatus != 200 then currentStatus else 500;
        if production then Reply(code, Body("error", InternalErrorMessage, None))
        else Reply(code, Body("error", message, Some(stack)))
  }

  /** An error with an unrecognised name keeps a status a handler already set, and is a 500 otherwise. */
  lemma FallbackStatus(name: string, message: string, stack: string, currentStatus: int, production: bool)
    requires name != KnownRequestErrorName && name != JsonWebTokenErrorName && name != TokenExpiredErrorName
    ensures HandleError(Thrown(name, message, stack), currentStatus, production).statusCode
            == (if currentStatus != 200 then currentStatus else 500)
  {
  }

  /** Outside production the fallback reply shows the error's own message and stack. */
  lemma DevelopmentShowsDetail(name: string, message: string, stack: string, currentStatus: int)
    requires name != KnownRequestErrorName && name != JsonWebTokenErrorName && name != TokenExpiredErrorName
    ensures HandleError(Thrown(name, message, stack), currentStatus, false).body == Body("error", message, Some(stack))
  {
  }

  /** The two token errors are told apart by their messages. */
  lemma TokenErrorsDistinct(m1: string, s1: string, m2: string, s2: string, st: int, production: bool)
    ensures HandleError(Thrown(JsonWebTokenErrorName, m1, s1), st, production).body.message
         != HandleError(Thrown(TokenExpiredErrorName, m2, s2), st, production).body.message
  {
  }
}

=== FILE: errors.dfy ===
/** The errors handlers raise and pass on to the error middleware. */
module Errors {

  datatype Error =
    /** An `AppError`: a message with the status code chosen by the thrower. */
    | AppError(statusCode: int, message: string)
    /** Any other thrown error, known by its `name`. */
    | Thrown(name: string, message: string, stack: string)

  const KnownRequestErrorName := "PrismaClientKnownRequestError"
  const JsonWebTokenErrorName := "JsonWebTokenError"
  const TokenExpiredErrorName := "TokenExpiredError"

  /**
   * What the store throws when an update or delete names a missing row, or a
   * create or update names a related row that does not exist.
   */
  const StoreRejected: Error := Thrown(KnownRequestErrorName, "", "")
}

=== FILE: file_controller.dfy ===
/**
 * The file endpoints: the upload filter, the name an upload is stored under,
 * the server-file record, and the name a download is offered under. The
 * random bytes of a stored name and the store's rows are inputs.
 */
module FileController {
  import opened Wrappers
  import opened Strings
  import opened Errors

  newtype byte = x: int | 0 <= x < 256

  const AllowedTypes: seq<string> := ["image/jpeg", "image/png", "image/gif", "video/mp4"]
  const NoFileMessage := "No file uploaded"
  const FileNotFoundMessage := "File not found"
  const UploadsPrefix := "/uploads/"
  const ClientSegment := "/client/"

  /** What the filter passes on for a type it refuses: a plain `Error`. */
  const InvalidFileType: Error := Thrown("Error", "Invalid file type", "")

  /** The upload filter: accepts the four media types, refuses everything else. */
  function FileFilter(mimeType: string): (r: Result<bool, Error>)
    ensures r.Ok? <==> mimeType in AllowedTypes
    ensures r.Ok? ==> r.value
    ensures r.Err? ==> r.error == InvalidFileType
  {
    if mimeType in AllowedTypes then Ok(true) else Err(InvalidFileType)
  }

  /** Only the exact type strings pass: a different case or a parameter is refused. */
  lemma FilterIsExact()
    ensures FileFilter("image/png").Ok?
    ensures FileFilter("IMAGE/PNG").Err?
    ensures FileFilter("image/svg+xml").Err?
  {
    assert "IMAGE/PNG"[0] != "image/png"[0];
  }

  // ------------------------------------------------------------- extname

  /** The index of the last `c` in `s`, if any. */
  function LastIndexOf(s: string, c: char): (k: Option<nat>)
    ensures k.Some? ==> k.value < |s| && s[k.value] == c && c !in s[k.value + 1..]
    ensures k.None? <==> c !in s
    decreases |s|
  {
    if |s| == 0 then None
    else if s[|s| - 1] == c then Some(|s| - 1)
    else
      var k := LastIndexOf(s[..|s| - 1], c);
      assert s == s[..|s| - 1] + [s[|s| - 1]];
      k
  }

  /** `p` without its trailing slashes. */
  function StripTrailingSlashes(p: string): (q: string)
    ensures |q| <= |p| && q == p[..|q|]
    ensures q == [] || q[|q| - 1] != '/'
    decreases |p|
  {
    if |p| > 0 && p[|p| - 1] == '/' then StripTrailingSlashes(p[..|p| - 1]) else p
  }

  /** The last path segment. */
  function Basename(p: string): (b: string)
    ensures '/' !in b
  {
    match LastIndexOf(p, '/')
    case None => p
    case Some(k) => p[k + 1..]
  }

  /** An extension as `extname` returns it: empty, or a dot and then no dot or slash. */
  predicate IsExtension(e: string) {
    e == [] || (e[0] == '.' && '.' !in e[1..] && '/' !in e)
  }

  /**
   * `path.extname` (POSIX): from the last dot of the last segment, unless
   * that segment has no dot, starts with its only dot, or is `..`.
   */
  function Extname(path: string): (e: string)
    ensures IsExtension(e)
  {
    var b := Basename(StripTrailingSlashes(path));
    match LastIndexOf(b, '.')
    case None => ""
    case Some(k) =>
      if k == 0 || b == ".." then ""
      else
        assert b[k..][1..] == b[k + 1..];
        b[k..]
  }

  /** A `c` with no `c` after it is the last one. */
  lemma {:induction false} LastIndexOfAt(s: string, c: char, k: nat)
    requires k < |s| && s[k] == c && c !in s[k + 1..]
    ensures LastIndexOf(s, c) == Some(k)
    decreases |s|
  {
    if k < |s| - 1 {
      assert s[|s| - 1] in s[k + 1..];
      var t := s[..|s| - 1];
      assert t[k + 1..] == s[k + 1..|s| - 1];
      LastIndexOfAt(t, c, k);
    }
  }

  lemma NotInConcat(a: string, b: string, c: char)
    requires c !in a && c !in b
    ensures c !in a + b
  {
    assert forall i | 0 <= i < |a + b| :: (a + b)[i] == if i < |a| then a[i] else b[i - |a|];
  }

  /** A dot-free, slash-free name followed by an extension has exactly that extension. */
  lemma ExtnameAfterStem(stem: string, e: string)
    requires stem != [] && '.' !in stem && '/' !in stem
    requires IsExtension(e)
    ensures Extname(stem + e) == e
  {
    var p := stem + e;
    assert p[|p| - 1] != '/' by {
      if e == [] { assert p[|p| - 1] == stem[|stem| - 1]; }
      else { assert p[|p| - 1] == e[|e| - 1]; }
    }
    assert StripTrailingSlashes(p) == p;
    NotInConcat(stem, e, '/');
    assert Basename(p) == p;
    if e == [] {
      assert p == stem;
    } else {
      assert p[|stem|] == '.';
      assert p[|stem| + 1..] == e[1..];
      LastIndexOfAt(p, '.', |stem|);
      assert p != ".." by { assert p[0] == stem[0]; }
      assert p[|stem|..] == e;
    }
  }

  // ------------------------------------------------------- stored names

  /** Two lower-case hexadecimal digits per byte, as `toString('hex')` writes them. */
  function HexDigit(n: nat): (c: char)
    requires n < 16
    ensures IsHexDigit(c)
  {
    if n < 10 then ('0' as int + n) as char else ('a' as int + n - 10) as char
  }

  predicate IsHexDigit(c: char) {
    '0' <= c <= '9' || 'a' <= c <= 'f'
  }

  function HexValue(c: char): (n: nat)
    requires IsHexDigit(c)
    ensures n < 16
  {
    if c <= '9' then c as int - '0' as int else c as int - 'a' as int + 10
  }

  function Hex(bytes: seq<byte>): (h: string)
    ensures |h| == 2 * |bytes|
    ensures forall i | 0 <= i < |h| :: IsHexDigit(h[i])
    ensures '.' !in h && '/' !in h
  {
    if |bytes| == 0 then ""
    else
      var b := bytes[0] as int;
      [HexDigit(b / 16), HexDigit(b % 16)] + Hex(bytes[1..])
  }

  function Unhex(h: string): (bytes: seq<byte>)
    requires |h| % 2 == 0
    requires forall i | 0 <= i < |h| :: IsHexDigit(h[i])
    decreases |h|
  {
    if |h| == 0 then []
    else [(16 * HexValue(h[0]) + HexValue(h[1])) as byte] + Unhex(h[2..])
  }

  /** The hexadecimal text reads back as the bytes it was written from. */
  lemma {:induction false} UnhexHex(bytes: seq<byte>)
    ensures Unhex(Hex(bytes)) == bytes
  {
    if |bytes| > 0 {
      var h := Hex(bytes);
      assert h[2..] == Hex(bytes[1..]);
      UnhexHex(bytes[1..]);
      var b := bytes[0] as int;
      assert HexValue(HexDigit(b / 16)) == b / 16;
      assert HexValue(HexDigit(b % 16)) == b % 16;
    }
  }

  /** The name an upload is stored under: 32 hex digits from 16 random bytes, then the original extension. */
  function StoredFilename(random: seq<byte>, originalName: string): (f: string)
    requires |random| == 16
    ensures |f| == 32 + |Extname(originalName)|
    ensures forall i | 0 <= i < 32 :: IsHexDigit(f[i])
    ensures f[32..] == Extname(originalName)
  {
    Hex(random) + Extname(originalName)
  }

  /** A stored file keeps the type of the name it was uploaded under, and its random part reads back. */
  lemma StoredNameKeepsExtension(random: seq<byte>, originalName: string)
    requires |random| == 16
    ensures Extname(StoredFilename(random, originalName)) == Extname(originalName)
    ensures Unhex(StoredFilename(random, originalName)[..32]) == random
  {
    var h := Hex(random);
    ExtnameAfterStem(h, Extname(originalName));
    assert StoredFilename(random, originalName)[..32] == h;
    UnhexHex(random);
  }

  // --------------------------------------------------------------- upload

  /** What the upload middleware hands the handler. */
  datatype Upload = Upload(originalName: string, mimeType: string, size: nat, path: string, filename: string)

  datatype ServerFile = ServerFile(id: string, name: string, mimeType: string, size: nat, path: string, url: string)

  /** `uploadServerFile`: no file is a 400; otherwise the record points at `/uploads/<stored name>`. */
  function UploadServerFile(file: Option<Upload>, newId: string): (r: Result<ServerFile, Error>)
    ensures file.None? <==> r.Err?
    ensures r.Err? ==> r.error == AppError(400, NoFileMessage)
    ensures r.Ok? ==> IsPrefix(UploadsPrefix, r.value.url) && r.value.url[|UploadsPrefix|..] == file.value.filename
    ensures r.Ok? ==> r.value == ServerFile(newId, file.value.originalName, file.value.mimeType, file.value.size,
                                            file.value.path, r.value.url)
  {
    match file
    case None => Err(AppError(400, NoFileMessage))
    case Some(f) =>
      var url := UploadsPrefix + f.filename;
      assert url[..|UploadsPrefix|] == UploadsPrefix;
      Ok(ServerFile(newId, f.originalName, f.mimeType, f.size, f.path, url))
  }

  // ------------------------------------------------------------- download

  datatype ClientFile = ClientFile(id: string, path: string)

  /** The two stores, each keyed by id. */
  datatype Files = Files(client: map<string, ClientFile>, server: map<string, ServerFile>)

  /** A request path holding `/client/` addresses the client store. */
  function IsClientPath(requestPath: string): bool {
    Contains(requestPath, ClientSegment)
  }

  datatype Download = Download(filename: string, path: string)

  /**
   * `downloadFile`: the file is looked up in the store the path selects; a
   * client file is offered as `client-<id><ext>`, a server file under its
   * stored name, or `file-<id><ext>` when that is empty.
   */
  function DownloadFile(requestPath: string, id: string, files: Files): (r: Result<Download, Error>)
    ensures IsClientPath(requestPath) ==> (r.Err? <==> id !in files.client)
    ensures !IsClientPath(requestPath) ==> (r.Err? <==> id !in files.server)
    ensures r.Err? ==> r.error == AppError(404, FileNotFoundMessage)
    ensures r.Ok? && IsClientPath(requestPath) ==>
              r.value.path == files.client[id].path && IsPrefix("client-" + id, r.value.filename)
    ensures r.Ok? && IsClientPath(requestPath) ==>
              r.value.filename == "client-" + id + Extname(files.client[id].path)
    ensures r.Ok? && !IsClientPath(requestPath) ==>
              && r.value.path == files.server[id].path
              && (files.server[id].name != "" ==> r.value.filename == files.server[id].name)
              && (files.server[id].name == "" ==> IsPrefix("file-" + id, r.value.filename))
              && (files.server[id].name == "" ==> r.value.filename == "file-" + id + Extname(files.server[id].path))
  {
    if IsClientPath(requestPath) then
      if id !in files.client then Err(AppError(404, FileNotFoundMessage))
      else
        var p := files.client[id].path;
        var name := "client-" + id + Extname(p);
        assert name[..|"client-" + id|] == "client-" + id;
        Ok(Download(name, p))
    else
      if id !in files.server then Err(AppError(404, FileNotFoundMessage))
      else
        var f := files.server[id];
        var generated := "file-" + id + Extname(f.path);
        assert generated[..|"file-" + id|] == "file-" + id;
        Ok(Download(if f.name != "" then f.name else generated, f.path))
  }

  /** A client file's download name carries the stored file's extension (for ids without dots or slashes). */
  lemma ClientDownloadKeepsExtension(requestPath: string, id: string, files: Files)
    requires '.' !in id && '/' !in id
    requires IsClientPath(requestPath) && id in files.client
    ensures DownloadFile(requestPath, id, files).Ok?
    ensures Extname(DownloadFile(requestPath, id, files).value.filename) == Extname(files.client[id].path)
  {
    var stem := "client-" + id;
    NotInConcat("client-", id, '.');
    NotInConcat("client-", id, '/');
    ExtnameAfterStem(stem, Extname(files.client[id].path));
  }

  /** So does a server file stored without a name. */
  lemma ServerDownloadKeepsExtension(requestPath: string, id: string, files: Files)
    requires '.' !in id && '/' !in id
    requires !IsClientPath(requestPath) && id in files.server && files.server[id].name == ""
    ensures DownloadFile(requestPath, id, files).Ok?
    ensures Extname(DownloadFile(requestPath, id, files).value.filename) == Extname(files.server[id].path)
  {
    var stem := "file-" + id;
    NotInConcat("file-", id, '.');
    NotInConcat("file-", id, '/');
    ExtnameAfterStem(stem, Extname(files.server[id].path));
  }

  /** `deleteFile`: removes the row from the store the path selects; a missing row is rejected by the store. */
  function DeleteFile(requestPath: string, id: string, files: Files): (r: Result<Files, Error>)
    ensures r.Err? <==> (if IsClientPath(requestPath) then id !in files.client else id !in files.server)
    ensures r.Err? ==> r.error == StoreRejected
    ensures r.Ok? && IsClientPath(requestPath) ==> r.value.server == files.server
    ensures r.Ok? && IsClientPath(requestPath) ==>
              forall k :: k in r.value.client <==> k in files.client && k != id
    ensures r.Ok? && IsClientPath(requestPath) ==>
              forall k | k in r.value.client :: r.value.client[k] == files.client[k]
    ensures r.Ok? && !IsClientPath(requestPath) ==> r.value.client == files.client
    ensures r.Ok? && !IsClientPath(requestPath) ==>
              forall k :: k in r.value.server <==> k in files.server && k != id
    ensures r.Ok? && !IsClientPath(requestPath) ==>
              forall k | k in r.value.server :: r.value.server[k] == files.server[k]
  {
    if IsClientPath(requestPath) then
      if id !in files.client then Err(StoreRejected) else Ok(files.(client := files.client - {id}))
    else
      if id !in files.server then Err(StoreRejected) else Ok(files.(server := files.server - {id}))
  }

  /** Download and delete pick the same store: a file that downloads can be deleted through the same path. */
  lemma DownloadThenDelete(requestPath: string, id: string, files: Files)
    requires DownloadFile(requestPath, id, files).Ok?
    ensures DeleteFile(requestPath, id, files).Ok?
  {
  }

  /** A deleted file is gone: downloading it through the same path is a 404. */
  lemma DeleteThenDownload(requestPath: string, id: string, files: Files)
    requires DeleteFile(requestPath, id, files).Ok?
    ensures DownloadFile(requestPath, id, DeleteFile(requestPath, id, files).value) == Err(AppError(404, FileNotFoundMessage))
  {
  }
}

=== FILE: formatters.dfy ===
/**
 * The dashboard's rendering of accumulated downtime: whole hours and
 * remaining minutes, written `<h>時間<r>分`, with the zero parts dropped.
 */
module Formatters {
  import opened Wrappers
  import opened Strings

  const MinuteUnit := "分"
  const HourUnit := "時間"

  /**
   * JavaScript's `%` on integers: the remainder left by the quotient rounded
   * toward zero, so it takes the sign of the dividend.
   */
  function JsRem(a: int, b: int): (r: int)
    requires b > 0
    ensures a >= 0 ==> 0 <= r < b && r == a % b
    ensures a < 0 ==> -b < r <= 0 && a == -(b * ((-a) / b)) + r
  {
    if a >= 0 then a % b else -((-a) % b)
  }

  /**
   * `formatDowntime`, written for any pair of unit words (hours first): hours
   * are `Math.floor(minutes / 60)` and the rest is `minutes % 60`; zero minutes
   * is `0` and the minute unit, no hours shows only minutes, no remaining
   * minutes shows only hours.
   */
  function FormatIn(minutes: int, hu: string, mu: string): (s: string)
    ensures minutes == 0 ==> s == "0" + mu
    ensures minutes > 0 ==> |s| > 0 && IsDigit(s[0])
  {
    if minutes == 0 then "0" + mu
    else
      var hours := minutes / 60;
      var rest := JsRem(minutes, 60);
      if hours == 0 then ShowInt(rest) + mu
      else if rest == 0 then ShowInt(hours) + hu
      else ShowInt(hours) + hu + ShowInt(rest) + mu
  }

  /** `formatDowntime` with the dashboard's units `時間` and `分`. */
  function FormatDowntime(minutes: int): (s: string)
    ensures minutes == 0 ==> s == "0分"
    ensures |s| >= 2
    ensures s[|s| - 1] == '分' || s[|s| - 2..] == HourUnit
    ensures minutes > 0 ==> IsDigit(s[0])
  {
    var s := FormatIn(minutes, HourUnit, MinuteUnit);
    assert minutes == 0 ==> s == "0分";
    assert s[|s| - 2..] == HourUnit || s[|s| - 1] == '分';
    s
  }

  // --------------------------------------------------------- reading back

  /** Unit words the reader can tell apart from digits and from each other by their first character. */
  predicate DistinctUnits(hu: string, mu: string) {
    |hu| > 0 && |mu| > 0 && !IsDigit(hu[0]) && !IsDigit(mu[0]) && hu[0] != mu[0]
  }

  lemma DashboardUnits()
    ensures DistinctUnits(HourUnit, MinuteUnit)
  {
  }

  /** The end of the run of digits that starts at `i`. */
  function DigitRun(s: string, i: nat): (r: nat)
    requires i <= |s|
    ensures i <= r <= |s|
    decreases |s| - i
  {
    if i < |s| && IsDigit(s[i]) then DigitRun(s, i + 1) else i
  }

  /** The run is all digits and stops at the end or at a non-digit. */
  lemma {:induction false} DigitRunStops(s: string, i: nat)
    requires i <= |s|
    ensures forall k | i <= k < DigitRun(s, i) :: IsDigit(s[k])
    ensures DigitRun(s, i) == |s| || !IsDigit(s[DigitRun(s, i)])
    decreases |s| - i
  {
    if i < |s| && IsDigit(s[i]) {
      DigitRunStops(s, i + 1);
    }
  }

  /** The longest run of digits `s` starts with. */
  function TakeDigits(s: string): (d: string)
    ensures |d| <= |s| && AllDigits(d)
  {
    DigitRunStops(s, 0);
    s[..DigitRun(s, 0)]
  }

  /** Digits followed by a non-digit are read up to that non-digit. */
  lemma TakeDigitsOf(d: string, t: string, s: string)
    requires s == d + t && AllDigits(d)
    requires t == [] || !IsDigit(t[0])
    ensures TakeDigits(s) == d && s[|d|..] == t
  {
    DigitRunStops(s, 0);
    assert forall k | 0 <= k < |d| :: s[k] == d[k];
    assert |t| > 0 ==> s[|d|] == t[0];
    assert DigitRun(s, 0) == |d|;
    assert s[..|d|] == d;
  }

  /** The minutes that `hours` whole hours stand for; none read yet is zero. */
  function HoursSoFar(hours: Option<nat>): nat {
    if hours.Some? then 60 * hours.value else 0
  }

  /**
   * Reads a `<h><hu><r><mu>` text as a person would: a number, then the
   * minute unit to finish, or (when no hours were read yet) the hour unit to
   * finish or to go on to the minutes.
   */
  function Reading(s: string, hu: string, mu: string, hours: Option<nat>): Option<nat>
    decreases |s|
  {
    var d := TakeDigits(s);
    if d == [] then None
    else
      var n := ParseNat(d);
      var rest := s[|d|..];
      if rest == mu then Some(HoursSoFar(hours) + n)
      else if hours.None? && rest == hu then Some(60 * n)
      else if hours.None? && |rest| > |hu| && rest[..|hu|] == hu then Reading(rest[|hu|..], hu, mu, Some(n))
      else None
  }

  /** The number of minutes a downtime text stands for, or nothing when it is not one. */
  function ParseIn(s: string, hu: string, mu: string): Option<nat> {
    Reading(s, hu, mu, None)
  }

  /** Reading a downtime written with the dashboard's units. */
  function ParseDowntime(s: string): Option<nat> {
    ParseIn(s, HourUnit, MinuteUnit)
  }

  /** Digits followed by the minute unit add that many minutes to the hours read so far. */
  lemma ReadMinutes(d: string, s: string, hu: string, mu: string, hours: Option<nat>)
    requires DistinctUnits(hu, mu)
    requires s == d + mu && |d| > 0 && AllDigits(d)
    ensures Reading(s, hu, mu, hours) == Some(HoursSoFar(hours) + ParseNat(d))
  {
    TakeDigitsOf(d, mu, s);
  }

  /** Digits followed by the hour unit read back as that many hours. */
  lemma ReadHours(d: string, s: string, hu: string, mu: string)
    requires DistinctUnits(hu, mu)
    requires s == d + hu && |d| > 0 && AllDigits(d)
    ensures ParseIn(s, hu, mu) == Some(60 * ParseNat(d))
  {
    TakeDigitsOf(d, hu, s);
    assert hu != mu by { assert hu[0] != mu[0]; }
  }

  /** Digits, the hour unit and more text: the hours are read and the reader goes on with the text. */
  lemma ReadHoursThen(d: string, tail: string, s: string, hu: string, mu: string)
    requires DistinctUnits(hu, mu)
    requires s == d + (hu + tail) && |d| > 0 && AllDigits(d) && |tail| > 0
    ensures ParseIn(s, hu, mu) == Reading(tail, hu, mu, Some(ParseNat(d)))
  {
    var after := hu + tail;
    assert after[0] == hu[0];
    TakeDigitsOf(d, after, s);
    assert after[..|hu|] == hu && after[|hu|..] == tail;
    assert after != mu by { assert after[0] != mu[0]; }
    assert after != hu by { assert |after| > |hu|; }
  }

  /** Digits, the hour unit, digits, the minute unit read back as those hours and minutes. */
  lemma ReadHoursMinutes(dh: string, dr: string, tail: string, s: string, hu: string, mu: string)
    requires DistinctUnits(hu, mu)
    requires tail == dr + mu && s == dh + (hu + tail)
    requires |dh| > 0 && AllDigits(dh) && |dr| > 0 && AllDigits(dr)
    ensures ParseIn(s, hu, mu) == Some(60 * ParseNat(dh) + ParseNat(dr))
  {
    ReadHoursThen(dh, tail, s, hu, mu);
    ReadMinutes(dr, tail, hu, mu, Some(ParseNat(dh)));
  }

  /** The three shapes a non-negative downtime takes: minutes only, hours only, or both. */
  lemma FormatInShape(minutes: nat, hu: string, mu: string)
    ensures minutes < 60 ==> FormatIn(minutes, hu, mu) == ShowNat(minutes) + mu
    ensures minutes >= 60 && minutes % 60 == 0 ==> FormatIn(minutes, hu, mu) == ShowNat(minutes / 60) + hu
    ensures minutes >= 60 && minutes % 60 != 0 ==>
              FormatIn(minutes, hu, mu) == ShowNat(minutes / 60) + (hu + (ShowNat(minutes % 60) + mu))
  {
    assert JsRem(minutes, 60) == minutes % 60;
    if minutes == 0 {
      assert ShowNat(0) == "0";
    }
  }

  /** A non-negative downtime, written with any distinct units, reads back as the same number of minutes. */
  lemma ReadsBackIn(minutes: nat, hu: string, mu: string)
    requires DistinctUnits(hu, mu)
    ensures ParseIn(FormatIn(minutes, hu, mu), hu, mu) == Some(minutes)
  {
    var s := FormatIn(minutes, hu, mu);
    FormatInShape(minutes, hu, mu);
    var hours := minutes / 60;
    var rest := minutes % 60;
    if minutes < 60 {
      ReadMinutes(ShowNat(minutes), s, hu, mu, None);
      ParseShowNat(minutes);
    } else if rest == 0 {
      ReadHours(ShowNat(hours), s, hu, mu);
      ParseShowNat(hours);
    } else {
      ReadHoursMinutes(ShowNat(hours), ShowNat(rest), ShowNat(rest) + mu, s, hu, mu);
      ParseShowNat(hours);
      ParseShowNat(rest);
    }
  }

  /** A non-negative downtime is rendered so that it reads back as the same number of minutes. */
  lemma FormatDowntimeReadsBack(minutes: nat)
    ensures ParseDowntime(FormatDowntime(minutes)) == Some(minutes)
  {
    DashboardUnits();
    ReadsBackIn(minutes, HourUnit, MinuteUnit);
  }

  /** Different non-negative downtimes are never rendered alike. */
  lemma FormatDowntimeInjective(a: nat, b: nat)
    requires FormatDowntime(a) == FormatDowntime(b)
    ensures a == b
  {
    FormatDowntimeReadsBack(a);
    FormatDowntimeReadsBack(b);
  }

  /**
   * A negative downtime under an hour is floored to minus one hour while the
   * remainder keeps its sign: -30 minutes is written `-1時間-30分`.
   */
  lemma NegativeUnderAnHour(minutes: int)
    requires -60 < minutes < 0
    ensures FormatDowntime(minutes) == ShowInt(-1) + HourUnit + ShowInt(minutes) + MinuteUnit
  {
    assert minutes / 60 == -1;
    assert JsRem(minutes, 60) == minutes;
  }
}

=== FILE: polling_service.dfy ===
/**
 * Terminal liveness. Once a minute a tick visits every terminal and counts
 * one more missed heartbeat; at three the terminal is OFFLINE and downtime
 * accrues. A heartbeat (the terminal polling in) resets the count and brings
 * it back ONLINE. Time is milliseconds since the epoch, given as an input.
 */
module PollingService {
  import opened Wrappers
  import opened Records

  const OfflineThreshold := 3
  const MillisPerMinute := 60000
  const OfflineLogMessage := "Terminal went offline after 3 consecutive polling failures"

  datatype ErrorLog = ErrorLog(terminalId: string, kind: string, message: string)

  /**
   * `Math.floor((now - (lastPolling || now)) / 60000)`. With a positive
   * divisor Dafny's `/` is floor division, negative differences included.
   */
  function ElapsedMinutes(lastPolling: Option<int>, now: int): (m: int)
    ensures lastPolling.None? ==> m == 0
    ensures lastPolling.Some? ==>
      m * MillisPerMinute <= now - lastPolling.value < (m + 1) * MillisPerMinute
  {
    (now - lastPolling.GetOr(now)) / MillisPerMinute
  }

  /** Elapsed minutes are never negative once `now` is not before the last poll. */
  lemma ElapsedNonNegative(lastPolling: Option<int>, now: int)
    requires lastPolling.None? || lastPolling.value <= now
    ensures ElapsedMinutes(lastPolling, now) >= 0
  {
  }

  datatype TickStep = TickStep(terminal: Terminal, log: Option<ErrorLog>)

  /** The per-terminal body of the minute tick. */
  function Tick(t: Terminal, now: int): (s: TickStep)
    ensures s.terminal.offlineCount == t.offlineCount + 1
    ensures s.terminal.status == Online ==> t.status == Online
    ensures s.terminal.offlineCount >= OfflineThreshold ==> s.terminal.status == Offline
    ensures s.terminal.offlineCount < OfflineThreshold ==> s.terminal.status == t.status
    ensures s.log.Some? <==> s.terminal.offlineCount >= OfflineThreshold
    ensures s.log.Some? ==> s.log.value.terminalId == t.id
    ensures (t.lastPolling.None? || t.lastPolling.value <= now) ==> s.terminal.downtimeMinutes >= t.downtimeMinutes
    ensures s.terminal.(status := t.status, offlineCount := t.offlineCount, downtimeMinutes := t.downtimeMinutes) == t
  {
    var count := t.offlineCount + 1;
    var elapsed := ElapsedMinutes(t.lastPolling, now);
    if count >= OfflineThreshold then
      TickStep(t.(status := Offline, offlineCount := count, downtimeMinutes := t.downtimeMinutes + elapsed),
               Some(ErrorLog(t.id, "OFFLINE", OfflineLogMessage)))
    else
      TickStep(t.(offlineCount := count,
                  downtimeMinutes := t.downtimeMinutes + (if t.status == Offline then elapsed else 0)),
               None)
  }

  /**
   * Downtime accrues the elapsed minutes on a tick that reaches the threshold
   * or finds the terminal already OFFLINE, and nothing otherwise.
   */
  lemma TickAccrual(t: Terminal, now: int)
    ensures Tick(t, now).terminal.downtimeMinutes - t.downtimeMinutes
         == if t.offlineCount + 1 >= OfflineThreshold || t.status == Offline
            then ElapsedMinutes(t.lastPolling, now) else 0
  {
  }

  datatype TickRound = TickRound(terminals: seq<Terminal>, logs: seq<ErrorLog>)

  /** One cron tick over every terminal the store lists, in its order. */
  function TickAll(ts: seq<Terminal>, now: int): (r: TickRound)
    ensures |r.terminals| == |ts|
    ensures forall i | 0 <= i < |ts| :: r.terminals[i] == Tick(ts[i], now).terminal
    ensures |r.logs| <= |ts|
  {
    if |ts| == 0 then TickRound([], [])
    else
      var s := Tick(ts[0], now);
      var rest := TickAll(ts[1..], now);
      var r := TickRound([s.terminal] + rest.terminals,
                         (if s.log.Some? then [s.log.value] else []) + rest.logs);
      assert forall i | 1 <= i < |ts| :: r.terminals[i] == rest.terminals[i - 1] && ts[i] == ts[1..][i - 1];
      r
  }

  /** A tick logs exactly the terminals it finds at or past the threshold, and nothing else. */
  lemma {:induction false} TickAllLogs(ts: seq<Terminal>, now: int)
    ensures var r := TickAll(ts, now);
            forall i | 0 <= i < |ts| && r.terminals[i].offlineCount >= OfflineThreshold ::
              ErrorLog(ts[i].id, "OFFLINE", OfflineLogMessage) in r.logs
    ensures var r := TickAll(ts, now);
            forall l | l in r.logs :: exists i | 0 <= i < |ts| ::
              l.terminalId == ts[i].id && r.terminals[i].offlineCount >= OfflineThreshold
    decreases |ts|
  {
    if |ts| > 0 {
      TickAllLogs(ts[1..], now);
      var r := TickAll(ts, now);
      var rest := TickAll(ts[1..], now);
      var s := Tick(ts[0], now);
      assert r.logs == (if s.log.Some? then [s.log.value] else []) + rest.logs;
      forall i | 0 <= i < |ts| && r.terminals[i].offlineCount >= OfflineThreshold
        ensures ErrorLog(ts[i].id, "OFFLINE", OfflineLogMessage) in r.logs
      {
        if i > 0 {
          assert ts[i] == ts[1..][i - 1] && r.terminals[i] == rest.terminals[i - 1];
        }
      }
      forall l | l in r.logs
        ensures exists i | 0 <= i < |ts| :: l.terminalId == ts[i].id && r.terminals[i].offlineCount >= OfflineThreshold
      {
        if l in rest.logs {
          var j :| 0 <= j < |ts| - 1 && l.terminalId == ts[1..][j].id && rest.terminals[j].offlineCount >= OfflineThreshold;
          assert ts[j + 1] == ts[1..][j] && r.terminals[j + 1] == rest.terminals[j];
        } else {
          assert l.terminalId == ts[0].id && r.terminals[0].offlineCount >= OfflineThreshold;
        }
      }
    }
  }

  datatype Poll = Poll(terminal: Terminal, greeting: Option<string>)

  /** `handlePolling`: the terminal polled in at `now`; answers its greeting, or null when it has none. */
  function Heartbeat(t: Terminal, now: int): (p: Poll)
    ensures p.terminal.status == Online && p.terminal.offlineCount == 0
    ensures p.terminal.lastPolling == Some(now)
    ensures p.terminal.(status := t.status, offlineCount := t.offlineCount, lastPolling := t.lastPolling) == t
    ensures p.greeting.Some? <==> Truthy(t.greeting)
    ensures p.greeting.Some? ==> p.greeting == t.greeting
  {
    Poll(t.(status := Online, offlineCount := 0, lastPolling := Some(now)),
         if Truthy(t.greeting) then t.greeting else None)
  }

  /** A second heartbeat right after a first leaves the terminal as one heartbeat at the later time would. */
  lemma HeartbeatIdempotent(t: Terminal, first: int, second: int)
    ensures Heartbeat(Heartbeat(t, first).terminal, second) == Heartbeat(t, second)
  {
  }

  /** A heartbeat never changes downtime. */
  lemma HeartbeatKeepsDowntime(t: Terminal, now: int)
    ensures Heartbeat(t, now).terminal.downtimeMinutes == t.downtimeMinutes
  {
  }

  // --------------------------------------------------------- invariant

  /** An ONLINE terminal has missed fewer ticks than the threshold; the count is never negative. */
  predicate LivenessInvariant(t: Terminal) {
    t.offlineCount >= 0 && (t.status == Online ==> t.offlineCount < OfflineThreshold)
  }

  /** Ticks and heartbeats keep the invariant. */
  lemma StepsKeepInvariant(t: Terminal, now: int)
    requires LivenessInvariant(t)
    ensures LivenessInvariant(Tick(t, now).terminal)
    ensures LivenessInvariant(Heartbeat(t, now).terminal)
  {
  }

  // ------------------------------------------------------------ traces

  datatype Event = TickAt(now: int) | HeartbeatAt(now: int)

  function Step(t: Terminal, e: Event): Terminal {
    match e
    case TickAt(now) => Tick(t, now).terminal
    case HeartbeatAt(now) => Heartbeat(t, now).terminal
  }

  /** The terminal after the events, oldest first. */
  function Run(t: Terminal, evs: seq<Event>): Terminal
    decreases |evs|
  {
    if |evs| == 0 then t else Step(Run(t, evs[..|evs| - 1]), evs[|evs| - 1])
  }

  /** Some event of the trace is a heartbeat. */
  predicate HeartbeatSeen(evs: seq<Event>) {
    exists i | 0 <= i < |evs| :: evs[i].HeartbeatAt?
  }

  /** The number of ticks after the last heartbeat (after the start when there is none). */
  function TrailingTicks(evs: seq<Event>): nat
    decreases |evs|
  {
    if |evs| == 0 || evs[|evs| - 1].HeartbeatAt? then 0
    else 1 + TrailingTicks(evs[..|evs| - 1])
  }

  /** After any trace, the count is the number of ticks since the last heartbeat (plus the start count if none). */
  lemma {:induction false} RunOfflineCount(t: Terminal, evs: seq<Event>)
    ensures Run(t, evs).offlineCount == (if HeartbeatSeen(evs) then 0 else t.offlineCount) + TrailingTicks(evs)
    decreases |evs|
  {
    if |evs| > 0 {
      var init := evs[..|evs| - 1];
      RunOfflineCount(t, init);
      if evs[|evs| - 1].TickAt? {
        assert HeartbeatSeen(evs) <==> HeartbeatSeen(init) by {
          if HeartbeatSeen(evs) {
            var i :| 0 <= i < |evs| && evs[i].HeartbeatAt?;
            assert init[i] == evs[i];
          }
          if HeartbeatSeen(init) {
            var i :| 0 <= i < |init| && init[i].HeartbeatAt?;
            assert evs[i] == init[i];
          }
        }
      }
    }
  }

  /**
   * From a state that keeps the invariant, a terminal is ONLINE after a trace
   * exactly when fewer than three ticks followed the last heartbeat (or, with
   * no heartbeat, it started ONLINE and fewer than three ticks took its count
   * to the threshold).
   */
  lemma {:induction false} RunStatus(t: Terminal, evs: seq<Event>)
    requires LivenessInvariant(t)
    ensures LivenessInvariant(Run(t, evs))
    ensures Run(t, evs).status == Online
        <==> if HeartbeatSeen(evs) then TrailingTicks(evs) < OfflineThreshold
             else t.status == Online && t.offlineCount + TrailingTicks(evs) < OfflineThreshold
    decreases |evs|
  {
    RunOfflineCount(t, evs);
    if |evs| > 0 {
      var init := evs[..|evs| - 1];
      RunStatus(t, init);
      RunOfflineCount(t, init);
      StepsKeepInvariant(Run(t, init), evs[|evs| - 1].now);
      if evs[|evs| - 1].TickAt? {
        assert HeartbeatSeen(evs) <==> HeartbeatSeen(init) by {
          if HeartbeatSeen(evs) {
            var i :| 0 <= i < |evs| && evs[i].HeartbeatAt?;
            assert init[i] == evs[i];
          }
        }
      } else {
        assert HeartbeatSeen(evs);
      }
    }
  }

  /** Event times never go backwards, and none is before the starting last poll. */
  predicate Chronological(t: Terminal, evs: seq<Event>) {
    && (forall i | 0 <= i < |evs| :: t.lastPolling.None? || t.lastPolling.value <= evs[i].now)
    && (forall i, j | 0 <= i < j < |evs| :: evs[i].now <= evs[j].now)
  }

  /** The last poll after a chronological trace is not later than any bound on its times. */
  lemma {:induction false} RunLastPollingBound(t: Terminal, evs: seq<Event>, bound: int)
    requires Chronological(t, evs)
    requires t.lastPolling.None? || t.lastPolling.value <= bound
    requires forall i | 0 <= i < |evs| :: evs[i].now <= bound
    ensures Run(t, evs).lastPolling.None? || Run(t, evs).lastPolling.value <= bound
    decreases |evs|
  {
    if |evs| > 0 {
      var init := evs[..|evs| - 1];
      assert Chronological(t, init);
      RunLastPollingBound(t, init, bound);
    }
  }

  /** Along a chronological trace of ticks and heartbeats, downtime never decreases. */
  lemma {:induction false} RunDowntimeMonotone(t: Terminal, evs: seq<Event>)
    requires Chronological(t, evs)
    ensures Run(t, evs).downtimeMinutes >= t.downtimeMinutes
    decreases |evs|
  {
    if |evs| > 0 {
      var init := evs[..|evs| - 1];
      var last := evs[|evs| - 1];
      assert Chronological(t, init);
      RunDowntimeMonotone(t, init);
      RunLastPollingBound(t, init, last.now);
    }
  }

  /** From ONLINE with no missed ticks: still ONLINE after ticks one and two, OFFLINE after the third. */
  lemma ThreeTicksToOffline(t: Terminal, n1: int, n2: int, n3: int)
    requires t.status == Online && t.offlineCount == 0
    ensures var t1 := Tick(t, n1).terminal;
            var t2 := Tick(t1, n2).terminal;
            var t3 := Tick(t2, n3).terminal;
            && t1.status == Online && t1.offlineCount == 1
            && t2.status == Online && t2.offlineCount == 2
            && t3.status == Offline && t3.offlineCount == 3
            && Tick(t2, n3).log.Some? && Tick(t1, n2).log.None?
  {
  }

  /** A tick past the threshold logs again: the OFFLINE entry is not only written on the transition. */
  lemma OfflineLoggedEveryTick(t: Terminal, now: int)
    requires t.status == Offline && t.offlineCount >= OfflineThreshold
    ensures Tick(t, now).log == Some(ErrorLog(t.id, "OFFLINE", OfflineLogMessage))
  {
  }
}

=== FILE: records.dfy ===
/**
 * The stored entities the services and controllers share: a terminal (one AICO
 * unit) and a conversation record. Identifiers are the store's opaque strings;
 * timestamps are milliseconds since the epoch.
 */
module Records {
  import opened Wrappers

  datatype Status = Online | Offline

  /** A terminal row with the liveness bookkeeping the polling service maintains. */
  datatype Terminal = Terminal(
    id: string,
    aicoId: string,
    name: string,
    status: Status,
    offlineCount: int,
    downtimeMinutes: int,
    lastPolling: Option<int>,
    greeting: Option<string>)

  /** One stored utterance; `messageId` groups the turns of one exchange. */
  datatype Conversation = Conversation(
    id: string,
    messageId: string,
    message: string,
    speaker: string,
    terminalId: string,
    createdAt: int,
    clientFilePath: Option<string>)

  /** JavaScript truthiness of an optional string: present and non-empty. */
  predicate Truthy(s: Option<string>) {
    s.Some? && s.value != ""
  }
}

=== FILE: schemas.dfy ===
/**
 * The validation schemas the management forms run before anything is sent:
 * actions, users, operator accounts and notification templates. Each
 * schema answers the issues it finds, one per failing field, carrying the
 * message of the field's first failing check. String lengths are counted
 * in UTF-16 code units, as JavaScript counts them; the e-mail format check
 * is an input.
 */
module Schemas {
  import opened Wrappers
  import opened Strings
  import opened ActionService

  /** The form fields an issue can be reported on. */
  datatype Field =
    | NameField | TerminalIdField | ConditionField | TypeField | MediaIdField | TemplateIdField | UserIdField
    | UsernameField | PasswordField | FirstNameField | LastNameField | EmailField | ChatworkIdField
    | ContentField | AicoIdField | GreetingField

  datatype Issue = Issue(field: Field, message: string)

  /** No issue when the check passes, else one issue for the field. */
  function Check(field: Field, ok: bool, message: string): (issues: seq<Issue>)
    ensures ok <==> issues == []
    ensures |issues| <= 1 && forall i | 0 <= i < |issues| :: issues[i] == Issue(field, message)
    ensures Failing(issues) == if ok then {} else {field}
  {
    if ok then [] else
      assert [Issue(field, message)][0].field == field;
      [Issue(field, message)]
  }

  /** The fields that have an issue. */
  function Failing(issues: seq<Issue>): set<Field> {
    set i | 0 <= i < |issues| :: issues[i].field
  }

  lemma FailingConcat(a: seq<Issue>, b: seq<Issue>)
    ensures Failing(a + b) == Failing(a) + Failing(b)
  {
    forall f | f in Failing(a + b) ensures f in Failing(a) + Failing(b) {
      var i :| 0 <= i < |a + b| && (a + b)[i].field == f;
      if i >= |a| { assert b[i - |a|].field == f; }
    }
    forall f | f in Failing(a) + Failing(b) ensures f in Failing(a + b) {
      if f in Failing(a) {
        var i :| 0 <= i < |a| && a[i].field == f;
        assert (a + b)[i].field == f;
      } else {
        var i :| 0 <= i < |b| && b[i].field == f;
        assert (a + b)[|a| + i].field == f;
      }
    }
  }

  /** Issues listed one group after another: the fields of both groups fail. */
  function JoinIssues(a: seq<Issue>, b: seq<Issue>): (j: seq<Issue>)
    ensures j == a + b
    ensures forall f :: f in Failing(j) <==> f in Failing(a) || f in Failing(b)
  {
    FailingConcat(a, b);
    a + b
  }

  // ------------------------------------------------------------ lengths

  /** A string within the Basic Multilingual Plane has one code unit per character. */
  lemma {:induction false} BmpLength(s: string)
    requires forall i | 0 <= i < |s| :: s[i] as int <= 0xFFFF
    ensures Utf16Length(s) == |s|
    decreases |s|
  {
    if |s| > 0 {
      BmpLength(s[..|s| - 1]);
    }
  }

  /** Characters outside it count twice. */
  lemma {:induction false} AstralLength(s: string)
    requires forall i | 0 <= i < |s| :: s[i] as int > 0xFFFF
    ensures Utf16Length(s) == 2 * |s|
    decreases |s|
  {
    if |s| > 0 {
      AstralLength(s[..|s| - 1]);
    }
  }

  // ------------------------------------------------------------- actions

  /** `z.enum(['AND', 'OR'])`. */
  function ParseCondition(s: string): (c: Option<Condition>)
    ensures c.Some? <==> s == "AND" || s == "OR"
  {
    if s == "AND" then Some(And) else if s == "OR" then Some(Or) else None
  }

  function ConditionName(c: Condition): string {
    match c
    case And => "AND"
    case Or => "OR"
  }

  /** `z.enum(['MEDIA', 'CHATWORK', 'EMAIL'])`. */
  function ParseActionType(s: string): (t: Option<ActionType>)
    ensures t.Some? <==> s == "MEDIA" || s == "CHATWORK" || s == "EMAIL"
  {
    if s == "MEDIA" then Some(Media)
    else if s == "CHATWORK" then Some(Chatwork)
    else if s == "EMAIL" then Some(Email)
    else None
  }

  function ActionTypeName(t: ActionType): string {
    match t
    case Media => "MEDIA"
    case Chatwork => "CHATWORK"
    case Email => "EMAIL"
  }

  /** The enum names read back as the values they name, and only they are accepted. */
  lemma EnumRoundTrip(c: Condition, t: ActionType, s: string)
    ensures ParseCondition(ConditionName(c)) == Some(c)
    ensures ParseActionType(ActionTypeName(t)) == Some(t)
    ensures ParseCondition(s).Some? ==> ConditionName(ParseCondition(s).value) == s
    ensures ParseActionType(s).Some? ==> ActionTypeName(ParseActionType(s).value) == s
  {
  }

  /** The action form as typed, every select still a string. */
  datatype RawActionForm = RawActionForm(
    name: string, terminalId: string, description: Option<string>, condition: string, kind: string,
    mediaId: Option<string>, templateId: Option<string>, userId: Option<string>)

  /** The action form once the schema accepts it. */
  datatype ActionForm = ActionForm(
    name: string, terminalId: string, description: Option<string>, condition: Condition, kind: ActionType,
    mediaId: Option<string>, templateId: Option<string>, userId: Option<string>)

  const ActionNameRequired := "名前は必須です"
  const ActionTerminalRequired := "AICO端末は必須です"
  const InvalidEnumMessage := "Invalid enum value"

  function ActionIssues(raw: RawActionForm): (issues: seq<Issue>)
    ensures issues == [] <==>
              raw.name != "" && raw.terminalId != "" && ParseCondition(raw.condition).Some? && ParseActionType(raw.kind).Some?
    ensures NameField in Failing(issues) <==> raw.name == ""
    ensures TypeField in Failing(issues) <==> ParseActionType(raw.kind).None?
    ensures MediaIdField !in Failing(issues) && TemplateIdField !in Failing(issues) && UserIdField !in Failing(issues)
  {
    var a := Check(NameField, Utf16Length(raw.name) >= 1, ActionNameRequired);
    var b := Check(TerminalIdField, Utf16Length(raw.terminalId) >= 1, ActionTerminalRequired);
    var c := Check(ConditionField, ParseCondition(raw.condition).Some?, InvalidEnumMessage);
    var d := Check(TypeField, ParseActionType(raw.kind).Some?, InvalidEnumMessage);
    JoinIssues(JoinIssues(JoinIssues(a, b), c), d)
  }

  /** `ActionSchema`: the typed form, or the issues; the optional ids are taken as given whatever the type. */
  function ActionSchema(raw: RawActionForm): (r: Result<ActionForm, seq<Issue>>)
    ensures r.Ok? <==> ActionIssues(raw) == []
    ensures r.Err? ==> r.error == ActionIssues(raw) != []
    ensures r.Ok? ==>
              && ConditionName(r.value.condition) == raw.condition && ActionTypeName(r.value.kind) == raw.kind
              && r.value.name == raw.name && r.value.terminalId == raw.terminalId
              && r.value.description == raw.description
              && r.value.mediaId == raw.mediaId && r.value.templateId == raw.templateId && r.value.userId == raw.userId
  {
    if ActionIssues(raw) != [] then Err(ActionIssues(raw))
    else
      EnumRoundTrip(And, Media, raw.condition);
      EnumRoundTrip(And, Media, raw.kind);
      var c := ParseCondition(raw.condition).value;
      var t := ParseActionType(raw.kind).value;
      Ok(ActionForm(raw.name, raw.terminalId, raw.description, c, t, raw.mediaId, raw.templateId, raw.userId))
  }

  /** The schema does not tie the ids to the type: a MEDIA action without a file passes it. */
  lemma MediaWithoutFilePasses(name: string, terminalId: string)
    requires name != "" && terminalId != ""
    ensures ActionSchema(RawActionForm(name, terminalId, None, "OR", "MEDIA", None, None, None)).Ok?
  {
  }

  // --------------------------------------------------------------- users

  predicate IsAsciiAlnum(c: char) {
    'a' <= c <= 'z' || 'A' <= c <= 'Z' || '0' <= c <= '9'
  }

  /** The pattern `^[a-zA-Z0-9]+$`, matched one character at a time. */
  function MatchesAlnumPlus(s: string): (m: bool)
    ensures m <==> |s| > 0 && forall i | 0 <= i < |s| :: IsAsciiAlnum(s[i])
    decreases |s|
  {
    if |s| == 0 then false
    else if !IsAsciiAlnum(s[0]) then false
    else if |s| == 1 then true
    else
      var m := MatchesAlnumPlus(s[1..]);
      assert forall i | 1 <= i < |s| :: s[i] == s[1..][i - 1];
      m
  }

  const UsernameRequired := "ユーザーIDは必須です"
  const UsernamePattern := "ユーザーIDは英数字のみ使用可能です"
  const PasswordTooShort := "パスワードは8文字以上必要です"
  const FirstNameRequired := "名は必須です"
  const LastNameRequired := "姓は必須です"
  const EmailInvalid := "有効なメールアドレスを入力してください"
  const OperatorIdRequired := "管理者IDは必須です"
  const OperatorIdPattern := "管理者IDは英数字のみ使用可能です"
  /** What a union reports when neither alternative accepts. */
  const InvalidInputMessage := "Invalid input"
  const MinPasswordLength := 8

  /** A username is checked for presence first, then against the pattern. */
  function UsernameIssues(username: string, required: string, pattern: string): (issues: seq<Issue>)
    ensures issues == [] <==> MatchesAlnumPlus(username)
    ensures username == "" ==> issues == [Issue(UsernameField, required)]
    ensures username != "" && !MatchesAlnumPlus(username) ==> issues == [Issue(UsernameField, pattern)]
    ensures Failing(issues) == if MatchesAlnumPlus(username) then {} else {UsernameField}
  {
    if Utf16Length(username) < 1 then Check(UsernameField, false, required)
    else Check(UsernameField, MatchesAlnumPlus(username), pattern)
  }

  datatype UserForm = UserForm(
    username: string, password: string, firstName: string, lastName: string, email: string, chatworkId: Option<string>)

  /** `UserSchema`; `isEmail` is the library's address check. */
  function UserIssues(u: UserForm, isEmail: string -> bool): (issues: seq<Issue>)
    ensures issues == [] <==>
              && MatchesAlnumPlus(u.username) && Utf16Length(u.password) >= MinPasswordLength
              && u.firstName != "" && u.lastName != "" && isEmail(u.email)
    ensures PasswordField in Failing(issues) <==> Utf16Length(u.password) < MinPasswordLength
    ensures ChatworkIdField !in Failing(issues)
  {
    var a := UsernameIssues(u.username, UsernameRequired, UsernamePattern);
    var b := Check(PasswordField, Utf16Length(u.password) >= MinPasswordLength, PasswordTooShort);
    var c := Check(FirstNameField, Utf16Length(u.firstName) >= 1, FirstNameRequired);
    var d := Check(LastNameField, Utf16Length(u.lastName) >= 1, LastNameRequired);
    var e := Check(EmailField, isEmail(u.email), EmailInvalid);
    JoinIssues(JoinIssues(JoinIssues(JoinIssues(a, b), c), d), e)
  }

  datatype SystemUserForm = SystemUserForm(username: string, password: Option<string>, email: string, chatworkId: Option<string>)

  /** The operator password: absent, or at least eight long, or else exactly empty. */
  predicate OperatorPasswordOk(p: Option<string>) {
    p.None? || Utf16Length(p.value) >= MinPasswordLength || Utf16Length(p.value) == 0
  }

  /** `SystemUserSchema`. */
  function SystemUserIssues(u: SystemUserForm, isEmail: string -> bool): (issues: seq<Issue>)
    ensures issues == [] <==> MatchesAlnumPlus(u.username) && OperatorPasswordOk(u.password) && isEmail(u.email)
    ensures PasswordField in Failing(issues) <==> u.password.Some? && 0 < |u.password.value| && Utf16Length(u.password.value) < MinPasswordLength
    ensures ChatworkIdField !in Failing(issues)
  {
    var a := UsernameIssues(u.username, OperatorIdRequired, OperatorIdPattern);
    var b := Check(PasswordField, OperatorPasswordOk(u.password), InvalidInputMessage);
    var e := Check(EmailField, isEmail(u.email), EmailInvalid);
    JoinIssues(JoinIssues(a, b), e)
  }

  /** An operator may be saved without a password change; a short one is refused. */
  lemma OperatorPasswordBounds(p: string)
    ensures OperatorPasswordOk(None) && OperatorPasswordOk(Some(""))
    ensures 1 <= |p| <= 3 ==> !OperatorPasswordOk(Some(p))
    ensures |p| >= 8 ==> OperatorPasswordOk(Some(p))
  {
  }

  /** Four characters outside the Basic Multilingual Plane are eight code units: exactly the minimum length. */
  lemma AstralPasswordCounts(p: string)
    requires |p| == 4 && forall i | 0 <= i < |p| :: p[i] as int > 0xFFFF
    ensures Utf16Length(p) == MinPasswordLength
  {
    AstralLength(p);
  }

  // ------------------------------------------------------------ templates

  const TemplateNameRequired := "テンプレート名は必須です"
  const TemplateNameTooLong := "テンプレート名は100文字以内で入力してください"
  const TemplateContentRequired := "テンプレート内容は必須です"
  const TemplateContentTooLong := "テンプレート内容は1000文字以内で入力してください"
  const MaxTemplateName := 100
  const MaxTemplateContent := 1000

  /** A length checked against a minimum of one and a maximum, minimum first. */
  function BoundedIssues(field: Field, s: string, max: nat, required: string, tooLong: string): (issues: seq<Issue>)
    ensures issues == [] <==> 1 <= Utf16Length(s) <= max
    ensures s == "" ==> issues == [Issue(field, required)]
    ensures Utf16Length(s) > max ==> issues == [Issue(field, tooLong)]
  {
    if Utf16Length(s) < 1 then Check(field, false, required)
    else Check(field, Utf16Length(s) <= max, tooLong)
  }

  datatype TemplateForm = TemplateForm(name: string, content: string)

  /** `TemplateSchema`. */
  function TemplateIssues(t: TemplateForm): (issues: seq<Issue>)
    ensures issues == [] <==> 1 <= Utf16Length(t.name) <= MaxTemplateName && 1 <= Utf16Length(t.content) <= MaxTemplateContent
    ensures NameField in Failing(issues) <==> !(1 <= Utf16Length(t.name) <= MaxTemplateName)
    ensures ContentField in Failing(issues) <==> !(1 <= Utf16Length(t.content) <= MaxTemplateContent)
  {
    var a := BoundedIssues(NameField, t.name, MaxTemplateName, TemplateNameRequired, TemplateNameTooLong);
    var b := BoundedIssues(ContentField, t.content, MaxTemplateContent, TemplateContentRequired, TemplateContentTooLong);
    JoinIssues(a, b)
  }

  /** For plain text the name limit is exactly 100 characters. */
  lemma TemplateNameLimit(name: string)
    requires name != "" && forall i | 0 <= i < |name| :: name[i] as int <= 0xFFFF
    ensures NameField in Failing(TemplateIssues(TemplateForm(name, "x"))) <==> |name| > MaxTemplateName
  {
    BmpLength(name);
  }

  /** Fifty-one emoji already exceed it, as each counts twice. */
  lemma AstralNameTooLong(name: string)
    requires |name| == 51 && forall i | 0 <= i < |name| :: name[i] as int > 0xFFFF
    ensures NameField in Failing(TemplateIssues(TemplateForm(name, "x")))
  {
    AstralLength(name);
  }
}

=== FILE: sorting.dfy ===
/**
 * The orderings the store applies to query results (`orderBy`), as an
 * insertion sort under a total relation `leq` ("may come first"). The order
 * of elements `leq` does not separate is left open, as the store leaves it.
 */
module Sorting {

  /** `leq` relates every pair one way or the other. */
  ghost predicate Total<T(!new)>(leq: (T, T) -> bool) {
    forall a, b :: leq(a, b) || leq(b, a)
  }

  /** Every element may come before the next one. */
  predicate Sorted<T>(s: seq<T>, leq: (T, T) -> bool) {
    forall i | 0 < i < |s| :: leq(s[i - 1], s[i])
  }

  /** `x` placed in front of the first element it may precede. */
  function Insert<T(!new)>(x: T, s: seq<T>, leq: (T, T) -> bool): (r: seq<T>)
    requires Total(leq)
    requires Sorted(s, leq)
    ensures multiset(r) == multiset(s) + multiset{x}
    ensures Sorted(r, leq)
    ensures |r| == |s| + 1 && (r[0] == x || (|s| > 0 && r[0] == s[0]))
    decreases |s|
  {
    if |s| == 0 then [x]
    else if leq(x, s[0]) then
      [x] + s
    else
      var rest := Insert(x, s[1..], leq);
      assert leq(s[0], x);
      assert s == [s[0]] + s[1..];
      [s[0]] + rest
  }

  /** The elements of `s`, ordered by `leq`. */
  function Sort<T(!new)>(s: seq<T>, leq: (T, T) -> bool): (r: seq<T>)
    requires Total(leq)
    ensures multiset(r) == multiset(s)
    ensures Sorted(r, leq)
    decreases |s|
  {
    if |s| == 0 then []
    else
      var init := Sort(s[..|s| - 1], leq);
      assert s == s[..|s| - 1] + [s[|s| - 1]];
      Insert(s[|s| - 1], init, leq)
  }

  /** Sorting keeps the length and the elements. */
  lemma SortElements<T(!new)>(s: seq<T>, leq: (T, T) -> bool)
    requires Total(leq)
    ensures |Sort(s, leq)| == |s|
    ensures forall x :: x in Sort(s, leq) <==> x in s
  {
    var r := Sort(s, leq);
    assert |multiset(r)| == |multiset(s)|;
    forall x ensures x in r <==> x in s {
      assert x in r <==> x in multiset(r);
      assert x in s <==> x in multiset(s);
    }
  }
}

=== FILE: sse_service.dfy ===
/**
 * The live-connection registry behind the terminals' event streams: a map
 * from client id (`<terminalId>-<milliseconds>`) to an open connection.
 * Whether a write to a connection succeeds is an input, as is the clock.
 */
module SseService {
  import opened Wrappers
  import opened Strings
  import opened Records

  datatype Connection = Connection(terminalId: string, lastEventId: string)

  type Registry = map<string, Connection>

  /** The events written to a stream; timestamps are opaque ISO strings. */
  datatype Event = Connected(clientId: string, timestamp: string)
                 | Message(message: string, timestamp: string)

  /** The id a connection opened at `now` gets. */
  function ClientId(terminalId: string, now: nat): (id: string)
    ensures IsPrefix(terminalId, id) && |id| >= |terminalId| + 2
    ensures id[|terminalId|] == '-' && AllDigits(id[|terminalId| + 1..])
    ensures forall j | |terminalId| < j < |id| :: IsDigit(id[j])
  {
    var id := terminalId + "-" + ShowNat(now);
    assert id[..|terminalId|] == terminalId;
    assert id[|terminalId| + 1..] == ShowNat(now);
    id
  }

  /** Distinct (terminal, millisecond) pairs get distinct ids: the digits after the last `-` fix both. */
  lemma ClientIdInjective(a: string, n: nat, b: string, m: nat)
    requires ClientId(a, n) == ClientId(b, m)
    ensures a == b && n == m
  {
    var s := ClientId(a, n);
    assert |a| == |b| by {
      assert s[|a|] == '-' == s[|b|];
    }
    assert a == s[..|a|] == b;
    assert ShowNat(n) == s[|a| + 1..] == ShowNat(m);
    ParseShowNat(n);
    ParseShowNat(m);
  }

  datatype Registration = Registration(clients: Registry, clientId: string, first: Event)

  /**
   * A stream request for `terminalId` at `now`: the connection is stored under
   * its id, remembering the `Last-Event-ID` header or "0" when it is missing
   * or empty, and the `connected` event is the first thing written.
   */
  function Register(reg: Registry, terminalId: string, lastEventIdHeader: Option<string>,
                    now: nat, timestamp: string): (r: Registration)
    ensures r.clientId == ClientId(terminalId, now)
    ensures r.clients.Keys == reg.Keys + {r.clientId}
    ensures r.clients[r.clientId].terminalId == terminalId
    ensures r.clients[r.clientId].lastEventId == if Truthy(lastEventIdHeader) then lastEventIdHeader.value else "0"
    ensures forall k | k in reg && k != r.clientId :: r.clients[k] == reg[k]
    ensures r.first == Connected(r.clientId, timestamp)
  {
    var id := ClientId(terminalId, now);
    var last := if Truthy(lastEventIdHeader) then lastEventIdHeader.value else "0";
    Registration(reg[id := Connection(terminalId, last)], id, Connected(id, timestamp))
  }

  /** Disconnect (close, end, stream error or a failed keep-alive): forget the client. */
  function Cleanup(reg: Registry, clientId: string): (r: Registry)
    ensures clientId !in r
    ensures r.Keys == reg.Keys - {clientId}
    ensures forall k | k in r :: r[k] == reg[k]
  {
    reg - {clientId}
  }

  /** Cleaning up a client that is already gone changes nothing. */
  lemma CleanupAbsent(reg: Registry, clientId: string)
    requires clientId !in reg
    ensures Cleanup(reg, clientId) == reg
  {
  }

  /** Cleanup twice is cleanup once. */
  lemma CleanupIdempotent(reg: Registry, clientId: string)
    ensures Cleanup(Cleanup(reg, clientId), clientId) == Cleanup(reg, clientId)
  {
  }

  /** Registering a fresh id and cleaning it up leaves the registry as it was. */
  lemma CleanupUndoesRegister(reg: Registry, terminalId: string, header: Option<string>, now: nat, ts: string)
    requires ClientId(terminalId, now) !in reg
    ensures var r := Register(reg, terminalId, header, now, ts); Cleanup(r.clients, r.clientId) == reg
  {
  }

  /** The 15-second keep-alive: a failed write cleans the client up, a good one changes nothing. */
  function KeepAlive(reg: Registry, clientId: string, writeOk: bool): (r: Registry)
    ensures writeOk ==> r == reg
    ensures !writeOk ==> r == Cleanup(reg, clientId)
  {
    if writeOk then reg else Cleanup(reg, clientId)
  }

  // ---------------------------------------------------------------- push

  /** The clients a message for `terminalId` is written to: every id that starts with it. */
  function Targets(reg: Registry, terminalId: string): (t: set<string>)
    ensures t <= reg.Keys
    ensures forall k | k in reg :: k in t <==> IsPrefix(terminalId, k)
  {
    set k | k in reg && IsPrefix(terminalId, k)
  }

  datatype Pushed = Pushed(clients: Registry, delivered: set<string>, count: nat)

  /** A subset is no larger than its superset. */
  lemma {:induction false} SubsetCard(a: set<string>, b: set<string>)
    requires a <= b
    ensures |a| <= |b|
    decreases |b|
  {
    if b != {} {
      var x :| x in b;
      SubsetCard(a - {x}, b - {x});
    }
  }

  /**
   * `sendSSEMessage`: the message is written to every targeted client; the
   * count is the number of successful writes, and each failed client is
   * removed. `write(k)` says whether writing to client `k` succeeds.
   */
  function Push(reg: Registry, terminalId: string, write: string -> bool): (p: Pushed)
    ensures p.delivered <= Targets(reg, terminalId)
    ensures p.count == |p.delivered| <= |Targets(reg, terminalId)|
    ensures forall k | k in Targets(reg, terminalId) :: k in p.delivered <==> write(k)
    ensures forall k :: k in p.clients <==> k in reg && (k in p.delivered || k !in Targets(reg, terminalId))
    ensures forall k | k in p.clients :: p.clients[k] == reg[k]
  {
    var targets := Targets(reg, terminalId);
    var delivered := set k | k in targets && write(k);
    SubsetCard(delivered, targets);
    Pushed(map k | k in reg && (k !in targets || write(k)) :: reg[k], delivered, |delivered|)
  }

  /** The same push, one client at a time in the registry's iteration order. */
  method SendMessage(reg: Registry, terminalId: string, write: string -> bool)
    returns (clients: Registry, count: nat)
    ensures clients == Push(reg, terminalId, write).clients
    ensures count == Push(reg, terminalId, write).count
  {
    clients := reg;
    count := 0;
    var todo := reg.Keys;
    ghost var delivered: set<string> := {};
    while todo != {}
      invariant todo <= reg.Keys
      invariant forall k :: k in delivered <==> k in reg && k !in todo && IsPrefix(terminalId, k) && write(k)
      invariant count == |delivered|
      invariant forall k :: k in clients <==> k in reg && (k in todo || !IsPrefix(terminalId, k) || write(k))
      invariant forall k | k in clients :: clients[k] == reg[k]
      decreases |todo|
    {
      var k :| k in todo;
      if IsPrefix(terminalId, k) {
        if write(k) {
          count := count + 1;
          delivered := delivered + {k};
        } else {
          clients := clients - {k};
        }
      }
      todo := todo - {k};
    }
    assert delivered == Push(reg, terminalId, write).delivered;
  }

  /** `aico1` is a raw prefix of `aico10-…`: a message for terminal aico1 also reaches terminal aico10. */
  lemma PrefixReachesOtherTerminal(reg: Registry, now: nat)
    requires ClientId("aico10", now) in reg
    ensures ClientId("aico10", now) in Targets(reg, "aico1")
  {
    var id := ClientId("aico10", now);
    assert id[..5] == id[..6][..5];
  }

  /** A client whose write failed is gone: the next push does not target it. */
  lemma FailedClientNotTargetedAgain(reg: Registry, terminalId: string, write: string -> bool, k: string, other: string)
    requires k in Targets(reg, terminalId) && !write(k)
    ensures k !in Targets(Push(reg, terminalId, write).clients, other)
  {
  }

  // --------------------------------------------------------------- sweep

  /** The 30-second sweep: every client whose ping write fails is removed. */
  function Sweep(reg: Registry, ping: string -> bool): (r: Registry)
    ensures forall k :: k in r <==> k in reg && ping(k)
    ensures forall k | k in r :: r[k] == reg[k]
  {
    map k | k in reg && ping(k) :: reg[k]
  }

  /** The sweep is a push to the empty prefix: every client is targeted. */
  lemma SweepIsPushToAll(reg: Registry, ping: string -> bool)
    ensures Sweep(reg, ping) == Push(reg, "", ping).clients
  {
    assert forall k | k in reg :: IsPrefix("", k);
  }

  /** Sweeping again with the same outcomes removes nothing more. */
  lemma SweepIdempotent(reg: Registry, ping: string -> bool)
    ensures Sweep(Sweep(reg, ping), ping) == Sweep(reg, ping)
  {
  }

  // -------------------------------------------------- id collisions

  /**
   * Two connections of one terminal in the same millisecond share an id: the
   * second replaces the first, and the registry grows by at most one entry.
   */
  lemma SameMillisecondOverwrites(reg: Registry, terminalId: string, h1: Option<string>, h2: Option<string>,
                                  now: nat, ts1: string, ts2: string)
    ensures var r1 := Register(reg, terminalId, h1, now, ts1);
            var r2 := Register(r1.clients, terminalId, h2, now, ts2);
            && r2.clientId == r1.clientId
            && r2.clients.Keys == r1.clients.Keys
            && r2.clients[r2.clientId] == Register(reg, terminalId, h2, now, ts2).clients[r2.clientId]
  {
  }

  /** The first connection's cleanup then removes the second, still-open connection. */
  lemma StaleCleanupDropsNewer(reg: Registry, terminalId: string, h1: Option<string>, h2: Option<string>,
                               now: nat, ts1: string, ts2: string)
    ensures var r1 := Register(reg, terminalId, h1, now, ts1);
            var r2 := Register(r1.clients, terminalId, h2, now, ts2);
            r2.clientId !in Cleanup(r2.clients, r1.clientId)
  {
  }
}

=== FILE: strings.dfy ===
/**
 * The JavaScript string operations the services and controllers rely on:
 * `startsWith`, `includes`, `trim`, `split` on one character, `join`,
 * integer-to-decimal conversion, ASCII case mapping and the UTF-16 length
 * that `String.prototype.length` reports.
 */
module Strings {

  /** `s.startsWith(p)`. */
  predicate IsPrefix(p: string, s: string) {
    |p| <= |s| && s[..|p|] == p
  }

  /** `p` occurs in `s` starting at index `i`. */
  ghost predicate OccursAt(p: string, s: string, i: int) {
    0 <= i && i + |p| <= |s| && s[i..i + |p|] == p
  }

  /** An occurrence that is not at index 0 is an occurrence in the tail. */
  lemma ShiftOccurrence(p: string, s: string)
    requires |s| > 0 && !IsPrefix(p, s)
    ensures (exists i :: OccursAt(p, s, i)) <==> (exists i :: OccursAt(p, s[1..], i))
  {
    if exists i :: OccursAt(p, s, i) {
      var i :| OccursAt(p, s, i);
      assert s[0..|p|] == s[..|p|];
      assert i != 0;
      assert s[1..][i - 1..i - 1 + |p|] == s[i..i + |p|];
      assert OccursAt(p, s[1..], i - 1);
    }
    if exists i :: OccursAt(p, s[1..], i) {
      var i :| OccursAt(p, s[1..], i);
      assert s[1..][i..i + |p|] == s[i + 1..i + 1 + |p|];
      assert OccursAt(p, s, i + 1);
    }
  }

  /** `s.includes(p)`: a case-sensitive substring test scanning the start positions of `s`. */
  function Contains(s: string, p: string): (b: bool)
    ensures b <==> exists i :: OccursAt(p, s, i)
    decreases |s|
  {
    if IsPrefix(p, s) then
      assert OccursAt(p, s, 0);
      true
    else if |s| == 0 then
      false
    else
      ShiftOccurrence(p, s);
      Contains(s[1..], p)
  }

  /** The empty string is contained in every string. */
  lemma ContainsEmpty(s: string)
    ensures Contains(s, "")
  {
    assert OccursAt("", s, 0);
  }

  // ---------------------------------------------------------------- trim

  /** The characters `String.prototype.trim` strips: ECMAScript WhiteSpace and LineTerminator. */
  predicate IsWhitespace(c: char) {
    || c == '\t' || c == '\n' || c == '\U{B}' || c == '\U{C}' || c == '\r' || c == ' '
    || c == '\U{A0}' || c == '\U{1680}' || ('\U{2000}' <= c <= '\U{200A}')
    || c == '\U{2028}' || c == '\U{2029}' || c == '\U{202F}' || c == '\U{205F}'
    || c == '\U{3000}' || c == '\U{FEFF}'
  }

  predicate AllWhitespace(s: string) {
    forall k | 0 <= k < |s| :: IsWhitespace(s[k])
  }

  /** `s` with its leading whitespace removed. */
  function TrimStart(s: string): (t: string)
    ensures |t| <= |s|
    ensures t == [] || !IsWhitespace(t[0])
    decreases |s|
  {
    if |s| > 0 && IsWhitespace(s[0]) then TrimStart(s[1..]) else s
  }

  /** `s` with its trailing whitespace removed. */
  function TrimEnd(s: string): (t: string)
    ensures |t| <= |s|
    ensures t == [] || !IsWhitespace(t[|t| - 1])
    decreases |s|
  {
    if |s| > 0 && IsWhitespace(s[|s| - 1]) then TrimEnd(s[..|s| - 1]) else s
  }

  /** Only whitespace is removed from the front. */
  lemma {:induction false} TrimStartHead(s: string)
    ensures TrimStart(s) == s[|s| - |TrimStart(s)|..]
    ensures AllWhitespace(s[..|s| - |TrimStart(s)|])
    decreases |s|
  {
    if |s| > 0 && IsWhitespace(s[0]) {
      TrimStartHead(s[1..]);
      var n := |s| - |TrimStart(s)|;
      assert forall k | 1 <= k < n :: s[..n][k] == s[1..][..n - 1][k - 1];
    }
  }

  /** Only whitespace is removed from the back. */
  lemma {:induction false} TrimEndTail(s: string)
    ensures TrimEnd(s) == s[..|TrimEnd(s)|]
    ensures AllWhitespace(s[|TrimEnd(s)|..])
    decreases |s|
  {
    if |s| > 0 && IsWhitespace(s[|s| - 1]) {
      TrimEndTail(s[..|s| - 1]);
      var n := |TrimEnd(s)|;
      assert forall k | 0 <= k < |s| - 1 - n :: s[n..][k] == s[..|s| - 1][n..][k];
    }
  }

  /** `t` sits in `s` at index `i` with only whitespace before and after it. */
  ghost predicate TrimmedAt(s: string, t: string, i: int) {
    0 <= i && i + |t| <= |s| && t == s[i..i + |t|]
    && AllWhitespace(s[..i]) && AllWhitespace(s[i + |t|..])
  }

  /** No whitespace at either end. */
  predicate Trimmed(s: string) {
    s == [] || (!IsWhitespace(s[0]) && !IsWhitespace(s[|s| - 1]))
  }

  /** `s.trim()`: leading and trailing whitespace removed. */
  function Trim(s: string): (t: string)
    ensures Trimmed(t)
    ensures |t| <= |s|
  {
    TrimEndTail(TrimStart(s));
    TrimEnd(TrimStart(s))
  }

  /** The trim is the infix of `s` between a whitespace-only head and a whitespace-only tail. */
  lemma TrimMeaning(s: string)
    ensures exists i :: TrimmedAt(s, Trim(s), i)
  {
    var a := TrimStart(s);
    var t := TrimEnd(a);
    var i := |s| - |a|;
    TrimStartHead(s);
    TrimEndTail(a);
    assert a == s[i..];
    assert t == a[..|t|];
    assert t == s[i..i + |t|];
    assert s[i + |t|..] == a[|t|..];
    assert Trim(s) == t;
    assert TrimmedAt(s, t, i);
  }

  /** Trimming only removes characters. */
  lemma TrimChars(s: string)
    ensures forall c | c in Trim(s) :: c in s
  {
    var t := Trim(s);
    TrimMeaning(s);
    var i :| TrimmedAt(s, t, i);
    forall c | c in t ensures c in s {
      var k :| 0 <= k < |t| && t[k] == c;
      assert s[i + k] == c;
    }
  }

  /** A string with no whitespace at either end is its own trim. */
  lemma TrimKeeps(s: string)
    requires Trimmed(s)
    ensures Trim(s) == s
  {
  }

  /** A string of whitespace trims to nothing. */
  lemma {:induction false} TrimBlank(s: string)
    requires AllWhitespace(s)
    ensures TrimStart(s) == "" && Trim(s) == ""
    decreases |s|
  {
    if |s| > 0 {
      TrimBlank(s[1..]);
    }
  }

  /** Trimming twice is trimming once. */
  lemma TrimIdempotent(s: string)
    ensures Trim(Trim(s)) == Trim(s)
  {
    TrimKeeps(Trim(s));
  }

  // --------------------------------------------------------- split / join

  /** `s.split(d)` for a one-character separator: never empty, empty fields kept. */
  function Split(s: string, d: char): (parts: seq<string>)
    ensures |parts| >= 1
    ensures forall i | 0 <= i < |parts| :: d !in parts[i]
    decreases |s|
  {
    if |s| == 0 then [""]
    else
      var rest := Split(s[1..], d);
      if s[0] == d then [""] + rest
      else [[s[0]] + rest[0]] + rest[1..]
  }

  /** `parts.join(d)`. */
  function Join(parts: seq<string>, d: char): string
  {
    if |parts| == 0 then ""
    else if |parts| == 1 then parts[0]
    else parts[0] + [d] + Join(parts[1..], d)
  }

  /** Splitting and re-joining on the same separator gives back the string. */
  lemma {:induction false} JoinSplit(s: string, d: char)
    ensures Join(Split(s, d), d) == s
    decreases |s|
  {
    if |s| > 0 {
      JoinSplit(s[1..], d);
      var rest := Split(s[1..], d);
      if s[0] == d {
        assert ([""] + rest)[1..] == rest;
      } else {
        var parts := [[s[0]] + rest[0]] + rest[1..];
        assert parts[1..] == rest[1..];
        if |rest| > 1 {
          assert Join(rest, d) == rest[0] + [d] + Join(rest[1..], d);
        }
      }
      assert s == [s[0]] + s[1..];
    }
  }

  /** A separator-free field followed by the separator splits off as one field. */
  lemma {:induction false} SplitLeadingField(p: string, d: char, r: string)
    requires d !in p
    ensures Split(p + [d] + r, d) == [p] + Split(r, d)
    decreases |p|
  {
    var s := p + [d] + r;
    if |p| == 0 {
      assert s == [d] + r;
      assert s[1..] == r;
    } else {
      assert s[1..] == p[1..] + [d] + r;
      SplitLeadingField(p[1..], d, r);
      assert [p[0]] + p[1..] == p;
    }
  }

  /** A separator-free string is a single field. */
  lemma {:induction false} SplitWhole(p: string, d: char)
    requires d !in p
    ensures Split(p, d) == [p]
    decreases |p|
  {
    if |p| > 0 {
      SplitWhole(p[1..], d);
      assert [p[0]] + p[1..] == p;
    }
  }

  /** Joining separator-free fields and splitting again gives back the fields. */
  lemma {:induction false} SplitJoin(parts: seq<string>, d: char)
    requires |parts| >= 1
    requires forall i | 0 <= i < |parts| :: d !in parts[i]
    ensures Split(Join(parts, d), d) == parts
    decreases |parts|
  {
    if |parts| == 1 {
      SplitWhole(parts[0], d);
    } else {
      SplitJoin(parts[1..], d);
      SplitLeadingField(parts[0], d, Join(parts[1..], d));
      assert [parts[0]] + parts[1..] == parts;
    }
  }

  // -------------------------------------------------------------- numbers

  predicate IsDigit(c: char) {
    '0' <= c <= '9'
  }

  predicate AllDigits(s: string) {
    forall i | 0 <= i < |s| :: IsDigit(s[i])
  }

  function DigitChar(n: nat): (c: char)
    requires n < 10
    ensures IsDigit(c) && c as int - '0' as int == n
  {
    ('0' as int + n) as char
  }

  /** The decimal text of a non-negative integer, as template literals print it. */
  function ShowNat(n: nat): (s: string)
    ensures |s| >= 1 && AllDigits(s)
    ensures s[0] != '0' || n == 0
  {
    if n < 10 then [DigitChar(n)] else ShowNat(n / 10) + [DigitChar(n % 10)]
  }

  /** The value of a string of decimal digits. */
  function ParseNat(s: string): nat
    requires AllDigits(s)
  {
    if |s| == 0 then 0 else 10 * ParseNat(s[..|s| - 1]) + (s[|s| - 1] as int - '0' as int)
  }

  /** Reading back the decimal text of `n` gives `n`. */
  lemma {:induction false} ParseShowNat(n: nat)
    ensures ParseNat(ShowNat(n)) == n
  {
    if n >= 10 {
      ParseShowNat(n / 10);
      var s := ShowNat(n);
      assert s[..|s| - 1] == ShowNat(n / 10);
    }
  }

  /** The decimal text of an integer, with a leading `-` when negative. */
  function ShowInt(i: int): (s: string)
    ensures |s| >= 1
    ensures s[0] == '-' <==> i < 0
  {
    if i < 0 then "-" + ShowNat(-i) else ShowNat(i)
  }

  // ------------------------------------------------------------- ordering

  /** `a` sorts strictly before `b`, comparing characters from the left; a proper prefix comes first. */
  function LexLess(a: string, b: string): bool
    decreases |a|
  {
    if |a| == 0 then |b| > 0
    else if |b| == 0 then false
    else if a[0] != b[0] then a[0] < b[0]
    else LexLess(a[1..], b[1..])
  }

  /** Two different strings are ordered one way or the other, and never both. */
  lemma {:induction false} LexTotal(a: string, b: string)
    ensures a != b <==> (LexLess(a, b) || LexLess(b, a))
    ensures !(LexLess(a, b) && LexLess(b, a))
    decreases |a|
  {
    if |a| > 0 && |b| > 0 && a[0] == b[0] {
      LexTotal(a[1..], b[1..]);
      assert a == [a[0]] + a[1..];
      assert b == [b[0]] + b[1..];
    }
  }

  // ----------------------------------------------------------------- case

  /** `toUpperCase` restricted to ASCII letters. */
  function UpperChar(c: char): char {
    if 'a' <= c <= 'z' then (c as int - 32) as char else c
  }

  /** `toLowerCase` restricted to ASCII letters. */
  function LowerChar(c: char): char {
    if 'A' <= c <= 'Z' then (c as int + 32) as char else c
  }

  function ToUpper(s: string): (u: string)
    ensures |u| == |s|
  {
    seq(|s|, i requires 0 <= i < |s| => UpperChar(s[i]))
  }

  function ToLower(s: string): (u: string)
    ensures |u| == |s|
  {
    seq(|s|, i requires 0 <= i < |s| => LowerChar(s[i]))
  }

  // --------------------------------------------------------------- length

  /** `s.length`: the number of UTF-16 code units, two for a character outside the Basic Multilingual Plane. */
  function Utf16Length(s: string): (n: nat)
    ensures |s| <= n <= 2 * |s|
  {
    if |s| == 0 then 0
    else Utf16Length(s[..|s| - 1]) + (if s[|s| - 1] as int > 0xFFFF then 2 else 1)
  }
}

=== FILE: terminal_controller.dfy ===
/**
 * The terminal endpoints a device and the operator console call: registering
 * a terminal, recording a message (and dispatching the terminal's action
 * rules when the user spoke), polling, forced speech and the greeting.
 * The store is passed in and returned; rules, clocks, ids and the outcome of
 * outbound writes are inputs.
 */
module TerminalController {
  import opened Wrappers
  import opened Strings
  import opened Records
  import opened Errors
  import opened ActionService
  import opened SseService
  import opened PollingService

  const DuplicateAicoIdMessage := "このAICO IDは既に登録されています"
  const MessageRequiredMessage := "メッセージは必須です"
  const GreetingRequiredMessage := "挨拶メッセージは必須です"
  const UserSpeaker := "USER"
  const AicoSpeaker := "AICO"

  /** What reading `toUpperCase` of a missing speaker throws. */
  const SpeakerMissing: Error := Thrown("TypeError", "Cannot read properties of undefined (reading 'toUpperCase')", "")

  // --------------------------------------------------------------- lookup

  /** The position of the terminal with id `id`, if any. */
  function FindById(ts: seq<Terminal>, id: string): (k: Option<nat>)
    ensures k.Some? ==> k.value < |ts| && ts[k.value].id == id
    ensures k.None? ==> forall i | 0 <= i < |ts| :: ts[i].id != id
    decreases |ts|
  {
    if |ts| == 0 then None
    else if ts[0].id == id then Some(0)
    else
      var k := FindById(ts[1..], id);
      if k.Some? then Some(k.value + 1) else None
  }

  /** No two terminals share an AICO id. */
  predicate UniqueAicoIds(ts: seq<Terminal>) {
    forall i, j | 0 <= i < j < |ts| :: ts[i].aicoId != ts[j].aicoId
  }

  /** Some terminal already has this AICO id. */
  predicate AicoIdTaken(ts: seq<Terminal>, aicoId: string) {
    exists i | 0 <= i < |ts| :: ts[i].aicoId == aicoId
  }

  function HasAicoId(ts: seq<Terminal>, aicoId: string): (b: bool)
    ensures b <==> AicoIdTaken(ts, aicoId)
    decreases |ts|
  {
    if |ts| == 0 then false
    else if ts[0].aicoId == aicoId then true
    else
      var b := HasAicoId(ts[1..], aicoId);
      assert AicoIdTaken(ts[1..], aicoId) ==> AicoIdTaken(ts, aicoId) by {
        if AicoIdTaken(ts[1..], aicoId) {
          var i :| 0 <= i < |ts[1..]| && ts[1..][i].aicoId == aicoId;
          assert ts[i + 1].aicoId == aicoId;
        }
      }
      assert AicoIdTaken(ts, aicoId) ==> AicoIdTaken(ts[1..], aicoId) by {
        if AicoIdTaken(ts, aicoId) {
          var i :| 0 <= i < |ts| && ts[i].aicoId == aicoId;
          assert ts[1..][i - 1].aicoId == aicoId;
        }
      }
      b
  }

  // --------------------------------------------------------------- create

  datatype Created = Created(terminals: seq<Terminal>, terminal: Terminal)

  /**
   * `createTerminal`: a taken AICO id is a 409; otherwise the terminal is
   * stored OFFLINE with the column defaults (no missed ticks, no downtime,
   * never polled).
   */
  function CreateTerminal(ts: seq<Terminal>, aicoId: string, name: string, greeting: Option<string>, newId: string)
    : (r: Result<Created, Error>)
    ensures r.Err? <==> AicoIdTaken(ts, aicoId)
    ensures r.Err? ==> r.error == AppError(409, DuplicateAicoIdMessage)
    ensures r.Ok? ==> r.value.terminals == ts + [r.value.terminal]
    ensures r.Ok? ==> r.value.terminal == Terminal(newId, aicoId, name, Offline, 0, 0, None, greeting)
  {
    if HasAicoId(ts, aicoId) then Err(AppError(409, DuplicateAicoIdMessage))
    else
      var t := Terminal(newId, aicoId, name, Offline, 0, 0, None, greeting);
      Ok(Created(ts + [t], t))
  }

  /** Creating terminals never leaves two with one AICO id. */
  lemma CreateKeepsAicoIdsUnique(ts: seq<Terminal>, aicoId: string, name: string, greeting: Option<string>, newId: string)
    requires UniqueAicoIds(ts)
    ensures var r := CreateTerminal(ts, aicoId, name, greeting, newId);
            r.Ok? ==> UniqueAicoIds(r.value.terminals)
  {
  }

  /** A new terminal satisfies the liveness invariant and is not ONLINE until it polls. */
  lemma CreatedTerminalOffline(ts: seq<Terminal>, aicoId: string, name: string, greeting: Option<string>, newId: string)
    requires !AicoIdTaken(ts, aicoId)
    ensures var r := CreateTerminal(ts, aicoId, name, greeting, newId);
            r.Ok? && r.value.terminal.status == Offline && LivenessInvariant(r.value.terminal)
  {
  }

  // ------------------------------------------------------ previous message

  /** A record the current message may follow: same terminal and exchange, spoken by the user, earlier, not itself. */
  predicate Candidate(c: Conversation, terminalId: string, messageId: string, currentId: string, currentAt: int) {
    c.terminalId == terminalId && c.messageId == messageId && c.speaker == UserSpeaker
    && c.id != currentId && c.createdAt < currentAt
  }

  /** The latest candidate, the first of them on a tie. */
  function PreviousMessage(cs: seq<Conversation>, terminalId: string, messageId: string, currentId: string, currentAt: int)
    : (p: Option<Conversation>)
    ensures p.None? <==> forall i | 0 <= i < |cs| :: !Candidate(cs[i], terminalId, messageId, currentId, currentAt)
    ensures p.Some? ==> p.value in cs && Candidate(p.value, terminalId, messageId, currentId, currentAt)
    ensures p.Some? ==> forall i | 0 <= i < |cs| && Candidate(cs[i], terminalId, messageId, currentId, currentAt) ::
                          cs[i].createdAt <= p.value.createdAt
    decreases |cs|
  {
    if |cs| == 0 then None
    else
      var rest := PreviousMessage(cs[1..], terminalId, messageId, currentId, currentAt);
      assert forall i | 1 <= i < |cs| :: cs[i] == cs[1..][i - 1];
      if !Candidate(cs[0], terminalId, messageId, currentId, currentAt) then rest
      else if rest.None? || rest.value.createdAt <= cs[0].createdAt then Some(cs[0])
      else rest
  }

  // -------------------------------------------------------------- message

  datatype MessageRequest = MessageRequest(messageId: string, message: string, speaker: Option<string>, filePath: Option<string>)

  /** The reply: the stored record, with the media url only when the dispatcher returned one. */
  datatype MessageReply = MessageReply(conversation: Conversation, mediaUrl: Option<string>)

  datatype Handled = Handled(conversations: seq<Conversation>, attempted: seq<Delivery>, reply: Result<MessageReply, Error>)

  /**
   * `handleMessage` for terminal `id`: the record is stored first (a terminal
   * that does not exist makes the store reject it); a USER message is then
   * dispatched through the terminal's `rules` with its previous message.
   */
  function HandleMessage(cs: seq<Conversation>, terminalIds: set<string>, id: string, req: MessageRequest,
                         newId: string, now: int, rules: seq<Rule>, datetime: string,
                         fails: Delivery -> Option<Error>): (h: Handled)
    ensures req.speaker.None? ==> h == Handled(cs, [], Err(SpeakerMissing))
    ensures req.speaker.Some? && id !in terminalIds ==> h == Handled(cs, [], Err(StoreRejected))
    ensures req.speaker.Some? && id in terminalIds ==>
              && h.conversations == cs + [Conversation(newId, req.messageId, req.message, ToUpper(req.speaker.value), id, now, req.filePath)]
              && (ToUpper(req.speaker.value) != UserSpeaker ==> h.attempted == [] && h.reply.Ok? && h.reply.value.mediaUrl.None?)
    ensures h.reply.Ok? ==> h.reply.value.conversation == h.conversations[|h.conversations| - 1]
    ensures h.reply.Ok? && h.reply.value.mediaUrl.Some? ==> exists i | 0 <= i < |rules| :: rules[i].mediaUrl == h.reply.value.mediaUrl
  {
    if req.speaker.None? then Handled(cs, [], Err(SpeakerMissing))
    else if id !in terminalIds then Handled(cs, [], Err(StoreRejected))
    else
      var speaker := ToUpper(req.speaker.value);
      var conv := Conversation(newId, req.messageId, req.message, speaker, id, now, req.filePath);
      var stored := cs + [conv];
      if speaker != UserSpeaker then Handled(stored, [], Ok(MessageReply(conv, None)))
      else
        var prev := PreviousMessage(stored, id, req.messageId, newId, now);
        var m := Incoming(req.message, if prev.Some? then Some(prev.value.message) else None, datetime);
        var d := ProcessMessage(rules, m, fails);
        match d.outcome
        case Failed(e) => Handled(stored, d.attempted, Err(e))
        case NoMedia => Handled(stored, d.attempted, Ok(MessageReply(conv, None)))
        case MediaUrl(url) =>
          assert exists i | 0 <= i < |rules| :: rules[i].mediaUrl == Some(url) by {
            var i :| 0 <= i < |rules| && EffectOf(rules[i], m) == ReturnMedia(url);
          }
          Handled(stored, d.attempted, Ok(MessageReply(conv, Some(url))))
  }

  /** The record being stored is never its own previous message, nor is a later one. */
  lemma PreviousIsEarlier(cs: seq<Conversation>, terminalId: string, messageId: string, newId: string, now: int)
    ensures var p := PreviousMessage(cs, terminalId, messageId, newId, now);
            p.Some? ==> p.value.id != newId && p.value.createdAt < now && p.value.speaker == UserSpeaker
  {
  }

  /** A failed delivery still leaves the message recorded: the record is stored before dispatch. */
  lemma FailureKeepsRecord(cs: seq<Conversation>, terminalIds: set<string>, id: string, req: MessageRequest,
                           newId: string, now: int, rules: seq<Rule>, datetime: string, fails: Delivery -> Option<Error>)
    requires req.speaker.Some? && id in terminalIds
    ensures var h := HandleMessage(cs, terminalIds, id, req, newId, now, rules, datetime, fails);
            |h.conversations| == |cs| + 1 && h.conversations[|cs|].id == newId
  {
  }

  /** Only a message whose speaker upper-cases to USER reaches the dispatcher; "user" does. */
  lemma LowerCaseUserDispatches()
    ensures ToUpper("user") == UserSpeaker
  {
  }

  /** A dispatch that returns media answers exactly that url. */
  lemma MediaReachesReply(cs: seq<Conversation>, terminalIds: set<string>, id: string, req: MessageRequest,
                          newId: string, now: int, rules: seq<Rule>, datetime: string, fails: Delivery -> Option<Error>)
    requires req.speaker.Some? && id in terminalIds && ToUpper(req.speaker.value) == UserSpeaker
    ensures var h := HandleMessage(cs, terminalIds, id, req, newId, now, rules, datetime, fails);
            var prev := PreviousMessage(h.conversations, id, req.messageId, newId, now);
            var d := ProcessMessage(rules, Incoming(req.message, if prev.Some? then Some(prev.value.message) else None, datetime), fails);
            && h.attempted == d.attempted
            && (d.outcome.MediaUrl? <==> h.reply.Ok? && h.reply.value.mediaUrl.Some?)
            && (d.outcome.MediaUrl? ==> h.reply.value.mediaUrl == Some(d.outcome.url))
            && (d.outcome.Failed? <==> h.reply.Err?)
  {
  }

  // --------------------------------------------------------------- polling

  datatype Polled = Polled(terminals: seq<Terminal>, reply: Result<Option<string>, Error>)

  /** `handlePolling`: a heartbeat for a stored terminal answers `{greeting}`; an unknown id is rejected by the store. */
  function PollTerminal(ts: seq<Terminal>, id: string, now: int): (r: Polled)
    ensures FindById(ts, id).None? ==> r == Polled(ts, Err(StoreRejected))
    ensures FindById(ts, id).Some? ==>
              var k := FindById(ts, id).value;
              && r.terminals == ts[k := Heartbeat(ts[k], now).terminal]
              && r.reply == Ok(Heartbeat(ts[k], now).greeting)
  {
    match FindById(ts, id)
    case None => Polled(ts, Err(StoreRejected))
    case Some(k) =>
      var p := Heartbeat(ts[k], now);
      Polled(ts[k := p.terminal], Ok(p.greeting))
  }

  // ----------------------------------------------------------- force speak

  datatype Forced = Forced(conversations: seq<Conversation>, clients: Registry, reply: Result<nat, Error>)

  /**
   * `forceSpeak`: a falsy message is a 400 before anything happens; otherwise
   * an AICO record with exchange id `force_<now>` is stored (rejected for an
   * unknown terminal) and the message is pushed to the terminal's streams.
   */
  function ForceSpeak(cs: seq<Conversation>, terminalIds: set<string>, reg: Registry, id: string,
                      message: Option<string>, newId: string, now: nat, write: string -> bool): (f: Forced)
    ensures !Truthy(message) ==> f == Forced(cs, reg, Err(AppError(400, MessageRequiredMessage)))
    ensures Truthy(message) && id !in terminalIds ==> f == Forced(cs, reg, Err(StoreRejected))
    ensures Truthy(message) && id in terminalIds ==>
              && f.conversations == cs + [Conversation(newId, "force_" + ShowNat(now), message.value, AicoSpeaker, id, now, None)]
              && f.clients == Push(reg, id, write).clients
              && f.reply == Ok(Push(reg, id, write).count)
              && f.reply.value <= |Targets(reg, id)|
  {
    if !Truthy(message) then Forced(cs, reg, Err(AppError(400, MessageRequiredMessage)))
    else if id !in terminalIds then Forced(cs, reg, Err(StoreRejected))
    else
      var conv := Conversation(newId, "force_" + ShowNat(now), message.value, AicoSpeaker, id, now, None);
      var p := Push(reg, id, write);
      Forced(cs + [conv], p.clients, Ok(p.count))
  }

  /** A forced message is never a USER turn, so it is never a previous message for dispatch. */
  lemma ForcedNeverPrevious(cs: seq<Conversation>, terminalIds: set<string>, reg: Registry, id: string,
                            message: Option<string>, newId: string, now: nat, write: string -> bool,
                            messageId: string, currentId: string, at: int)
    requires Truthy(message) && id in terminalIds
    ensures var f := ForceSpeak(cs, terminalIds, reg, id, message, newId, now, write);
            !Candidate(f.conversations[|cs|], id, messageId, currentId, at)
  {
  }

  // -------------------------------------------------------------- greeting

  datatype Greeted = Greeted(terminals: seq<Terminal>, reply: Result<Terminal, Error>)

  /** `updateGreeting`: a falsy greeting is a 400; an unknown terminal is rejected by the store. */
  function UpdateGreeting(ts: seq<Terminal>, id: string, greeting: Option<string>): (g: Greeted)
    ensures !Truthy(greeting) ==> g == Greeted(ts, Err(AppError(400, GreetingRequiredMessage)))
    ensures Truthy(greeting) && FindById(ts, id).None? ==> g == Greeted(ts, Err(StoreRejected))
    ensures g.reply.Ok? ==>
              && FindById(ts, id).Some?
              && |g.terminals| == |ts|
              && g.reply.value.greeting == greeting
              && (forall i | 0 <= i < |ts| :: g.terminals[i] == if i == FindById(ts, id).value then g.reply.value else ts[i])
              && g.reply.value.(greeting := ts[FindById(ts, id).value].greeting) == ts[FindById(ts, id).value]
  {
    if !Truthy(greeting) then Greeted(ts, Err(AppError(400, GreetingRequiredMessage)))
    else
      match FindById(ts, id)
      case None => Greeted(ts, Err(StoreRejected))
      case Some(k) =>
        var t := ts[k].(greeting := greeting);
        Greeted(ts[k := t], Ok(t))
  }

  /** After a greeting is set, the terminal's next poll answers it. */
  lemma GreetingReachesPoll(ts: seq<Terminal>, id: string, greeting: string, now: int)
    requires greeting != "" && FindById(ts, id).Some?
    ensures var g := UpdateGreeting(ts, id, Some(greeting));
            g.reply.Ok? && PollTerminal(g.terminals, id, now).reply == Ok(Some(greeting))
  {
    var g := UpdateGreeting(ts, id, Some(greeting));
    var k := FindById(ts, id).value;
    assert g.terminals[k].id == id;
    FindFirstStable(ts, g.terminals, id);
  }

  /** Rewriting fields other than the id keeps where an id is first found. */
  lemma {:induction false} FindFirstStable(ts: seq<Terminal>, us: seq<Terminal>, id: string)
    requires |ts| == |us|
    requires forall i | 0 <= i < |ts| :: ts[i].id == us[i].id
    ensures FindById(ts, id) == FindById(us, id)
    decreases |ts|
  {
    if |ts| > 0 {
      FindFirstStable(ts[1..], us[1..], id);
    }
  }
}

=== FILE: use_terminals.dfy ===
/**
 * The dashboard's terminal query: how a listed terminal becomes a table
 * row, and how long the query waits before each retry after a failed fetch.
 */
module UseTerminals {
  import opened Wrappers
  import opened Records

  const MaxRetries := 3
  const BaseDelay := 1000
  const MaxDelay := 30000

  function Pow2(n: nat): (p: nat)
    ensures p >= 1
  {
    if n == 0 then 1 else 2 * Pow2(n - 1)
  }

  lemma {:induction false} Pow2Monotone(a: nat, b: nat)
    requires a <= b
    ensures Pow2(a) <= Pow2(b)
    decreases b - a
  {
    if a < b {
      Pow2Monotone(a, b - 1);
    }
  }

  /** `retryDelay`: a second doubled per attempt, capped at thirty seconds. */
  function RetryDelay(attempt: nat): (d: nat)
    ensures BaseDelay <= d <= MaxDelay
    ensures d == MaxDelay || d == BaseDelay * Pow2(attempt)
    ensures d <= BaseDelay * Pow2(attempt)
  {
    if BaseDelay * Pow2(attempt) < MaxDelay then BaseDelay * Pow2(attempt) else MaxDelay
  }

  /** A later attempt never waits less. */
  lemma RetryDelayMonotone(a: nat, b: nat)
    requires a <= b
    ensures RetryDelay(a) <= RetryDelay(b)
  {
    Pow2Monotone(a, b);
  }

  /** The delays run 1, 2, 4, 8, 16 seconds and then stay at 30. */
  lemma RetryDelayValues(a: nat)
    ensures RetryDelay(0) == 1000 && RetryDelay(4) == 16000
    ensures a >= 5 ==> RetryDelay(a) == MaxDelay
    ensures a < 4 ==> RetryDelay(a + 1) == 2 * RetryDelay(a)
  {
    assert Pow2(4) == 16 by {
      assert Pow2(1) == 2 && Pow2(2) == 4 && Pow2(3) == 8;
    }
    if a >= 5 {
      Pow2Monotone(5, a);
      assert Pow2(5) == 32;
    }
    if a < 4 {
      Pow2Monotone(a + 1, 4);
    }
  }

  /** The waits before the retries made after `failures` failed fetches: at most three. */
  function RetryWaits(failures: nat): (w: seq<nat>)
    ensures |w| == if failures < MaxRetries then failures else MaxRetries
    ensures forall i | 0 <= i < |w| :: w[i] == RetryDelay(i)
  {
    var n := if failures < MaxRetries then failures else MaxRetries;
    seq(n, i requires 0 <= i < n => RetryDelay(i))
  }

  function Sum(s: seq<nat>): nat {
    if |s| == 0 then 0 else s[0] + Sum(s[1..])
  }

  /** However often the fetch fails, the query gives up after seven seconds of waiting in all. */
  lemma RetryWaitsBounded(failures: nat)
    ensures Sum(RetryWaits(failures)) == [0, 1000, 3000, 7000][|RetryWaits(failures)|]
    ensures Sum(RetryWaits(failures)) <= 7000
  {
    RetryDelayValues(0);
    RetryDelayValues(1);
    var w := RetryWaits(failures);
    assert RetryDelay(1) == 2000 && RetryDelay(2) == 4000;
    if |w| == 1 {
      assert Sum(w) == w[0] + Sum(w[1..]) && w[1..] == [];
    } else if |w| == 2 {
      assert Sum(w) == w[0] + Sum(w[1..]);
      assert Sum(w[1..]) == w[1] + Sum(w[2..]) && w[2..] == [];
    } else if |w| == 3 {
      assert Sum(w) == w[0] + Sum(w[1..]);
      assert Sum(w[1..]) == w[1] + Sum(w[2..]);
      assert Sum(w[2..]) == w[2] + Sum(w[3..]) && w[3..] == [];
    }
  }

  // ------------------------------------------------------------------ rows

  datatype Counts = Counts(conversations: int, errorLogs: int)

  /** A terminal as the listing endpoint sends it. */
  datatype Listed = Listed(
    id: string, aicoId: string, name: string, status: Status, greeting: Option<string>,
    downtimeMinutes: int, updatedAt: string, count: Option<Counts>)

  /** A table row: the listed terminal unchanged, plus the derived columns. */
  datatype Row = Row(terminal: Listed, todayConversations: int, errorCount: int, lastUpdate: string)

  /** `x || 0` for a count that may be missing. */
  function CountOr0(c: Option<Counts>, pick: Counts -> int): (n: int)
    ensures c.None? ==> n == 0
    ensures c.Some? ==> n == pick(c.value)
  {
    if c.Some? then pick(c.value) else 0
  }

  function ToRow(t: Listed): (r: Row)
    ensures r.terminal == t && r.lastUpdate == t.updatedAt
    ensures t.count.None? ==> r.todayConversations == 0 && r.errorCount == 0
    ensures t.count.Some? ==> r.todayConversations == t.count.value.conversations && r.errorCount == t.count.value.errorLogs
  {
    Row(t, CountOr0(t.count, (c: Counts) => c.conversations), CountOr0(t.count, (c: Counts) => c.errorLogs), t.updatedAt)
  }

  /** The rows, one per listed terminal, in the order listed. */
  function ToRows(ts: seq<Listed>): (rs: seq<Row>)
    ensures |rs| == |ts|
    ensures forall i | 0 <= i < |ts| :: rs[i] == ToRow(ts[i])
  {
    seq(|ts|, i requires 0 <= i < |ts| => ToRow(ts[i]))
  }

  /** Dropping the derived columns gives back the listing. */
  lemma RowsKeepListing(ts: seq<Listed>)
    ensures seq(|ToRows(ts)|, i requires 0 <= i < |ToRows(ts)| => ToRows(ts)[i].terminal) == ts
  {
  }
}

=== FILE: wrappers.dfy ===
/** Optional values and results with an error, shared by every module. */
module Wrappers {

  /** A value that may be absent: JavaScript's `undefined`/`null` next to a present value. */
  datatype Option<+T> = None | Some(value: T) {

    /** The value, or `default` when absent. */
    function GetOr(default: T): T {
      match this
      case Some(v) => v
      case None => default
    }
  }

  /** The outcome of a request handler: a reply, or the error passed to the error middleware. */
  datatype Result<+T, +E> = Ok(value: T) | Err(error: E)
}
